=== FILE: README.md ===
# Justicia y Café: the open-tab order engine, in Dafny

This project is a Dafny model of the ordering core of the café's chat service, together with proofs about it.

## The open-tab order engine (`Orders`, `OrderFacts`)

A customer talks to a classifier through a chat endpoint. Each classified message does one of four things:
- opens a `pendiente` order for that customer;
- adds lines to the customer's open order (the "comanda abierta");
- cancels that order, within five minutes of its creation;
- is answered with text. The text is sent as several bubbles when it is a JSON list of strings.

The store is an in-memory map from order id to the stored document, a Python-style dictionary of `Value`s. It also holds each customer's chat history.

The classifier and the answer to the "pending order for this phone" query are oracles:
- The classifier's reply is a `ClassifierReply`.
- The query's answer is any answer the query could give, as `PendingAnswer` states it.

The clock, the fresh id suffix, the menu documents and the fuzzy scorer are parameters.

## The debounce coalescer (`Debounce`)

The chat endpoint groups rapid messages from one customer:
- Each request appends its text to the customer's buffer and becomes the customer's latest request.
- After the wait, only the latest request takes the space-joined buffer to the engine. Every earlier request answers `ignorar`.

Requests are modelled as interleaved `Submit` and `Wake` events.

## The whole service (`Cafe`)

`Cafe` puts the coalescer, the engine and the kitchen's status writes together as one state machine. Over it, the model proves that a customer never has two open orders, as long as the kitchen never sets an order back to `pendiente`.

## Supporting modules

- `Schemas`: order lines, orders, the status enum, the order arithmetic and the dictionary round trip.
- `Menu`: the menu index, the staged product lookup and the menu listing given to the classifier.
- `Bubbles`: a recogniser for JSON lists of strings, and a renderer that it reads back.
- `Kitchen`: the kitchen screen's age badge.
- `Crm`: the loyalty report's per-customer aggregation, favourite product and tier.
- `Text`, `Clock`, `Common`: case folding, accent folding, stripping, string order and sorting; timestamps; small sequence helpers.

## Modelling conventions

**Money.** Money is an exact `real`. Python's float rounding is not modelled.

**Time.**
- Times are integer microseconds.
- A `Timestamp` is either timezone-aware (local time plus offset) or naive.
- Python's `int(x / 60)` truncates toward zero. It is written out as `Clock.WholeMinutes`, and `Orders.Trunc` does the same for `int()` of a float.

**Atomic handlers.** Every store call the engine makes is synchronous inside its `async` wrapper, so a handler runs without interleaving. The only suspension points are the debounce wait and the classifier call. `Cafe` therefore splits a chat in two:
- the winning wake, which saves the customer's turn;
- the classifier's answer, which is handled atomically against the store as it is at that moment.

**Validation.**
- The request model requires a message of at least one character (`min_length=1`). An empty message is refused before it reaches the buffer.
- A line is rejected when its quantity is not positive, or when the classifier's price on a menu miss is negative. `OrderItem` validation refuses such a line. `process_chat` turns the exception into an `error` response, and nothing is written except the customer's turn. An unknown product, by contrast, is never a reason to reject a line.

## Model

| member | source | states |
|---|---|---|
| Schemas.ParseStatus | app/models/schemas.py:19-25 | a status name parses back to a status that prints as that name, and every one of the five names parses |
| Schemas.StatusNameRoundTrip | app/models/schemas.py:19-25 | printing a status and parsing the text gives back the same status |
| Schemas.StatusEnumeration | app/models/schemas.py:19-25 | there are exactly five statuses, every status is among them, and their names are pairwise distinct |
| Schemas.MakeOrderItem | app/models/schemas.py:63-74 | a line is accepted exactly when quantity > 0 and price ≥ 0; an accepted line keeps the given fields and defaults cost to 0.0, modifiers to [] and prep to 5 minutes per unit |
| Schemas.Subtotal | app/models/schemas.py:76-80 | a valid line's subtotal is never negative and is at least its unit price |
| Schemas.CostoTotal | app/models/schemas.py:82-86 | when the unit cost is 30% of the unit price, the line cost is 30% of the line subtotal |
| Schemas.CalcularTotal | app/models/schemas.py:122-124 | the order total of valid lines is never negative |
| Schemas.CalcularTiempoPrep | app/models/schemas.py:126-128 | the prep time of lines with positive quantities and non-negative unit prep is never negative |
| Schemas.CalcularTotalAppend | app/models/schemas.py:122-124 | the total of two lists of lines appended is the sum of their totals |
| Schemas.CalcularTiempoPrepAppend | app/models/schemas.py:126-128 | the prep time of two lists of lines appended is the sum of their prep times |
| Schemas.AllValidCons | app/models/schemas.py:69-70 | a valid line in front of valid lines gives valid lines |
| Schemas.NewOrder | app/models/schemas.py:89-117 | an order is built exactly when its total is not negative; it is then pending, created now, with the given fields and default payment, invoice, schedule and notes |
| Schemas.ItemsToValuesAt | app/models/schemas.py:34-40 | dumping a list of lines dumps line k to entry k |
| Schemas.ItemFromDoc | app/models/schemas.py:42-74 | a line read back from a dictionary always meets the line constraints |
| Schemas.ItemsFromValues | app/models/schemas.py:42-47 | lines read back from a list keep its length and are all valid |
| Schemas.OrderFromDoc | app/models/schemas.py:42-117 | an order read back always meets the order constraints, and a non-empty document id replaces the stored id |
| Schemas.StrListRoundTrip | app/models/schemas.py:34-47 | a dumped list of strings reads back unchanged |
| Schemas.ItemRoundTrip | app/models/schemas.py:34-86 | reading back a dumped valid line gives the same line (the computed subtotal and cost fields are ignored on the way back) |
| Schemas.ItemsRoundTrip | app/models/schemas.py:34-47 | reading back a dumped list of valid lines gives the same lines in the same order |
| Schemas.ItemsFromValuesSnoc | app/models/schemas.py:42-47 | reading one more dumped line extends the lines read by exactly that line |
| Schemas.OrderIdentityFields | app/models/schemas.py:42-101 | after the round trip the id is the document id when one is given and the stored one otherwise; customer and creation time are kept |
| Schemas.OrderItemsField | app/models/schemas.py:42-104 | after the round trip the lines are the order's lines |
| Schemas.OrderTotalAndStatusFields | app/models/schemas.py:42-108 | after the round trip total and status are the order's |
| Schemas.OrderTailFields | app/models/schemas.py:42-120 | after the round trip payment, invoice, both delivery times, prep time and notes are the order's |
| Schemas.OrderRoundTrip | app/models/schemas.py:34-47 | reading back a dumped valid order gives the same order, with its id replaced by the document id when a non-empty one is given |
| Text.Lower | app/services/menu_service.py:101 | lower-casing keeps the length and lower-cases each character in place |
| Text.LowerIdempotent | app/services/menu_service.py:77 | lower-casing twice is lower-casing once, and leaves no upper-case letter |
| Text.PlainChar | app/services/menu_service.py:73-76 | á é í ó ú ñ ü become a e i o u n u, and every other character is left as it is |
| Text.Normalize | app/services/menu_service.py:70-80 | each character is lower-cased and then folded by the accent table, so the result has the input's length and holds no upper-case letter and none of á é í ó ú ñ ü |
| Text.NormalizeIdempotent | app/services/menu_service.py:70-80 | folding twice is folding once |
| Text.NormalizeFixesPlain | app/services/menu_service.py:70-80 | text without upper-case letters or folded accents is left unchanged |
| Text.Strip | app/services/menu_service.py:101 | the result is the window of the input left after removing the leading and trailing white space: everything before and after it is white space, and it neither starts nor ends with white space |
| Text.StripUnique | app/services/menu_service.py:101 | any window surrounded only by white space, and neither starting nor ending with white space, is the stripped text |
| Text.StripIdempotent | app/services/menu_service.py:101 | stripping stripped text changes nothing |
| Text.StripAllSpace | app/services/menu_service.py:101 | text made only of white space strips to the empty string |
| Text.ContainsIff | app/services/menu_service.py:118-120 | `needle in hay` holds exactly when the needle occurs at some position of the hay |
| Text.EmptyInEverything | app/services/menu_service.py:118 | the empty string is contained in every string |
| Text.StrLeTotal | app/services/menu_service.py:172 | any two strings are ordered one way or the other |
| Text.StrLeTrans | app/services/menu_service.py:172 | the string order is transitive |
| Text.StrLeAntisym | app/services/menu_service.py:172 | two strings ordered both ways are equal |
| Text.SortStrings | app/services/menu_service.py:172 | the result is sorted and is a permutation of the input |
| Text.SortedUnique | app/services/menu_service.py:172 | two sorted permutations of the same multiset are the same list |
| Menu.Lookup | app/services/menu_service.py:50-59 | a key is found exactly when it is present, and with unique keys the value found is the one stored under it |
| Menu.PutLookup | app/services/menu_service.py:50-59 | after assigning a key, that key reads the new value and every other key reads what it did before |
| Menu.PutUnique | app/services/menu_service.py:50-59 | assigning a key keeps dictionary keys unique |
| Menu.IndexKeys | app/services/menu_service.py:53-59 | an item is indexed under its lower-cased name first, and also under its folded name, and under nothing else |
| Menu.PutAllLookup | app/services/menu_service.py:53-59 | after indexing an item's keys, those keys name the item and every other key is unchanged |
| Menu.LoadMenu | app/services/menu_service.py:31-63 | a loaded cache is returned untouched with its size; otherwise the index is rebuilt from the source; afterwards the cache is loaded |
| Menu.ReloadMenu | app/services/menu_service.py:65-68 | reloading always rebuilds the index from the source and returns its size |
| Menu.BuildIndexContents | app/services/menu_service.py:45-59 | after loading, a name key names the id of the last item written under it, and an id holds the last item with that id |
| Menu.BuildIndexWellFormed | app/services/menu_service.py:45-59 | after loading, keys are unique and every id the name index holds is in the cache |
| Menu.EveryNameIndexed | app/services/menu_service.py:53-59 | every loaded item can be found under its lower-cased name and under its folded name |
| Menu.LastWriterFound | app/services/menu_service.py:50-59 | every key some item writes has a last writer |
| Menu.LastWithIdFound | app/services/menu_service.py:46-50 | every loaded item's id has a last item stored under it |
| Menu.SubstringScan | app/services/menu_service.py:116-121 | the scan finds nothing exactly when no index key matches in either direction, and otherwise returns the id of the first key that does |
| Menu.FuzzyScan | app/services/menu_service.py:123-138 | a fuzzy hit scores above zero and at least the threshold, no key reaching the threshold scores higher, and every key before the hit scores strictly lower, so the earliest of equal best scores wins; with no hit the best score is zero |
| Menu.Search | app/services/menu_service.py:87-99 | a lookup loads the menu first if needed, and leaves a loaded cache untouched |
| Menu.SearchLoaded | app/services/menu_service.py:98-140 | on a loaded cache the lookup is the staged search alone |
| Menu.ExactNameFirst | app/services/menu_service.py:101-106 | a query whose stripped lower-case form is an indexed name returns exactly the item that name indexes |
| Menu.FoldedNameSecond | app/services/menu_service.py:108-110 | otherwise, a query whose folded form is indexed returns that item |
| Menu.IdThird | app/services/menu_service.py:112-114 | otherwise, a query that is an item id returns that item |
| Menu.SubstringFourth | app/services/menu_service.py:116-121 | otherwise, the first index key, in insertion order, that contains or is contained in the query decides the item |
| Menu.SubstringStage | app/services/menu_service.py:116-121 | the substring stage on the already stripped and folded query: the first matching index key decides the item |
| Menu.BlankQueryFirstEntry | app/services/menu_service.py:101-119 | a blank query on a non-empty index returns the item of the first index entry |
| Menu.FuzzyFifth | app/services/menu_service.py:123-140 | otherwise, a returned item is that of an index key that reaches the threshold, scores highest among the keys that do, and scores strictly above every earlier key, so the earliest of equal best scores wins; with nothing reaching the threshold the lookup finds nothing |
| Menu.FuzzyStage | app/services/menu_service.py:123-140 | the fuzzy stage on the already stripped and folded query: a hit is the item of the earliest best-scoring key that reaches the threshold |
| Menu.FuzzyStageMiss | app/services/menu_service.py:123-140 | the fuzzy stage on the prepared query finds nothing when no key reaches the threshold |
| Menu.FirstPerName | app/services/menu_service.py:156-163 | the listed items have distinct names, each is a cache document that no earlier document shares a name with, and every name in the cache is listed |
| Menu.FirstPerNameInCacheOrder | app/services/menu_service.py:156-163 | the `seen` filter keeps exactly the documents that are the first of their name, in cache order |
| Menu.MenuTextShape | app/services/menu_service.py:148-172 | the listing is a sorted arrangement of the formatted lines of the first document of each name, in cache order, joined by newlines |
| Menu.MenuTextOrderIndependent | app/services/menu_service.py:159-172 | caches that give the same lines in any order give the same listing |
| Bubbles.SkipWs | app/services/gemini_service.py:366 | skipping never lengthens the text and stops at a character that is not JSON white space |
| Bubbles.SkipWsIsSuffix | app/services/gemini_service.py:366 | what skipping returns is a suffix of the text, and everything it dropped is JSON white space |
| Bubbles.Hex4 | app/services/gemini_service.py:366 | a `\u` escape succeeds exactly when four hex digits follow, and its value is their base-16 number, a 16-bit code unit |
| Bubbles.ParseBubbles | app/services/gemini_service.py:365-367 | a JSON list is recognised only when its first non-space character is `[` |
| Bubbles.EscapeTextBody | app/services/gemini_service.py:366 | a JSON-escaped text followed by a closing quote reads back as that text |
| Bubbles.QuoteLiteral | app/services/gemini_service.py:366 | any string written as a JSON string literal reads back as that string, leaving the rest of the input |
| Bubbles.RenderItemsElements | app/services/gemini_service.py:366 | a non-empty list of string literals with separators reads back as the same list |
| Bubbles.ParseRender | app/services/gemini_service.py:365-367 | any list of strings written as a JSON array, with white space around it, is recognised as that same list |
| Bubbles.PlainWhenNotArray | app/services/gemini_service.py:367 | text that does not start with `[` is never taken for a list |
| Bubbles.JsonStringIsPlain | app/services/gemini_service.py:367 | a JSON string, which is valid JSON but not a list, is treated as plain text |
| Bubbles.TrailingDataIsPlain | app/services/gemini_service.py:365-376 | a JSON array followed by more data is invalid JSON and is treated as plain text |
| Bubbles.NonStringElementIsPlain | app/services/gemini_service.py:365-376 | a list whose next element after any number of strings is not a string (a number, `null`, an object, a nested list, or nothing after a trailing comma) is plain text, as `" ".join` raises `TypeError` on it or `json.loads` refuses it |
| Bubbles.ElementsPrefixNone | app/services/gemini_service.py:366 | the element scan over strings and separators fails at the first element that is not a string |
| Bubbles.NumberInListIsPlain | app/services/gemini_service.py:365-376 | `["a", 1]`, `[1]` and `["a", ]` are all plain replies |
| Orders.Save | app/services/firestore_service.py:77-89 | saving a turn leaves the orders as they were and appends exactly that turn to the customer's history |
| Orders.SaveOthers | app/services/firestore_service.py:77-89 | saving a turn leaves every other customer's history as it was |
| Orders.OpenFor | app/services/firestore_service.py:93-110 | an order is open for a phone exactly when it names that phone and is `pendiente` |
| Orders.Trunc | app/services/gemini_service.py:189 | `int()` of a float truncates toward zero |
| Orders.PriceLine | app/services/gemini_service.py:187-214 | a line is priced exactly when its quantity is positive and its price is not negative; its price and prep come from the menu on a hit, and from the classifier or 5 minutes on a miss; its cost is 30% of its price |
| Orders.UnknownProductPricedByDefault | app/services/gemini_service.py:197-202 | an unknown product with no classifier price is priced at 50.0 and 5 minutes, at a cost of 15.0 |
| Orders.MenuPriceWins | app/services/gemini_service.py:194-196 | on a menu hit, the classifier's own price makes no difference |
| Orders.PriceLines | app/services/gemini_service.py:187-214 | a priced batch has one valid line per requested line; the first lookup loads the menu, and a loaded menu is not touched |
| Orders.PriceLinesLoaded | app/services/gemini_service.py:187-214 | against a loaded menu the batch is each line priced on its own, in order |
| Orders.PriceAllEach | app/services/gemini_service.py:187-214 | a batch is priced exactly when every line is, and then holds those lines in order |
| Orders.PyMulNumber | app/services/gemini_service.py:249 | Python's product of two stored numbers exists exactly when both are numbers, and its value is the product of theirs |
| Orders.PyMulFloat | app/services/gemini_service.py:249 | a product with a float operand is a float |
| Orders.PyAddNumber | app/services/gemini_service.py:249 | Python's sum of two stored numbers exists exactly when both are numbers, and its value is the sum of theirs |
| Orders.MulIntFloat | app/services/gemini_service.py:249 | an int quantity times a float price is the float product |
| Orders.LineAmountOfItem | app/services/gemini_service.py:245-249 | a dumped line's quantity times its unit price is its subtotal |
| Orders.LinesTotalSnoc | app/services/gemini_service.py:249 | the sum over one more line is the running sum plus that line's amount |
| Orders.ItemsToValuesSnoc | app/services/gemini_service.py:245 | dumping one more line appends its dictionary |
| Orders.LinesTotalAppend | app/services/gemini_service.py:245-249 | summing stored lines followed by dumped lines adds the dumped lines' subtotals to the stored sum, and fails only when the stored lines cannot be summed |
| Orders.DumpedLinesTotal | app/services/gemini_service.py:249 | the sum of the engine's own dumped lines is their order total |
| Orders.UpdatedDoc | app/services/gemini_service.py:258-263 | an update is a merge: it writes the four fields and keeps every other field of the stored order |
| Orders.HandleOrder | app/services/gemini_service.py:171-229 | an order message creates only when the query found no open order, updates only when it found one, and writes nothing when it fails |
| Orders.TooLateIff | app/services/gemini_service.py:339-344 | the minutes comparison is "more than five minutes have elapsed", strictly |
| Orders.HandleCancellation | app/services/gemini_service.py:311-354 | a cancellation answers text, a cancellation or an error; only a cancellation changes an order, and an error writes nothing |
| Orders.HandleText | app/services/gemini_service.py:356-380 | a text reply changes no order, is of kind `texto`, and carries bubbles exactly when the text is a JSON list of strings |
| Orders.Dispatch | app/services/gemini_service.py:150-165 | only an order call can load the menu; a missing answer or an unknown tool is an error; an error writes nothing |
| Orders.ProcessChat | app/services/gemini_service.py:126-169 | the customer's turn is always saved first and kept; on an error it is the only write |
| Orders.DispatchKeepsHistory | app/services/gemini_service.py:150-165 | handling an answer only appends to the customer's history and leaves every other history as it was |
| Orders.SaveAppendsOnly | app/services/firestore_service.py:77-89 | a save on a store with the same histories only appends to the customer's history |
| Orders.HandleOrderAppendsOnly | app/services/gemini_service.py:171-229 | an order message only appends to the customer's history |
| Orders.CreateAppendsOnly | app/services/gemini_service.py:276-309 | creating an order only appends to the customer's history |
| Orders.UpdateAppendsOnly | app/services/gemini_service.py:231-274 | updating an order only appends to the customer's history |
| Orders.CancelAppendsOnly | app/services/gemini_service.py:311-354 | a cancellation only appends to the customer's history |
| Orders.TextAppendsOnly | app/services/gemini_service.py:356-380 | a text reply only appends to the customer's history |
| OrderFacts.CreatedDocFields | app/services/gemini_service.py:289-298 | the stored document of a new order holds its customer, status name, lines, total, prep time, creation time and ETA |
| OrderFacts.CreateShape | app/services/gemini_service.py:276-309 | a new order is stored under `ord_` + the suffix, pending, for the customer, with total Σ subtotals, prep = batch + 5, ETA = now + prep, and the reply is `orden_creada` with that document |
| OrderFacts.CreateOpensOrder | app/services/gemini_service.py:276-309 | a valid batch always opens an order for the customer under the new id, and no other order changes |
| OrderFacts.CreatedContents | app/services/gemini_service.py:285-298 | the stored new order's lines read back as the batch, its total is Σ subtotals, and its prep is the batch's plus the 5-minute buffer |
| OrderFacts.CreatedTotalIsLineSum | app/services/gemini_service.py:249-285 | the total a new order is stored with equals the one an update would recompute from its stored lines |
| OrderFacts.ExtendedContents | app/services/gemini_service.py:241-253 | the new lines are the stored lines unchanged and in order, followed by the batch; the new total is the stored sum plus the batch's subtotals; the prep is the stored prep plus the batch's, with no second buffer |
| OrderFacts.WriteUpdateEffect | app/services/gemini_service.py:255-274 | an update writes only that order, with ETA = now + the new prep, saves the confirmation, and replies `orden_actualizada` |
| OrderFacts.UpdateAppends | app/services/gemini_service.py:231-274 | adding a batch to the open order writes its new contents and ETA to that order only |
| OrderFacts.UpdateRefused | app/services/gemini_service.py:242-253 | a stored order whose lines or prep time cannot be extended makes the update fail with nothing written |
| OrderFacts.ExtendCreated | app/services/gemini_service.py:241-253 | extending what a creation stored with a second batch gives the lines, total and prep of one order of both batches (plus the single buffer) |
| OrderFacts.SumOfBatches | app/services/gemini_service.py:249 | a stored total that adds the second batch to the first batch's total is the total of both batches |
| OrderFacts.TabEqualsOneOrder | app/services/gemini_service.py:220-309 | a tab opened with one batch and extended with another holds what one order of both batches would, under the same id |
| OrderFacts.ItemsToValuesAppend | app/services/gemini_service.py:245-246 | dumping two lists of lines is dumping their concatenation |
| OrderFacts.UpdatedDocOpenFor | app/services/gemini_service.py:258-263 | an update never changes whom an order is open for |
| OrderFacts.HandleOrderKeepsOneOpen | app/services/gemini_service.py:219-229 | an order message keeps at most one open order per customer, and after it the customer has an open order whenever it succeeded |
| OrderFacts.UpdateKeepsOneOpen | app/services/gemini_service.py:231-274 | updating the open order keeps at most one open order per customer |
| OrderFacts.CancellationKeepsOneOpen | app/services/gemini_service.py:311-354 | a cancellation keeps at most one open order per customer |
| OrderFacts.DispatchKeepsOneOpen | app/services/gemini_service.py:150-165 | whatever the classifier answers, at most one order stays open per customer |
| OrderFacts.CancelWithinWindow | app/services/gemini_service.py:343-354 | within the window only the open order's state changes, to `cancelado`; the customer has no open order afterwards; the reply is `orden_cancelada` |
| OrderFacts.CancelTooLate | app/services/gemini_service.py:343-347 | past the window no order changes and the customer is told the whole minutes elapsed, as `texto` |
| OrderFacts.CancelNothingOpen | app/services/gemini_service.py:321-326 | with no open order only the notice is saved, as `texto` |
| OrderFacts.CancelBoundary | app/services/gemini_service.py:344 | exactly five minutes after creation still cancels, and one microsecond later is too late |
| OrderFacts.ElapsedConventions | app/services/gemini_service.py:329-339 | a naive creation time is read as UTC, and an order without one counts as just created |
| OrderFacts.BubblesSurviveText | app/services/gemini_service.py:365-374 | a list of strings written as JSON, with white space around it, comes back as those bubbles, with the space-joined text saved and sent |
| OrderFacts.PlainTextVerbatim | app/services/gemini_service.py:378-380 | text that is not a JSON list of strings is saved and sent verbatim |
| Debounce.Submit | app/api/routers/chat.py:37-48 | a valid request appends its text to its customer's buffer (created empty on first use), and a fresh token becomes that customer's latest |
| Debounce.Wake | app/api/routers/chat.py:53-63 | a request that is no longer the latest is grouped and changes no buffer; the latest takes its customer's whole buffer and empties it |
| Debounce.SubmitInv | app/api/routers/chat.py:40-48 | a submit keeps every non-empty buffer in the care of a request still waiting |
| Debounce.WakeInv | app/api/routers/chat.py:53-63 | a wake keeps every non-empty buffer in the care of a request still waiting |
| Debounce.DrainedBuffersEmpty | app/api/routers/chat.py:44-63 | once no request is waiting, every buffer is empty |
| Debounce.SubmitIsolated | app/api/routers/chat.py:18-48 | a request for one customer neither changes another customer's buffer nor their latest token |
| Debounce.WakeIsolated | app/api/routers/chat.py:53-63 | a wake for one customer changes no other customer's buffer and no latest token |
| Debounce.WakeDependsOnOwnCustomer | app/api/routers/chat.py:54-62 | what a wake answers depends only on its own customer's buffer and latest token |
| Debounce.BatchesAppend | app/api/routers/chat.py:62-67 | the batches handed on over two stretches of a run are those of the first followed by those of the second |
| Debounce.RunInv | app/api/routers/chat.py:36-67 | every run keeps the no-stranded-buffer invariant |
| Debounce.StepAccount | app/api/routers/chat.py:44-63 | one event hands on and leaves buffered exactly what was buffered plus what it brought |
| Debounce.RunAccount | app/api/routers/chat.py:44-63 | over any run, the texts handed on for a customer followed by what is still buffered are the texts buffered at the start followed by everything the customer sent, in order |
| Debounce.NoLossNoDuplication | app/api/routers/chat.py:44-63 | once every request has woken, each text a customer sent has been handed on exactly once, in order |
| Debounce.SubmitAllEffect | app/api/routers/chat.py:40-48 | after a burst the buffer holds the burst in order, the burst's last request is the latest, and every request of the burst is waiting |
| Debounce.BurstWakes | app/api/routers/chat.py:44-67 | when a burst's requests wake, in any order, only its last request processes, and it hands on the whole burst; every other request is grouped |
| Debounce.WakeSequence | app/api/routers/chat.py:53-67 | each wake of a burst answers grouped unless it is the last request, which answers with the burst |
| Debounce.WakeStates | app/api/routers/chat.py:53-63 | the burst's last request stays the latest, requests not yet woken still wait, and the buffer is intact until the last one wakes |
| Debounce.WakeInBurst | app/api/routers/chat.py:53-63 | one wake of a burst request processes exactly when it is the last request, and then hands on the burst |
| Cafe.KitchenWrite | app/api/routers/orders.py:50-66 | a status write leaves the histories alone and writes nothing for a missing order; for an existing order it sets `estado` to the status name and keeps every other field and every other order |
| Cafe.Step | app/api/routers/chat.py:36-67 | an arrival only buffers; a grouped wake answers `ignorar` and touches no store; the winning wake saves the joined burst as one turn and starts one classification; an answer always responds and retires its chat |
| Cafe.StepKeepsOneOpen | app/services/gemini_service.py:219-229 | every event that does not reopen an order keeps at most one open order per customer |
| Cafe.RunKeepsOneOpen | app/services/gemini_service.py:219-229 | over any interleaving of arrivals, wakes, answers and non-reopening kitchen writes, no customer ever has two open orders |
| Cafe.SecondOrderJoinsTab | app/services/gemini_service.py:219-229 | after a chat has opened an order, the query must return an open order to the customer's next chat, so that chat extends it |
| Cafe.ReopeningBreaksOpenTab | app/api/routers/orders.py:50-66 | a kitchen write that sets a cancelled order back to `pendiente` can leave a customer with two open orders |
| Cafe.UninterruptedChatIsProcessChat | app/api/routers/chat.py:62-67 | a winning wake followed directly by its answer is exactly `process_chat` on the customer's joined burst |
| Clock.UtcNow | app/services/gemini_service.py:287 | the current time is an aware timestamp at the clock reading |
| Clock.AddMinutesShift | app/services/gemini_service.py:255 | adding minutes moves the instant by that many minutes and keeps awareness |
| Clock.TruncDiv | frontend/cocina.py:386 | the quotient truncates toward zero |
| Clock.WholeMinutes | frontend/cocina.py:386 | the whole minutes in a non-negative duration are the largest count of minutes not exceeding it; in a negative duration they are the smallest count of minutes not below it, so `int()` truncates toward zero on both sides |
| Clock.WholeMinutesUnique | frontend/cocina.py:386 | those bounds determine the count: any whole number bracketing the duration that way is `WholeMinutes` of it |
| Clock.NegativeTruncates | frontend/cocina.py:386 | a duration of -390 seconds gives -6 minutes, as `int(-6.5)` does |
| Clock.WholeMinutesMonotone | frontend/cocina.py:384-386 | a longer duration never has fewer whole minutes |
| Kitchen.BandFor | frontend/cocina.py:388-393 | green exactly below 5 minutes, red exactly from 15 minutes |
| Kitchen.BandMonotone | frontend/cocina.py:388-393 | an older ticket is never shown in a calmer colour |
| Kitchen.ReplaceZ | frontend/cocina.py:376 | after the replacement no `Z` is left, and text without `Z` is unchanged |
| Kitchen.ReplaceZAppend | frontend/cocina.py:376 | the replacement distributes over concatenation |
| Kitchen.TimeStatus | frontend/cocina.py:365-393 | a missing or empty value, or text the parser refuses, shows 0 minutes in green; a datetime shows the whole minutes elapsed, with the colour of that age; a creation time in the future shows the negative minutes truncated toward zero, in green |
| Kitchen.FutureTicketTruncates | frontend/cocina.py:384-388 | a ticket stamped 390 seconds in the future shows -6 minutes in green |
| Kitchen.TextAsTime | frontend/cocina.py:374-376 | parseable text shows the same badge as the datetime it denotes, and a trailing `Z` reads like `+00:00` |
| Kitchen.ZSuffixAsOffset | frontend/cocina.py:376 | after the replacement a trailing `Z` and a trailing `+00:00` are the same text |
| Kitchen.NaiveIsUtc | frontend/cocina.py:381-382 | a naive creation time shows the same badge as that wall-clock time in UTC |
| Kitchen.BandsByElapsed | frontend/cocina.py:384-393 | green strictly before 5 minutes have elapsed, yellow from 5 up to 15 minutes, red from 15 minutes on |
| Kitchen.AgingOnlyEscalates | frontend/cocina.py:365-393 | as the clock moves on, a ticket's age never decreases and its colour never calms down |
| Crm.First | crm.py:26-28 | the first occurrence of a product is where it first appears |
| Crm.CountAll | crm.py:26 | every product seen is counted exactly as often as it occurs, and nothing else is counted |
| Crm.ProductMode | crm.py:22-28 | an empty list gives "Ninguno"; otherwise the result occurs at least as often as every product and more often than every product seen before it |
| Crm.FirstMostCounted | crm.py:26-28 | the scan returns the first product whose count none beats |
| Crm.ModeFromCounts | crm.py:26-28 | the scan's conclusion on counts is a mode of the list |
| Crm.ModeDetermined | crm.py:26-28 | the favourite is unique: two products that are both the mode are the same |
| Crm.StrictMajorityWins | crm.py:26-28 | a product occurring more often than every other is the favourite, wherever it stands |
| Crm.Segment | crm.py:102-109 | Magistrado exactly for more than five orders, Asociado for three to five, Pasante below three |
| Crm.TierMonotone | crm.py:102-109 | more orders never means a lower tier |
| Crm.ProductNames | crm.py:60-62 | the lines are read exactly when each is a dictionary whose name is a string, null or missing, and then each line gives its name, None for null, or "Desconocido" when missing |
| Crm.NullNameKept | crm.py:42-65 | a line whose `nombre_producto` is null still gives a line row with None as its product, and its order row is kept |
| Crm.Extract | crm.py:42-66 | missing id, customer, total and lines read as the document id, "Desconocido", 0.0 and none, and every line row carries the order's customer |
| Crm.StateIgnored | crm.py:42-66 | the report reads no order state, so cancelled orders count like any other |
| Crm.StoredOrderRows | crm.py:42-66 | an order stored by the engine yields its id, customer, total and the product name of each line, in order |
| Crm.StoredNames | crm.py:60-62 | the engine's dumped lines give back their product names, in order |
| Crm.NamesOfLines | crm.py:60-62 | lines that are dictionaries with string or null names give exactly those cells |
| Crm.Collect | crm.py:42-66 | one order row per document |
| Crm.OrderIdsSnoc | crm.py:84-87 | one more order row adds at most its own id to the customer's distinct ids |
| Crm.NewOrderCounts | crm.py:84-87 | an order with a new id raises the customer's Frecuencia by one and TotalGastado by its total, and changes nobody else's figures |
| Crm.RepeatedIdCountsOnce | crm.py:84-87 | a row repeating an id leaves Frecuencia as it is, while its total is still added |
| Crm.TotalAppend | crm.py:84-85 | TotalGastado over two batches of documents is the sum over each |
| Crm.Ticket | crm.py:89-90 | the ticket times the number of orders is the amount spent; with no orders there is no ticket |
| Crm.Favourite | crm.py:92-96 | a customer with line rows gets the mode of their products as favourite, and that product is one of their own line rows |
| Crm.ClientProfile | crm.py:84-111 | a customer in the report gets their distinct-order count, their summed totals, a ticket that multiplies back to the total, the mode of their products and the tier of their count |

## Left out

- Classifier plumbing: model configuration, the prompt, `_recursive_to_native`, `start_chat` and sending the message are left out. The classifier is the oracle `Orders.ClassifierReply`, whose two tools are `interpretar_orden` and `cancelar_orden`.
- Chat history fetch: fetching the history (`get_chat_history`, limited to 10 turns) only feeds the classifier, so it is not modelled. History is modelled as append-only per customer.
- Store failures: failed store writes return `False` and no caller checks the result, so write failures are not modelled. The store is an in-memory map.
- Orders.PendingAnswer: the query always answers truthfully. `get_pending_order` also returns `None` when the client is not connected, or when the query raises (firestore_service.py:93-113). `_handle_order` then creates a second open order for a customer who already has one. That failure path is not modelled, so the open-tab invariant (`Cafe.RunKeepsOneOpen`) holds only for a store that answers.
- Pending-order query: `get_pending_order` is modelled by `Orders.PendingAnswer`. It allows any open order of the customer, because the query has no ordering.
- Order ids: `uuid4().hex[:8]` is the parameter `suffix`. `Orders.CreateOrder` writes with `set`, as the source does, so a colliding suffix would replace a document. Fresh suffixes are assumed and not proved.
- Clock: the two clock readings of a new order are one parameter `now`: the creation time default and the ETA base. The same holds for an update's ETA and a cancellation's clock.
- Formatting: money is an exact real, so float rounding, `%.2f` and `strftime` formatting and the Spanish wording of replies are not modelled. A reply is a `Reply` value that carries the figures it reports.
- HTTP errors: the 500 raised when the chat handler fails, and FastAPI's request validation, are not modelled. A request breaking the field constraints is simply refused (`Debounce.ValidRequest`).
- Debounce timing: `asyncio.sleep` is modelled by `Wake` events in any order. The 2-second duration does not matter to any property.
- Debounce.Step: a wake of a request that is not waiting does nothing; a real run never has one, since each request wakes exactly once.
- Cafe.RunKeepsOneOpen: the kitchen status endpoint accepts `pendiente`, so the open-tab invariant is proved under the assumption `Cafe.NoReopen`. `Cafe.ReopeningBreaksOpenTab` shows the assumption is needed.
- Menu.FuzzyScan: the `SequenceMatcher` ratio is the uninterpreted parameter `score`, so nothing is said about which strings score high.
- Menu.FormatLine: how Python prints a float price is the parameter `showPrice`.
- Menu reads: `get_all_items`, `get_item_by_id`, `is_loaded` and `item_count` are plain reads of the cache with a lazy load. Each is `Menu.LoadMenu` followed by a read, and has no row of its own.
- Kitchen.TimeStatus: `datetime.fromisoformat` is the parameter `parse`, and the wall clock is the parameter `nowMicros`. The ticket rendering around the badge is UI.
- Orders.RawItem: `cantidad` and `precioUnitario` are numbers or absent, and an explicit `null` is read as absent. The tool's arguments are untyped dictionaries. `int("2")` and `float("12.5")` succeed on numeric strings. A non-numeric string or an explicit `null` quantity or price raises, and so does a `null` name at `.lower()` in the menu lookup. `process_chat` turns any of these into an `error` reply. None of these paths is modelled: the model prices such a line as if the field were missing.
- Orders.StoredPrep: a stored prep time that is not an integer is treated as a failure. The engine never stores one; Python would add a float to it.
- Text.Lower: only ASCII and Latin-1 capitals are lowered, while Python's `str.lower` covers all of Unicode. Latin-1 holds every capital Spanish uses (Á É Í Ó Ú Ñ Ü), which is what menu names and queries are written in.
- Bubbles.ParseBubbles: a string holding a lone surrogate escape such as `\ud800` is refused, while `json.loads` accepts it. Such a string has no counterpart among Unicode scalar values, which is what a Dafny `char` is. Such a reply is therefore sent as one plain bubble.
- Schemas.ItemFromDoc: only values of the exact type are read. pydantic's lax coercions (an int from `2.0` or `"3"`, a float from a numeric string) give `None`. The engine writes every field with its exact type, so stored orders never need them.
- Schemas.OrderFromDoc: only values of the exact type are read. pydantic's lax coercions (a datetime from an ISO string or an epoch number, an int from a whole float) give `None`, for the same reason.
- Non-string values: a stored id, customer or product name that is neither a string nor null is outside the model. So is a menu field of the wrong type.
- Crm.Ticket: with no countable order id, pandas divides by zero and gives NaN (or infinity for a non-zero total). The model returns `None` there and does not model floating-point NaN or infinity.
- Crm: reading the collection, the pandas machinery, the CSV export and the console output are not modelled, and neither are the profile write-back, the sort by TotalGastado and rounding.
- Crm report membership: the report joins the metrics and the favourites on the customer (an inner merge), so a customer with orders but no lines is not in it. `Crm.ClientProfile` requires `Crm.InReport` for that reason, and "Ninguno" never reaches the report.
- Crm null handling: null customers are dropped by the grouping, and null order ids are skipped by `nunique`. Both are modelled with `Option`.
- Legacy and UI code: `main.py`, `models.py` and `test_models.py` duplicate the schemas without the open tab, so they are not modelled. Neither are the Streamlit screens beyond the age badge, the scheduler or the batch scripts.

=== FILE: bubbles.dfy ===
/**
 * Multi-bubble replies: the classifier may answer with a JSON array of strings, each one a
 * chat bubble. `ParseBubbles` recognises the texts Python's `json.loads` (strict mode)
 * accepts whose value is a list of strings, except those holding a lone surrogate escape
 * (a `char` is a Unicode scalar value, so such a string has no counterpart here); any
 * other text — invalid JSON, JSON that is not a list, a list holding anything but
 * strings — is a plain reply.
 *
 * Parsing works on suffixes: each parser returns what it read and the rest of the input.
 */
module Bubbles {
  import opened Common

  /** JSON insignificant whitespace: space, tab, line feed, carriage return. */
  predicate IsJsonSpace(c: char) {
    c == ' ' || c == '\t' || c == '\n' || c == '\r'
  }

  /** `r` is what follows a run of JSON whitespace at the head of `s`. */
  predicate AfterWs(s: string, r: string) {
    && |r| <= |s| && r == s[|s| - |r|..]
    && forall i :: 0 <= i < |s| - |r| ==> IsJsonSpace(s[i])
  }

  /** The text after its leading JSON whitespace. */
  function SkipWs(s: string): (r: string)
    ensures |r| <= |s|
    ensures |r| > 0 ==> !IsJsonSpace(r[0])
    decreases |s|
  {
    if |s| > 0 && IsJsonSpace(s[0]) then SkipWs(s[1..]) else s
  }

  /** `SkipWs` drops exactly the leading run of JSON whitespace: what it returns is a
      suffix of the text and everything before that suffix is whitespace. */
  lemma {:induction false} SkipWsIsSuffix(s: string)
    ensures AfterWs(s, SkipWs(s))
    decreases |s|
  {
    if |s| > 0 && IsJsonSpace(s[0]) {
      SkipWsIsSuffix(s[1..]);
    }
  }

  function HexValue(c: char): Option<int> {
    if '0' <= c <= '9' then Some(c as int - '0' as int)
    else if 'a' <= c <= 'f' then Some(c as int - 'a' as int + 10)
    else if 'A' <= c <= 'F' then Some(c as int - 'A' as int + 10)
    else None
  }

  /** Four hex digits at the head of `s`, as a code unit. */
  function Hex4(s: string): (r: Option<int>)
    ensures r.Some? <==> (|s| >= 4 && HexValue(s[0]).Some? && HexValue(s[1]).Some?
      && HexValue(s[2]).Some? && HexValue(s[3]).Some?)
    ensures r.Some? ==>
      r.value == 4096 * HexValue(s[0]).value + 256 * HexValue(s[1]).value
        + 16 * HexValue(s[2]).value + HexValue(s[3]).value
    ensures r.Some? ==> 0 <= r.value < 0x1_0000
  {
    if |s| < 4 then None
    else
      match (HexValue(s[0]), HexValue(s[1]), HexValue(s[2]), HexValue(s[3]))
      case (Some(a), Some(b), Some(c), Some(d)) =>
        assert 0 <= a < 16 && 0 <= b < 16 && 0 <= c < 16 && 0 <= d < 16;
        Some(((a * 16 + b) * 16 + c) * 16 + d)
      case _ => None
  }

  predicate IsHighSurrogate(u: int) { 0xD800 <= u <= 0xDBFF }
  predicate IsLowSurrogate(u: int) { 0xDC00 <= u <= 0xDFFF }

  /** The escape after a backslash: `s` starts at the escape letter. A high surrogate
      followed by an escaped low surrogate decodes to one code point; a lone surrogate
      has no counterpart in a string of Unicode scalar values and is rejected here. */
  function Escape(s: string): (r: Option<(string, string)>)
    ensures r.Some? ==> |r.value.1| < |s|
  {
    if |s| == 0 then None
    else
      match s[0]
      case '"' => Some(("\"", s[1..]))
      case '\\' => Some(("\\", s[1..]))
      case '/' => Some(("/", s[1..]))
      case 'b' => Some(([8 as char], s[1..]))
      case 'f' => Some(([12 as char], s[1..]))
      case 'n' => Some(("\n", s[1..]))
      case 'r' => Some(("\r", s[1..]))
      case 't' => Some(("\t", s[1..]))
      case 'u' =>
        (match Hex4(s[1..])
         case None => None
         case Some(u) =>
           if IsHighSurrogate(u) then
             if |s| >= 7 && s[5] == '\\' && s[6] == 'u' then
               match Hex4(s[7..])
               case Some(lo) =>
                 if IsLowSurrogate(lo) then
                   Some(([(0x1_0000 + (u - 0xD800) * 0x400 + (lo - 0xDC00)) as char], s[11..]))
                 else None
               case None => None
             else None
           else if IsLowSurrogate(u) then None
           else Some(([u as char], s[5..])))
      case _ => None
  }

  /** The body of a string literal after its opening quote: the decoded text and what
      follows the closing quote. Raw control characters are rejected (strict mode). */
  function StringBody(s: string): (r: Option<(string, string)>)
    ensures r.Some? ==> |r.value.1| < |s|
    decreases |s|
  {
    if |s| == 0 then None
    else if s[0] == '"' then Some(("", s[1..]))
    else if s[0] == '\\' then
      match Escape(s[1..])
      case None => None
      case Some((cs, rest)) =>
        (match StringBody(rest)
         case None => None
         case Some((tail, after)) => Some((cs + tail, after)))
    else if s[0] < ' ' then None
    else
      match StringBody(s[1..])
      case None => None
      case Some((tail, after)) => Some(([s[0]] + tail, after))
  }

  function StringLiteral(s: string): (r: Option<(string, string)>)
    ensures r.Some? ==> |r.value.1| < |s|
  {
    if |s| > 0 && s[0] == '"' then StringBody(s[1..]) else None
  }

  /** The elements of a non-empty array, from the first string to the closing bracket. */
  function Elements(s: string): (r: Option<(seq<string>, string)>)
    ensures r.Some? ==> |r.value.0| > 0 && |r.value.1| < |s|
    decreases |s|
  {
    match StringLiteral(s)
    case None => None
    case Some((x, rest)) =>
      var k := SkipWs(rest);
      if |k| > 0 && k[0] == ']' then Some(([x], k[1..]))
      else if |k| > 0 && k[0] == ',' then
        match Elements(SkipWs(k[1..]))
        case None => None
        case Some((xs, after)) => Some(([x] + xs, after))
      else None
  }

  /** `json.loads(text)` when it yields a list of strings; `None` for every other text. */
  function ParseBubbles(text: string): (r: Option<seq<string>>)
    ensures r.Some? ==> |SkipWs(text)| > 0 && SkipWs(text)[0] == '['
  {
    var s := SkipWs(text);
    if |s| == 0 || s[0] != '[' then None
    else
      var t := SkipWs(s[1..]);
      if |t| > 0 && t[0] == ']' then
        if SkipWs(t[1..]) == "" then Some([]) else None
      else
        match Elements(t)
        case None => None
        case Some((xs, after)) => if SkipWs(after) == "" then Some(xs) else None
  }

  // ---------------------------------------------------------------------------
  // Rendering, the partner of parsing

  const HexDigits := "0123456789abcdef"

  /** One character inside a string literal: quote, backslash and control characters are
      escaped, everything else is written as it is. */
  function EscapeChar(c: char): string {
    if c == '"' then "\\\""
    else if c == '\\' then "\\\\"
    else if c < ' ' then "\\u00" + [HexDigits[c as int / 16], HexDigits[c as int % 16]]
    else [c]
  }

  function EscapeText(x: string): string
    decreases |x|
  {
    if |x| == 0 then "" else EscapeChar(x[0]) + EscapeText(x[1..])
  }

  function Quote(x: string): string {
    "\"" + EscapeText(x) + "\""
  }

  /** The elements of a non-empty list and the closing bracket. */
  function RenderItems(xs: seq<string>): string
    requires |xs| > 0
    decreases 2 * |xs|
  {
    Quote(xs[0]) + RenderRest(xs[1..])
  }

  /** What follows an element: the bracket, or a separator and the remaining elements. */
  function RenderRest(xs: seq<string>): string
    decreases 2 * |xs| + 1
  {
    if |xs| == 0 then "]" else ", " + RenderItems(xs)
  }

  /** A JSON rendering of a list of strings. */
  function Render(xs: seq<string>): string {
    if |xs| == 0 then "[]" else "[" + RenderItems(xs)
  }

  lemma HexDigitValue(n: int)
    requires 0 <= n < 16
    ensures HexValue(HexDigits[n]) == Some(n)
  {
  }

  lemma EscapeCharBody(c: char, t: string)
    ensures StringBody(EscapeChar(c) + t) == (match StringBody(t)
      case None => None
      case Some((tail, after)) => Some(([c] + tail, after)))
  {
    var s := EscapeChar(c) + t;
    if c == '"' || c == '\\' {
      assert s[1..] == [c] + t;
      assert Escape(s[1..]) == Some(([c], t));
    } else if c < ' ' {
      EscapeControl(c, t);
    } else {
      assert s[1..] == t;
    }
  }

  /** A control character's `\u00XX` escape decodes back to it. */
  lemma EscapeControl(c: char, t: string)
    requires c < ' '
    ensures var s := EscapeChar(c) + t; s[0] == '\\' && Escape(s[1..]) == Some(([c], t))
  {
    var s := EscapeChar(c) + t;
    var n := c as int;
    HexDigitValue(n / 16);
    HexDigitValue(n % 16);
    assert s[1..] == ['u', '0', '0', HexDigits[n / 16], HexDigits[n % 16]] + t;
    assert s[1..][1..] == ['0', '0', HexDigits[n / 16], HexDigits[n % 16]] + t;
    assert Hex4(s[1..][1..]) == Some(n);
    assert s[1..][5..] == t;
  }

  /** A rendered string body decodes back to the text, leaving what follows. */
  lemma {:induction false} EscapeTextBody(x: string, t: string)
    ensures StringBody(EscapeText(x) + "\"" + t) == Some((x, t))
    decreases |x|
  {
    if |x| == 0 {
      assert EscapeText(x) + "\"" + t == "\"" + t;
    } else {
      assert EscapeText(x) + "\"" + t == EscapeChar(x[0]) + (EscapeText(x[1..]) + "\"" + t);
      EscapeTextBody(x[1..], t);
      EscapeCharBody(x[0], EscapeText(x[1..]) + "\"" + t);
      assert [x[0]] + x[1..] == x;
    }
  }

  lemma QuoteLiteral(x: string, t: string)
    ensures StringLiteral(Quote(x) + t) == Some((x, t))
  {
    assert (Quote(x) + t)[1..] == EscapeText(x) + "\"" + t;
    EscapeTextBody(x, t);
  }

  lemma SkipWsNone(s: string)
    requires |s| == 0 || !IsJsonSpace(s[0])
    ensures SkipWs(s) == s
  {
  }

  lemma ElementsLast(s: string, x: string, t: string)
    requires StringLiteral(s) == Some((x, "]" + t))
    ensures Elements(s) == Some(([x], t))
  {
    SkipWsNone("]" + t);
    assert ("]" + t)[1..] == t;
  }

  lemma SkipWsOne(s: string)
    requires |s| == 0 || !IsJsonSpace(s[0])
    ensures SkipWs(" " + s) == s
  {
    assert (" " + s)[1..] == s;
    SkipWsNone(s);
  }

  lemma ElementsMore(s: string, x: string, rest: string, xs: seq<string>, after: string)
    requires StringLiteral(s) == Some((x, ", " + rest))
    requires |rest| > 0 && rest[0] == '"'
    requires Elements(rest) == Some((xs, after))
    ensures Elements(s) == Some(([x] + xs, after))
  {
    var k := ", " + rest;
    SkipWsNone(k);
    assert k[1..] == " " + rest;
    SkipWsOne(rest);
    ElementsComma(s, x, k);
  }

  /** `Elements` when a comma follows the first string. */
  lemma ElementsComma(s: string, x: string, k: string)
    requires StringLiteral(s) == Some((x, k))
    requires |SkipWs(k)| > 0 && SkipWs(k)[0] == ','
    ensures Elements(s) == match Elements(SkipWs(SkipWs(k)[1..]))
      case None => None
      case Some((xs, after)) => Some(([x] + xs, after))
  {
  }

  lemma {:induction false} RenderItemsElements(xs: seq<string>, t: string)
    requires |xs| > 0
    ensures Elements(RenderItems(xs) + t) == Some((xs, t))
    decreases |xs|
  {
    RenderItemsSplit(xs, t);
    if |xs| == 1 {
      LastElement(xs[0], t);
      assert [xs[0]] == xs;
    } else {
      var more := RenderItems(xs[1..]) + t;
      RenderItemsElements(xs[1..], t);
      RenderItemsHead(xs[1..]);
      NextElement(xs[0], more, xs[1..], t);
      assert [xs[0]] + xs[1..] == xs;
    }
  }

  /** A rendered list is its first string, then the bracket or a separator and the rest. */
  lemma RenderItemsSplit(xs: seq<string>, t: string)
    requires |xs| > 0
    ensures |xs| == 1 ==> RenderItems(xs) + t == Quote(xs[0]) + ("]" + t)
    ensures |xs| > 1 ==> RenderItems(xs) + t == Quote(xs[0]) + (", " + (RenderItems(xs[1..]) + t))
  {
    var rest := RenderRest(xs[1..]);
    Associative(Quote(xs[0]), rest, t);
    if |xs| > 1 {
      Associative(", ", RenderItems(xs[1..]), t);
    }
  }

  lemma Associative(a: string, b: string, c: string)
    ensures (a + b) + c == a + (b + c)
  {
  }

  /** The last element, then the closing bracket. */
  lemma LastElement(x: string, t: string)
    ensures Elements(Quote(x) + ("]" + t)) == Some(([x], t))
  {
    QuoteLiteral(x, "]" + t);
    ElementsLast(Quote(x) + ("]" + t), x, t);
  }

  /** An element, then a separator and the remaining elements. */
  lemma NextElement(x: string, more: string, ys: seq<string>, t: string)
    requires |more| > 0 && more[0] == '"'
    requires Elements(more) == Some((ys, t))
    ensures Elements(Quote(x) + (", " + more)) == Some(([x] + ys, t))
  {
    QuoteLiteral(x, ", " + more);
    ElementsMore(Quote(x) + (", " + more), x, more, ys, t);
  }

  /** How `ParseBubbles` reads an array once the leading blanks are gone. */
  lemma ParseAtBracket(text: string, s: string)
    requires SkipWs(text) == s && |s| > 1 && s[0] == '[' && s[1] != ']'
    requires SkipWs(s[1..]) == s[1..]
    ensures ParseBubbles(text) == (match Elements(s[1..])
      case None => None
      case Some((xs, after)) => if SkipWs(after) == "" then Some(xs) else None)
  {
  }

  lemma ParseEmptyArray(text: string, s: string)
    requires SkipWs(text) == s && |s| > 1 && s[0] == '[' && s[1] == ']'
    ensures ParseBubbles(text) == if SkipWs(s[2..]) == "" then Some([]) else None
  {
    SkipWsNone(s[1..]);
    assert s[1..][1..] == s[2..];
  }

  lemma SkipWsAll(w: string)
    requires forall i :: 0 <= i < |w| ==> IsJsonSpace(w[i])
    ensures SkipWs(w) == ""
  {
  }

  lemma {:induction false} SkipWsPrefix(w: string, s: string)
    requires forall i :: 0 <= i < |w| ==> IsJsonSpace(w[i])
    requires |s| == 0 || !IsJsonSpace(s[0])
    ensures SkipWs(w + s) == s
    decreases |w|
  {
    if |w| > 0 {
      assert (w + s)[1..] == w[1..] + s;
      SkipWsPrefix(w[1..], s);
    } else {
      assert w + s == s;
    }
  }

  /** Round trip: a rendered list of bubbles, with any JSON whitespace around it, parses
      back to the same list. */
  lemma ParseRender(xs: seq<string>, w1: string, w2: string)
    requires forall i :: 0 <= i < |w1| ==> IsJsonSpace(w1[i])
    requires forall i :: 0 <= i < |w2| ==> IsJsonSpace(w2[i])
    ensures ParseBubbles(w1 + Render(xs) + w2) == Some(xs)
  {
    RenderOpens(xs);
    SkipLeading(w1, Render(xs), w2);
    SkipWsAll(w2);
    if |xs| == 0 {
      ParseRenderEmpty(w1 + Render(xs) + w2, Render(xs) + w2, w2);
    } else {
      ParseRenderItems(w1 + Render(xs) + w2, xs, w2);
    }
  }

  /** Leading whitespace before text that does not start with whitespace is skipped. */
  lemma SkipLeading(w1: string, r: string, w2: string)
    requires forall i :: 0 <= i < |w1| ==> IsJsonSpace(w1[i])
    requires |r| > 0 && !IsJsonSpace(r[0])
    ensures SkipWs(w1 + r + w2) == r + w2
  {
    assert w1 + r + w2 == w1 + (r + w2);
    assert (r + w2)[0] == r[0];
    SkipWsPrefix(w1, r + w2);
  }

  /** A rendered array starts with its opening bracket. */
  lemma RenderOpens(xs: seq<string>)
    ensures |Render(xs)| > 0 && Render(xs)[0] == '['
  {
  }

  lemma ParseRenderEmpty(text: string, s: string, w2: string)
    requires s == Render([]) + w2 && SkipWs(text) == s && SkipWs(w2) == ""
    ensures ParseBubbles(text) == Some([])
  {
    assert s[2..] == w2;
    ParseEmptyArray(text, s);
  }

  lemma ParseRenderItems(text: string, xs: seq<string>, w2: string)
    requires |xs| > 0 && SkipWs(text) == Render(xs) + w2 && SkipWs(w2) == ""
    ensures ParseBubbles(text) == Some(xs)
  {
    RenderNonEmpty(xs, w2);
    RenderItemsElements(xs, w2);
    ParseAtBracket(text, Render(xs) + w2);
  }

  lemma RenderItemsHead(xs: seq<string>)
    requires |xs| > 0
    ensures |RenderItems(xs)| > 0 && RenderItems(xs)[0] == '"'
  {
    assert Quote(xs[0])[0] == '"';
  }

  lemma RenderNonEmpty(xs: seq<string>, t: string)
    requires |xs| > 0
    ensures var s := Render(xs) + t;
      |s| > 1 && s[0] == '[' && s[1] != ']' && s[1..] == RenderItems(xs) + t && SkipWs(s[1..]) == s[1..]
  {
    var r := RenderItems(xs);
    RenderItemsHead(xs);
    assert Render(xs) + t == "[" + (r + t);
    var s := "[" + (r + t);
    assert s[1..] == r + t;
    assert s[1] == r[0];
    SkipWsNone(r + t);
  }

  /** A reply whose first non-blank character is not `[` is plain text. */
  lemma PlainWhenNotArray(text: string)
    requires |SkipWs(text)| == 0 || SkipWs(text)[0] != '['
    ensures ParseBubbles(text) == None
  {
  }

  /** A well-formed JSON string is valid JSON but not a list, so it stays plain text. */
  lemma JsonStringIsPlain(x: string)
    ensures ParseBubbles(Quote(x)) == None
  {
  }

  /** Trailing data after the array is an error in `json.loads`, so the reply stays plain. */
  lemma TrailingDataIsPlain(xs: seq<string>, extra: string)
    requires |extra| > 0 && !IsJsonSpace(extra[0])
    ensures ParseBubbles(Render(xs) + extra) == None
  {
    var s := Render(xs) + extra;
    SkipWsNone(s);
    SkipWsNone(extra);
    if |xs| == 0 {
      assert s[2..] == extra;
      ParseEmptyArray(s, s);
    } else {
      RenderNonEmpty(xs, extra);
      RenderItemsElements(xs, extra);
      ParseAtBracket(s, s);
    }
  }

  /** Strings, each followed by a separator: the start of a list whose next element is
      still to come. */
  function RenderPrefix(xs: seq<string>): string
    decreases |xs|
  {
    if |xs| == 0 then "" else Quote(xs[0]) + ", " + RenderPrefix(xs[1..])
  }

  /** A list whose next element, after some strings, is not a string — a number, `null`,
      `true`, an object, a nested list, or nothing after a trailing comma — is not a list
      of strings, so the reply stays plain text. */
  lemma {:induction false} NonStringElementIsPlain(xs: seq<string>, u: string)
    requires |SkipWs(u)| == 0 || (SkipWs(u)[0] != '"' && (|xs| == 0 ==> SkipWs(u)[0] != ']'))
    ensures ParseBubbles("[" + RenderPrefix(xs) + u) == None
  {
    if |xs| == 0 {
      assert "[" + RenderPrefix(xs) + u == "[" + u;
      FirstNonStringIsPlain(u);
    } else {
      assert "[" + RenderPrefix(xs) + u == "[" + (RenderPrefix(xs) + u);
      LaterNonStringIsPlain(xs, u);
    }
  }

  /** The first element is not a string. */
  lemma FirstNonStringIsPlain(u: string)
    requires |SkipWs(u)| == 0 || (SkipWs(u)[0] != '"' && SkipWs(u)[0] != ']')
    ensures ParseBubbles("[" + u) == None
  {
    assert StringLiteral(SkipWs(u)) == None;
    ElementsFailIsPlain(u);
  }

  /** An element after one or more strings is not a string. */
  lemma LaterNonStringIsPlain(xs: seq<string>, u: string)
    requires |xs| > 0
    requires |SkipWs(u)| == 0 || SkipWs(u)[0] != '"'
    ensures ParseBubbles("[" + (RenderPrefix(xs) + u)) == None
  {
    var body := RenderPrefix(xs) + u;
    PrefixOpens(xs, u);
    SkipWsNone(body);
    ElementsPrefixNone(xs, u);
    ElementsFailIsPlain(body);
  }

  /** An array whose element scan fails is not a list of strings. */
  lemma ElementsFailIsPlain(body: string)
    requires |SkipWs(body)| == 0 || SkipWs(body)[0] != ']'
    requires Elements(SkipWs(body)) == None
    ensures ParseBubbles("[" + body) == None
  {
    SkipWsNone("[" + body);
    assert ("[" + body)[1..] == body;
  }

  /** A non-empty prefix opens with a quote. */
  lemma PrefixOpens(xs: seq<string>, u: string)
    requires |xs| > 0
    ensures RenderPrefix(xs) + u == Quote(xs[0]) + (", " + (RenderPrefix(xs[1..]) + u))
    ensures (RenderPrefix(xs) + u)[0] == '"'
  {
    assert RenderPrefix(xs) + u == Quote(xs[0]) + (", " + (RenderPrefix(xs[1..]) + u));
  }

  /** The element scan fails once it meets an element that is not a string. */
  lemma {:induction false} ElementsPrefixNone(xs: seq<string>, u: string)
    requires |xs| > 0
    requires |SkipWs(u)| == 0 || SkipWs(u)[0] != '"'
    ensures Elements(RenderPrefix(xs) + u) == None
    decreases |xs|
  {
    PrefixStep(xs, u);
    if |xs| > 1 {
      PrefixOpens(xs[1..], u);
      SkipWsNone(RenderPrefix(xs[1..]) + u);
      ElementsPrefixNone(xs[1..], u);
    } else {
      assert RenderPrefix(xs[1..]) + u == u;
      assert StringLiteral(SkipWs(u)) == None;
    }
  }

  /** Past the first string and its separator, the scan goes on with the rest. */
  lemma PrefixStep(xs: seq<string>, u: string)
    requires |xs| > 0
    ensures Elements(RenderPrefix(xs) + u) == match Elements(SkipWs(RenderPrefix(xs[1..]) + u))
      case None => None
      case Some((ys, after)) => Some(([xs[0]] + ys, after))
  {
    var rest := RenderPrefix(xs[1..]) + u;
    PrefixOpens(xs, u);
    QuoteLiteral(xs[0], ", " + rest);
    SkipSeparator(rest);
    ElementsComma(RenderPrefix(xs) + u, xs[0], ", " + rest);
  }

  /** The separator `", "` is a comma followed by whitespace. */
  lemma SkipSeparator(rest: string)
    ensures SkipWs(", " + rest) == ", " + rest
    ensures SkipWs((", " + rest)[1..]) == SkipWs(rest)
  {
    SkipWsNone(", " + rest);
    assert (", " + rest)[1..] == " " + rest;
    assert (" " + rest)[1..] == rest;
  }

  /** `["a", 1]`, `[1]` and `["a",]` are plain replies. */
  lemma NumberInListIsPlain()
    ensures ParseBubbles("[\"a\", 1]") == None
    ensures ParseBubbles("[1]") == None
    ensures ParseBubbles("[\"a\", ]") == None
  {
    PrefixOfA();
    NonStringElementIsPlain(["a"], "1]");
    assert "[" + RenderPrefix(["a"]) + "1]" == "[\"a\", 1]";
    SkipWsNone("1]");
    NonStringElementIsPlain([], "1]");
    assert "[" + RenderPrefix([]) + "1]" == "[1]";
    SkipWsNone("]");
    NonStringElementIsPlain(["a"], "]");
    assert "[" + RenderPrefix(["a"]) + "]" == "[\"a\", ]";
  }

  lemma PrefixOfA()
    ensures RenderPrefix(["a"]) == "\"a\", "
  {
    assert EscapeText("a") == "a";
    assert RenderPrefix(["a"][1..]) == "";
  }
}

=== FILE: cafe.dfy ===
/**
 * The whole service as one state machine: requests arrive and wake through the debounce
 * coalescer, a winning request saves the customer's turn and waits on the classifier, and
 * the classifier's answer is then handled in one atomic step against the store as it is at
 * that moment. Kitchen staff change order states in between. The open-tab invariant (at
 * most one open order per customer) holds in every state, provided the kitchen never
 * moves an order back to `pendiente`.
 */
module Cafe {
  import opened Common
  import opened Schemas
  import Menu
  import Debounce
  import opened Orders
  import OrderFacts

  /** A chat whose text has been saved and is waiting on the classifier. */
  datatype Classifying = Classifying(phone: string, text: string)

  datatype System = System(
    db: Db,
    cache: Menu.MenuCache,
    deb: Debounce.State,
    classifying: map<Debounce.Token, Classifying>)

  /** What the classifier and the environment supply with an answer: the reply, the pending
      query's answer, the clock reading, a fresh id suffix, the menu source and the fuzzy
      scorer. */
  datatype Answer = Answer(
    reply: ClassifierReply, pending: Option<string>, now: int, suffix: string,
    source: seq<Menu.MenuDoc>, score: (string, string) -> real)

  datatype Event =
    | Arrive(req: Debounce.ChatRequest)
    | WakeUp(token: Debounce.Token)
    | Answered(token: Debounce.Token, answer: Answer)
    | Kitchen(orderId: string, estado: OrderStatus)

  /** `update_order_status`: writes `estado` on an existing order; a missing order is
      refused and nothing is written. */
  function KitchenWrite(db: Db, id: string, st: OrderStatus): (r: Db)
    ensures r.history == db.history
    ensures id !in db.orders ==> r == db
    // an existing order gets the new `estado`; its other fields and every other order stay
    ensures id in db.orders ==> r.orders.Keys == db.orders.Keys
    ensures id in db.orders ==> forall k :: k in db.orders && k != id ==> r.orders[k] == db.orders[k]
    ensures id in db.orders ==> r.orders[id].Keys == db.orders[id].Keys + {"estado"}
    ensures id in db.orders ==> r.orders[id]["estado"] == VStr(StatusName(st))
    ensures id in db.orders ==>
      forall f :: f in db.orders[id] && f != "estado" ==> r.orders[id][f] == db.orders[id][f]
  {
    if id in db.orders then db.(orders := db.orders[id := db.orders[id]["estado" := VStr(StatusName(st))]])
    else db
  }

  /** Whether an event can happen now: a wake needs a waiting request, an answer needs a
      chat in flight and a pending-query answer that is true of the current store. */
  predicate Enabled(sys: System, e: Event) {
    match e
    case Arrive(_) => true
    case WakeUp(t) => t in sys.deb.asleep
    case Answered(t, a) => t in sys.classifying && PendingAnswer(sys.db, sys.classifying[t].phone, a.pending)
    case Kitchen(_, _) => true
  }

  /** One event, with the chat response it produces (if any). A winning wake saves the
      customer's turn (the first half of `process_chat`); the answer runs the rest. */
  function Step(sys: System, e: Event): (r: (System, Option<ChatResponse>))
    requires Enabled(sys, e)
    // an arrival only buffers
    ensures e.Arrive? ==> r.0.db == sys.db && r.0.classifying == sys.classifying && r.1.None?
    // a request that lost its burst answers `ignorar` and touches nothing else
    ensures e.WakeUp? && !Debounce.IsLatest(sys.deb, sys.deb.asleep[e.token], e.token) ==>
      (&& r.0.db == sys.db && r.0.classifying == sys.classifying
       && r.1 == Some(ChatResponse(Ignorar, Grouped, None, None)))
    // the winner saves the customer's whole burst as one turn and starts one classification
    ensures e.WakeUp? && Debounce.IsLatest(sys.deb, sys.deb.asleep[e.token], e.token) ==>
      (var phone := sys.deb.asleep[e.token];
       var text := Debounce.FullMessage(Debounce.BufferOf(sys.deb, phone));
       && r.0.classifying == sys.classifying[e.token := Classifying(phone, text)]
       && HistoryOf(r.0.db, phone) == HistoryOf(sys.db, phone) + [Turn(User, Said(text))]
       && r.0.db.orders == sys.db.orders
       && r.1.None?)
    // an answer always produces a response and retires its chat
    ensures e.Answered? ==> r.1.Some? && r.0.classifying == sys.classifying - {e.token}
  {
    match e
    case Arrive(req) => (sys.(deb := Debounce.Submit(sys.deb, req).0), None)
    case WakeUp(t) =>
      var (deb', w) := Debounce.Wake(sys.deb, t);
      (match w
       case Grouped => (sys.(deb := deb'), Some(ChatResponse(Ignorar, Grouped, None, None)))
       case Process(phone, batch) =>
         var text := Debounce.FullMessage(batch);
         (sys.(deb := deb', db := Save(sys.db, phone, Turn(User, Said(text))),
               classifying := sys.classifying[t := Classifying(phone, text)]),
          None))
    case Answered(t, a) =>
      var c := sys.classifying[t];
      var (db', cache', resp) := Dispatch(sys.db, sys.cache, c.phone, a.reply, a.pending, a.now, a.suffix, a.source, a.score);
      (sys.(db := db', cache := cache', classifying := sys.classifying - {t}), Some(resp))
    case Kitchen(id, st) => (sys.(db := KitchenWrite(sys.db, id, st)), None)
  }

  /** The kitchen never reopens an order. */
  predicate NoReopen(e: Event) {
    e.Kitchen? ==> e.estado != Pendiente
  }

  /** Every event keeps at most one open order per customer, as long as it does not reopen
      an order. */
  lemma StepKeepsOneOpen(sys: System, e: Event)
    requires Enabled(sys, e) && NoReopen(e)
    requires AtMostOnePending(sys.db.orders)
    ensures AtMostOnePending(Step(sys, e).0.db.orders)
  {
    match e
    case Arrive(_) =>
    case WakeUp(t) =>
    case Answered(t, a) =>
      var c := sys.classifying[t];
      OrderFacts.DispatchKeepsOneOpen(sys.db, sys.cache, c.phone, a.reply, a.pending, a.now, a.suffix, a.source, a.score);
    case Kitchen(id, st) =>
      if id in sys.db.orders {
        assert StatusName(st) != PendingName by {
          StatusNameRoundTrip(st);
          StatusNameRoundTrip(Pendiente);
        }
        assert OpenFor(KitchenWrite(sys.db, id, st).orders[id]).None?;
      }
  }

  /** A run of events, each taken only when enabled (a disabled one is skipped). */
  function Run(sys: System, evs: seq<Event>): System
    decreases |evs|
  {
    if |evs| == 0 then sys
    else
      var before := Run(sys, evs[..|evs| - 1]);
      var e := evs[|evs| - 1];
      if Enabled(before, e) then Step(before, e).0 else before
  }

  /** The open-tab invariant over any interleaving of arrivals, wakes, classifier answers
      and kitchen writes that never reopen an order. */
  lemma {:induction false} RunKeepsOneOpen(sys: System, evs: seq<Event>)
    requires AtMostOnePending(sys.db.orders)
    requires forall k :: 0 <= k < |evs| ==> NoReopen(evs[k])
    ensures AtMostOnePending(Run(sys, evs).db.orders)
    decreases |evs|
  {
    if |evs| > 0 {
      RunKeepsOneOpen(sys, evs[..|evs| - 1]);
      var before := Run(sys, evs[..|evs| - 1]);
      if Enabled(before, evs[|evs| - 1]) {
        StepKeepsOneOpen(before, evs[|evs| - 1]);
      }
    }
  }

  /** Two chats of one customer classified at the same time cannot open two orders: once
      the first has opened one, the pending query must return it to the second, which
      therefore extends it. */
  lemma SecondOrderJoinsTab(sys: System, t: Debounce.Token, a: Answer)
    requires Enabled(sys, Answered(t, a)) && AtMostOnePending(sys.db.orders)
    requires Step(sys, Answered(t, a)).1.value.tipo == OrdenCreada
    ensures var sys' := Step(sys, Answered(t, a)).0;
      !PendingAnswer(sys'.db, sys.classifying[t].phone, None)
  {
    var c := sys.classifying[t];
    assert a.reply.OrderCall?;
    OrderFacts.HandleOrderKeepsOneOpen(sys.db, sys.cache, c.phone, a.reply.items, a.pending, a.now, a.suffix, a.source, a.score);
  }

  /** A kitchen write that reopens an order can break the invariant: a customer with one
      open order and one cancelled order ends up with two open orders. */
  lemma ReopeningBreaksOpenTab()
    ensures var open := map["id_cliente" := VStr("5512345678"), "estado" := VStr("pendiente")];
      var closed := map["id_cliente" := VStr("5512345678"), "estado" := VStr("cancelado")];
      var db := Db(map["ord_a" := open, "ord_b" := closed], map[]);
      && AtMostOnePending(db.orders)
      && !AtMostOnePending(KitchenWrite(db, "ord_b", Pendiente).orders)
  {
    var open := map["id_cliente" := VStr("5512345678"), "estado" := VStr("pendiente")];
    var closed := map["id_cliente" := VStr("5512345678"), "estado" := VStr("cancelado")];
    var db := Db(map["ord_a" := open, "ord_b" := closed], map[]);
    assert OpenFor(closed).None?;
    forall a, b | a in db.orders && b in db.orders && OpenFor(db.orders[a]).Some? && OpenFor(db.orders[a]) == OpenFor(db.orders[b])
      ensures a == b
    {
      assert a == "ord_a" && b == "ord_a";
    }
    var orders' := KitchenWrite(db, "ord_b", Pendiente).orders;
    assert OpenFor(orders'["ord_a"]) == Some("5512345678");
    assert OpenFor(orders'["ord_b"]) == Some("5512345678");
    assert "ord_a" != "ord_b";
  }

  /** With nothing in between, a winning wake followed by its answer is exactly
      `process_chat` on the customer's joined burst. */
  lemma UninterruptedChatIsProcessChat(sys: System, t: Debounce.Token, a: Answer)
    requires Enabled(sys, WakeUp(t))
    requires Debounce.IsLatest(sys.deb, sys.deb.asleep[t], t)
    requires PendingAnswer(sys.db, sys.deb.asleep[t], a.pending)
    ensures var phone := sys.deb.asleep[t];
      var text := Debounce.FullMessage(Debounce.BufferOf(sys.deb, phone));
      var mid := Step(sys, WakeUp(t)).0;
      && Enabled(mid, Answered(t, a))
      && var (db', cache', resp) := ProcessChat(sys.db, sys.cache, phone, text, a.reply, a.pending, a.now, a.suffix, a.source, a.score);
         && Step(mid, Answered(t, a)).0.db == db'
         && Step(mid, Answered(t, a)).0.cache == cache'
         && Step(mid, Answered(t, a)).1 == Some(resp)
  {
    var phone := sys.deb.asleep[t];
    var text := Debounce.FullMessage(Debounce.BufferOf(sys.deb, phone));
    var mid := Step(sys, WakeUp(t)).0;
    assert mid.db == Save(sys.db, phone, Turn(User, Said(text)));
    assert mid.classifying[t] == Classifying(phone, text);
  }
}

=== FILE: clock.dfy ===
/**
 * Time as the service sees it: Python datetimes reduced to integer microseconds, either
 * timezone-aware (with their UTC offset) or naive. The wall clock itself is never read here;
 * callers pass "now" in.
 */
module Clock {

  const MicrosPerSecond: int := 1_000_000
  const MicrosPerMinute: int := 60 * MicrosPerSecond

  /** A datetime: `local` is the wall-clock reading in microseconds since the epoch and
      `offset` the UTC offset in microseconds; a naive datetime has no offset. */
  datatype Timestamp = Aware(local: int, offset: int) | Naive(local: int)

  /** The instant a timestamp denotes, with a naive timestamp read as UTC
      (`dt.replace(tzinfo=timezone.utc)` when `dt.tzinfo is None`). */
  function UtcMicros(t: Timestamp): int {
    match t
    case Aware(l, o) => l - o
    case Naive(l) => l
  }

  /** `datetime.now(timezone.utc)` for a clock reading of `micros`. */
  function UtcNow(micros: int): (t: Timestamp)
    ensures t.Aware? && UtcMicros(t) == micros
  {
    Aware(micros, 0)
  }

  /** `t + timedelta(minutes=m)`: same offset, `m` minutes later. */
  function AddMinutes(t: Timestamp, m: int): Timestamp {
    match t
    case Aware(l, o) => Aware(l + m * MicrosPerMinute, o)
    case Naive(l) => Naive(l + m * MicrosPerMinute)
  }

  /** Adding minutes keeps the kind of timestamp and moves the instant by that many minutes. */
  lemma AddMinutesShift(t: Timestamp, m: int)
    ensures AddMinutes(t, m).Aware? == t.Aware?
    ensures UtcMicros(AddMinutes(t, m)) == UtcMicros(t) + m * MicrosPerMinute
  {
  }

  /** Python's `int(a / b)` for a positive divisor: the quotient truncated toward zero
      (unlike Dafny's `/`, which rounds negative quotients down). */
  function TruncDiv(a: int, b: int): (q: int)
    requires b > 0
    ensures a >= 0 ==> q >= 0 && q * b <= a < (q + 1) * b
    ensures a < 0 ==> q <= 0 && (q - 1) * b < a <= q * b
  {
    if a >= 0 then DivBounds(a, b); a / b
    else DivBounds(-a, b); -((-a) / b)
  }

  /** Dafny's quotient of a natural number lies between the neighbouring multiples. */
  lemma DivBounds(a: int, b: int)
    requires a >= 0 && b > 0
    ensures a / b >= 0 && (a / b) * b <= a < (a / b + 1) * b
  {
    assert a == (a / b) * b + a % b;
  }

  /** Whole minutes in an elapsed span, truncated toward zero like `int(seconds / 60)`. */
  function WholeMinutes(elapsedMicros: int): (m: int)
    ensures elapsedMicros >= 0 ==> 0 <= m * MicrosPerMinute <= elapsedMicros
    ensures elapsedMicros >= 0 ==> elapsedMicros < (m + 1) * MicrosPerMinute
    ensures elapsedMicros < 0 ==> m <= 0
    ensures elapsedMicros < 0 ==> (m - 1) * MicrosPerMinute < elapsedMicros <= m * MicrosPerMinute
  {
    TruncDiv(elapsedMicros, MicrosPerMinute)
  }

  /** The bounds pin the count down: a whole number of minutes bracketing the span as
      truncation toward zero does is `WholeMinutes` of it. */
  lemma WholeMinutesUnique(elapsedMicros: int, m: int)
    requires elapsedMicros >= 0 ==> m * MicrosPerMinute <= elapsedMicros < (m + 1) * MicrosPerMinute
    requires elapsedMicros < 0 ==> (m - 1) * MicrosPerMinute < elapsedMicros <= m * MicrosPerMinute
    ensures m == WholeMinutes(elapsedMicros)
  {
    var w := WholeMinutes(elapsedMicros);
    if elapsedMicros >= 0 {
      assert m * MicrosPerMinute < (w + 1) * MicrosPerMinute && w * MicrosPerMinute < (m + 1) * MicrosPerMinute;
    } else {
      assert (m - 1) * MicrosPerMinute < w * MicrosPerMinute && (w - 1) * MicrosPerMinute < m * MicrosPerMinute;
    }
  }

  /** `int(-390 / 60)` is -6: a span six and a half minutes into the future shows -6. */
  lemma NegativeTruncates()
    ensures WholeMinutes(-390 * MicrosPerSecond) == -6
  {
    WholeMinutesUnique(-390 * MicrosPerSecond, -6);
  }

  /** Truncation is monotone: a longer span never shows fewer whole minutes. */
  lemma WholeMinutesMonotone(a: int, b: int)
    requires a <= b
    ensures WholeMinutes(a) <= WholeMinutes(b)
  {
    var qa, qb := WholeMinutes(a), WholeMinutes(b);
    if a >= 0 {
      assert qa * MicrosPerMinute <= a <= b < (qb + 1) * MicrosPerMinute;
    } else if b < 0 {
      assert (qa - 1) * MicrosPerMinute < a <= b <= qb * MicrosPerMinute;
    }
  }
}

/** The business constants of the service configuration. */
module Settings {

  /** Cancellation is accepted up to this many minutes after creation. */
  const CancelTimeLimitMinutes: int := 5

  /** Minutes added once, when an order is created. */
  const DefaultPrepBufferMinutes: int := 5

  /** Unit cost as a fraction of unit price (0.30). */
  const DefaultCostPercentage: real := 0.30

  /** Debounce wait before a chat request checks whether it is still the latest. */
  const MessageBufferSeconds: real := 2.0

  /** Turns of history handed to the classifier. */
  const ChatHistoryLimit: int := 10

  /** Fallback price and prep time for a line the menu cannot price. */
  const DefaultUnitPrice: real := 50.0
  const DefaultPrepMinutes: int := 5

  /** Similarity a fuzzy menu match must reach. */
  const DefaultFuzzyThreshold: real := 0.6
}

=== FILE: common.dfy ===
/** Small shared vocabulary: an Option type and Python's `sep.join(parts)`. */
module Common {

  /** The conventional Some/None datatype, standing for Python's `Optional`/`None`. */
  datatype Option<+T> = None | Some(value: T) {

    /** `value if value is not None else default` */
    function GetOr(default: T): T {
      match this
      case Some(v) => v
      case None => default
    }
  }

  /** Python's `sep.join(parts)`: the parts in order with `sep` between neighbours. */
  function Join(sep: string, parts: seq<string>): string
    decreases |parts|
  {
    if |parts| == 0 then ""
    else if |parts| == 1 then parts[0]
    else Join(sep, parts[..|parts| - 1]) + sep + parts[|parts| - 1]
  }

  /** Joining one more part appends the separator and that part (the shape a growing buffer has). */
  lemma JoinSnoc(sep: string, parts: seq<string>, x: string)
    requires |parts| > 0
    ensures Join(sep, parts + [x]) == Join(sep, parts) + sep + x
  {
    assert (parts + [x])[..|parts + [x]| - 1] == parts;
  }

  /** Joining a single part gives the part itself. */
  lemma JoinSingleton(sep: string, x: string)
    ensures Join(sep, [x]) == x
  {
  }

  /** Concatenation of a sequence of sequences, in order. */
  function Flatten<T>(xss: seq<seq<T>>): seq<T>
    decreases |xss|
  {
    if |xss| == 0 then [] else Flatten(xss[..|xss| - 1]) + xss[|xss| - 1]
  }

  lemma FlattenSnoc<T>(xss: seq<seq<T>>, xs: seq<T>)
    ensures Flatten(xss + [xs]) == Flatten(xss) + xs
  {
    assert (xss + [xs])[..|xss + [xs]| - 1] == xss;
  }

  lemma {:induction false} FlattenAppend<T>(a: seq<seq<T>>, b: seq<seq<T>>)
    ensures Flatten(a + b) == Flatten(a) + Flatten(b)
    decreases |b|
  {
    if |b| == 0 {
      assert a + b == a;
    } else {
      var init := b[..|b| - 1];
      assert a + b == (a + init) + [b[|b| - 1]];
      FlattenSnoc(a + init, b[|b| - 1]);
      FlattenAppend(a, init);
      FlattenSnoc(init, b[|b| - 1]);
      assert init + [b[|b| - 1]] == b;
    }
  }

  /** `f` applied to every element in order, failing as soon as one application fails. */
  function MapAll<A, B>(f: A -> Option<B>, xs: seq<A>): Option<seq<B>>
    decreases |xs|
  {
    if |xs| == 0 then Some([])
    else
      match f(xs[0])
      case None => None
      case Some(y) =>
        match MapAll(f, xs[1..])
        case None => None
        case Some(ys) => Some([y] + ys)
  }

  /** `MapAll` succeeds exactly when every application does, and then holds their results. */
  lemma {:induction false} MapAllEach<A, B>(f: A -> Option<B>, xs: seq<A>)
    ensures MapAll(f, xs).Some? <==> forall k :: 0 <= k < |xs| ==> f(xs[k]).Some?
    ensures MapAll(f, xs).Some? ==> |MapAll(f, xs).value| == |xs|
    ensures MapAll(f, xs).Some? ==> (forall k :: 0 <= k < |xs| ==> MapAll(f, xs).value[k] == f(xs[k]).value)
    decreases |xs|
  {
    if |xs| > 0 {
      var tail := xs[1..];
      MapAllEach(f, tail);
      assert forall k :: 1 <= k < |xs| ==> xs[k] == tail[k - 1];
      if f(xs[0]).Some? && MapAll(f, tail).None? {
        var j :| 0 <= j < |tail| && f(tail[j]).None?;
        assert f(xs[j + 1]).None?;
      }
    }
  }
}

=== FILE: crm.dfy ===
/**
 * The loyalty report: every stored order is flattened into one order row and one row per
 * line, rows are grouped by customer, and each customer in the report gets the sum of their
 * order totals, the number of distinct order ids, the average ticket, their most-ordered
 * product and a tier derived from the order count. Reading the collection, the CSV export
 * and writing the profiles back are left to the caller.
 */
module Crm {
  import opened Common
  import opened Schemas

  // ---------------------------------------------------------------------------
  // Favourite product: the mode of a list, first occurrence winning ties

  /** A product cell of a line row: a name, or None for a stored null. `Counter` counts a
      None like any other key, so it can be the mode. */
  type Product = Option<string>

  /** What the mode of an empty list is reported as. */
  const NoProduct: Product := Some("Ninguno")

  /** The index of the first occurrence of `x` in `xs`. */
  function First(xs: seq<Product>, x: Product): (r: nat)
    requires x in xs
    ensures r < |xs| && xs[r] == x
    ensures forall j :: 0 <= j < r ==> xs[j] != x
  {
    if xs[0] == x then 0 else 1 + First(xs[1..], x)
  }

  /** `m` is a most frequent element of `xs`, and among the most frequent ones the one seen
      first (`Counter.most_common(1)` keeps first-insertion order among equal counts). */
  predicate IsMode(xs: seq<Product>, m: Product) {
    && m in xs
    && (forall k :: 0 <= k < |xs| ==> multiset(xs)[xs[k]] <= multiset(xs)[m])
    && (forall k :: 0 <= k < First(xs, m) ==> multiset(xs)[xs[k]] < multiset(xs)[m])
  }

  /** `Counter(products)`: each product seen, with how often it occurs. */
  method CountAll(products: seq<Product>) returns (counts: map<Product, nat>)
    ensures forall x :: x in counts <==> x in products
    ensures forall x :: x in counts ==> counts[x] == multiset(products)[x]
  {
    counts := map[];
    var i := 0;
    while i < |products|
      invariant 0 <= i <= |products|
      invariant forall x :: x in counts <==> x in products[..i]
      invariant forall x :: x in counts ==> counts[x] == multiset(products[..i])[x]
    {
      var x := products[i];
      assert products[..i + 1] == products[..i] + [x];
      counts := counts[x := (if x in counts then counts[x] else 0) + 1];
      i := i + 1;
    }
    assert products[..|products|] == products;
  }

  /** `get_product_mode`: count every product, then take the first one with the highest
      count; an empty list gives "Ninguno". */
  method ProductMode(products: seq<Product>) returns (m: Product)
    ensures |products| == 0 ==> m == NoProduct
    ensures |products| > 0 ==> IsMode(products, m)
  {
    if |products| == 0 {
      return NoProduct;
    }
    var counts := CountAll(products);
    m := FirstMostCounted(products, counts);
  }

  /** The scan over the counted products: the first one whose count no later one beats. */
  method FirstMostCounted(products: seq<Product>, counts: map<Product, nat>) returns (m: Product)
    requires |products| > 0
    requires forall x :: x in counts <==> x in products
    requires forall x :: x in counts ==> counts[x] == multiset(products)[x]
    ensures IsMode(products, m)
  {
    var best := 0;
    var i := 1;
    while i < |products|
      invariant 0 <= best < i <= |products|
      invariant forall k :: 0 <= k < i ==> products[k] in counts && counts[products[k]] <= counts[products[best]]
      invariant forall k :: 0 <= k < best ==> counts[products[k]] < counts[products[best]]
    {
      assert products[i] in counts;
      if counts[products[i]] > counts[products[best]] {
        best := i;
      }
      i := i + 1;
    }
    m := products[best];
    ModeFromCounts(products, counts, best);
  }

  /** The scan's conclusion, read back from the counts to the list: the product at `best`
      has the highest count and every product before it a lower one. */
  lemma ModeFromCounts(products: seq<Product>, counts: map<Product, nat>, best: nat)
    requires best < |products| && products[best] in counts
    requires forall x :: x in counts ==> counts[x] == multiset(products)[x]
    requires forall k :: 0 <= k < |products| ==> products[k] in counts && counts[products[k]] <= counts[products[best]]
    requires forall k :: 0 <= k < best ==> counts[products[k]] < counts[products[best]]
    ensures IsMode(products, products[best])
  {
    assert First(products, products[best]) <= best;
  }

  /** The mode is determined: two answers meeting `IsMode` are the same product. */
  lemma ModeDetermined(xs: seq<Product>, m1: Product, m2: Product)
    requires IsMode(xs, m1) && IsMode(xs, m2)
    ensures m1 == m2
  {
    var i1, i2 := First(xs, m1), First(xs, m2);
    assert multiset(xs)[xs[i1]] <= multiset(xs)[m2];
    assert multiset(xs)[xs[i2]] <= multiset(xs)[m1];
  }

  /** A list in which one product occurs more often than every other has that product as
      its mode, wherever it stands. */
  lemma StrictMajorityWins(xs: seq<Product>, m: Product)
    requires m in xs
    requires forall k :: 0 <= k < |xs| && xs[k] != m ==> multiset(xs)[xs[k]] < multiset(xs)[m]
    ensures IsMode(xs, m)
  {
  }

  // ---------------------------------------------------------------------------
  // Tiers

  datatype Tier = Pasante | Asociado | Magistrado {
    function Name(): string {
      match this
      case Pasante => "Pasante"
      case Asociado => "Asociado"
      case Magistrado => "Magistrado"
    }
    function Rank(): nat {
      match this
      case Pasante => 0
      case Asociado => 1
      case Magistrado => 2
    }
  }

  /** `segmentar_cliente`: more than five orders is Magistrado, three to five Asociado,
      fewer Pasante. */
  function Segment(frecuencia: int): (t: Tier)
    ensures t == Magistrado <==> frecuencia > 5
    ensures t == Asociado <==> 3 <= frecuencia <= 5
    ensures t == Pasante <==> frecuencia < 3
  {
    if frecuencia > 5 then Magistrado
    else if frecuencia >= 3 then Asociado
    else Pasante
  }

  /** More orders never means a lower tier. */
  lemma TierMonotone(f1: int, f2: int)
    requires f1 <= f2
    ensures Segment(f1).Rank() <= Segment(f2).Rank()
  {
  }

  // ---------------------------------------------------------------------------
  // Flattening the stored orders

  /** Fallback for a missing customer or product name. */
  const Unknown: string := "Desconocido"

  /** One order row: its id (`order.get('id', doc.id)`), its customer and its total; a
      stored null is a missing value, which the grouping and the sums skip. */
  datatype OrderRow = OrderRow(orderId: Option<string>, client: Option<string>, total: Option<real>)

  /** One line row: the customer and the product name (None for a stored null). */
  datatype ItemRow = ItemRow(client: Option<string>, product: Product)

  /** A string-or-null cell read with a default for a missing key; any other value is
      outside the model. */
  function Cell(d: Doc, k: string, default: string): Option<Option<string>> {
    if k !in d then Some(Some(default))
    else match d[k]
      case VStr(s) => Some(Some(s))
      case VNull => Some(None)
      case _ => None
  }

  /** The total cell: a missing key reads 0.0, a null is a missing value. */
  function TotalCell(d: Doc): Option<Option<real>> {
    if "total" !in d then Some(Some(0.0))
    else if d["total"].VNull? then Some(None)
    else match AsNumber(d["total"])
      case Some(x) => Some(Some(x))
      case None => None
  }

  /** The product cells of the stored lines, in order: a missing name reads "Desconocido"
      and a null name is None; a line that is not a dictionary, or whose name is neither a
      string nor null, is outside the model. */
  function ProductNames(vs: seq<Value>): (r: Option<seq<Product>>)
    ensures r.Some? <==> forall k :: 0 <= k < |vs| ==>
      vs[k].VMap? && Cell(vs[k].fields, "nombre_producto", Unknown).Some?
    ensures r.Some? ==> |r.value| == |vs| && forall k :: 0 <= k < |vs| ==>
      vs[k].VMap? && Cell(vs[k].fields, "nombre_producto", Unknown) == Some(r.value[k])
    decreases |vs|
  {
    if |vs| == 0 then Some([])
    else
      var init := vs[..|vs| - 1];
      var last := vs[|vs| - 1];
      assert forall k :: 0 <= k < |init| ==> init[k] == vs[k];
      if !last.VMap? then None
      else match (ProductNames(init), Cell(last.fields, "nombre_producto", Unknown))
        case (Some(ps), Some(p)) => Some(ps + [p])
        case _ => None
  }

  /** A line whose `nombre_producto` is null still gives a line row, with None as its
      product, and its order still counts. */
  lemma NullNameKept()
    ensures var d := map["id_cliente" := VStr("5512345678"),
                         "items" := VList([VMap(map["nombre_producto" := VNull])])];
      Extract("ord_x", d)
        == Some((OrderRow(Some("ord_x"), Some("5512345678"), Some(0.0)), [ItemRow(Some("5512345678"), None)]))
  {
    var line := VMap(map["nombre_producto" := VNull]);
    assert Cell(line.fields, "nombre_producto", Unknown) == Some(None);
    NamesOfLines([line], [None]);
    var d := map["id_cliente" := VStr("5512345678"), "items" := VList([line])];
    assert Cell(d, "id", "ord_x") == Some(Some("ord_x"));
    assert Cell(d, "id_cliente", Unknown) == Some(Some("5512345678"));
    assert TotalCell(d) == Some(Some(0.0));
    var ps: seq<Product> := [None];
    ExtractCells("ord_x", d, Some("ord_x"), Some("5512345678"), Some(0.0), [line], ps);
    assert seq(|ps|, k requires 0 <= k < |ps| => ItemRow(Some("5512345678"), ps[k]))
      == [ItemRow(Some("5512345678"), None)];
  }

  /** The rows one document contributes. */
  function Extract(docId: string, d: Doc): (r: Option<(OrderRow, seq<ItemRow>)>)
    ensures r.Some? ==> (
      && ("id" !in d ==> r.value.0.orderId == Some(docId))
      && ("id_cliente" !in d ==> r.value.0.client == Some(Unknown))
      && ("total" !in d ==> r.value.0.total == Some(0.0))
      && ("items" !in d ==> r.value.1 == [])
      && (forall k :: 0 <= k < |r.value.1| ==> r.value.1[k].client == r.value.0.client))
  {
    match (Cell(d, "id", docId), Cell(d, "id_cliente", Unknown), TotalCell(d))
    case (Some(id), Some(c), Some(t)) =>
      var names := if "items" !in d then Some([]) else if d["items"].VList? then ProductNames(d["items"].elems) else None;
      (match names
       case Some(ps) => Some((OrderRow(id, c, t), seq(|ps|, k requires 0 <= k < |ps| => ItemRow(c, ps[k]))))
       case None => None)
    case _ => None
  }

  /** The report reads no order state: cancelled orders count like any other. */
  lemma StateIgnored(docId: string, d: Doc, estado: Value)
    ensures Extract(docId, d["estado" := estado]) == Extract(docId, d)
  {
    var d' := d["estado" := estado];
    assert Cell(d', "id", docId) == Cell(d, "id", docId);
    assert Cell(d', "id_cliente", Unknown) == Cell(d, "id_cliente", Unknown);
    assert TotalCell(d') == TotalCell(d);
    assert ("items" in d') == ("items" in d);
    assert "items" in d ==> d'["items"] == d["items"];
  }

  /** An order as the engine stores it yields its id, customer, total and product names. */
  lemma StoredOrderRows(o: Order, id: string, docId: string)
    requires o.id == Some(id)
    ensures var r := Extract(docId, OrderToDoc(o));
      && r.Some?
      && r.value.0 == OrderRow(Some(id), Some(o.idCliente), Some(o.total))
      && |r.value.1| == |o.items|
      && (forall k :: 0 <= k < |o.items| ==> r.value.1[k] == ItemRow(Some(o.idCliente), Some(o.items[k].nombreProducto)))
  {
    var d := OrderToDoc(o);
    StoredNames(o.items);
    StoredCells(o, id, docId);
    ExtractCells(docId, d, Some(id), Some(o.idCliente), Some(o.total), ItemsToValues(o.items),
                 ProductNames(ItemsToValues(o.items)).value);
  }

  lemma StoredCells(o: Order, id: string, docId: string)
    requires o.id == Some(id)
    ensures var d := OrderToDoc(o);
      && Cell(d, "id", docId) == Some(Some(id))
      && Cell(d, "id_cliente", Unknown) == Some(Some(o.idCliente))
      && TotalCell(d) == Some(Some(o.total))
      && "items" in d && d["items"] == VList(ItemsToValues(o.items))
  {
  }

  /** What `Extract` gives once each cell has been read. */
  lemma ExtractCells(
    docId: string, d: Doc, id: Option<string>, c: Option<string>, t: Option<real>,
    vs: seq<Value>, ps: seq<Product>)
    requires Cell(d, "id", docId) == Some(id) && Cell(d, "id_cliente", Unknown) == Some(c)
    requires TotalCell(d) == Some(t)
    requires "items" in d && d["items"] == VList(vs) && ProductNames(vs) == Some(ps)
    ensures Extract(docId, d) == Some((OrderRow(id, c, t), seq(|ps|, k requires 0 <= k < |ps| => ItemRow(c, ps[k]))))
  {
  }

  /** The dumped lines give back their product names, in order. */
  lemma StoredNames(items: seq<OrderItem>)
    ensures ProductNames(ItemsToValues(items)).Some?
    ensures forall k :: 0 <= k < |items| ==> ProductNames(ItemsToValues(items)).value[k] == Some(items[k].nombreProducto)
  {
    var names := seq(|items|, k requires 0 <= k < |items| => Some(items[k].nombreProducto));
    StoredLines(items);
    NamesOfLines(ItemsToValues(items), names);
  }

  /** Every stored line is a dictionary holding its line's product name. */
  lemma StoredLines(items: seq<OrderItem>)
    ensures forall k :: 0 <= k < |items| ==>
      ItemsToValues(items)[k].VMap? && Cell(ItemsToValues(items)[k].fields, "nombre_producto", Unknown) == Some(Some(items[k].nombreProducto))
  {
    forall k | 0 <= k < |items| {
      StoredName(items, k);
    }
  }

  /** The stored line `k` is a dictionary holding line `k`'s product name. */
  lemma StoredName(items: seq<OrderItem>, k: int)
    requires 0 <= k < |items|
    ensures var v := ItemsToValues(items)[k];
      v.VMap? && Cell(v.fields, "nombre_producto", Unknown) == Some(Some(items[k].nombreProducto))
  {
    ItemsToValuesAt(items, k);
  }

  /** Lines that are dictionaries with string or null names give those cells, in order. */
  lemma {:induction false} NamesOfLines(vs: seq<Value>, names: seq<Product>)
    requires |vs| == |names|
    requires forall k :: 0 <= k < |vs| ==> vs[k].VMap? && Cell(vs[k].fields, "nombre_producto", Unknown) == Some(names[k])
    ensures ProductNames(vs) == Some(names)
    decreases |vs|
  {
    if |vs| > 0 {
      NamesOfLines(vs[..|vs| - 1], names[..|names| - 1]);
      assert names[..|names| - 1] + [names[|names| - 1]] == names;
    }
  }

  /** Flattening a whole collection, document by document. */
  function Collect(docs: seq<(string, Doc)>): (r: Option<(seq<OrderRow>, seq<ItemRow>)>)
    ensures r.Some? ==> |r.value.0| == |docs|
    decreases |docs|
  {
    if |docs| == 0 then Some(([], []))
    else match (Collect(docs[..|docs| - 1]), Extract(docs[|docs| - 1].0, docs[|docs| - 1].1))
      case (Some((os, ls)), Some((o, its))) => Some((os + [o], ls + its))
      case _ => None
  }

  // ---------------------------------------------------------------------------
  // Per-customer aggregation

  /** The distinct non-null order ids of a customer (`nunique` skips nulls). */
  function OrderIds(rows: seq<OrderRow>, c: string): set<string> {
    set k | 0 <= k < |rows| && rows[k].client == Some(c) && rows[k].orderId.Some? :: rows[k].orderId.value
  }

  /** Frecuencia: how many distinct orders the customer has. */
  function Frecuencia(rows: seq<OrderRow>, c: string): nat {
    |OrderIds(rows, c)|
  }

  /** TotalGastado: the sum of the customer's order totals, nulls skipped. */
  function TotalGastado(rows: seq<OrderRow>, c: string): real
    decreases |rows|
  {
    if |rows| == 0 then 0.0
    else
      var r := rows[|rows| - 1];
      TotalGastado(rows[..|rows| - 1], c) + (if r.client == Some(c) then r.total.GetOr(0.0) else 0.0)
  }

  /** The customer's products in row order. */
  function ProductsOf(items: seq<ItemRow>, c: string): (ps: seq<Product>)
    decreases |items|
  {
    if |items| == 0 then []
    else
      var r := items[|items| - 1];
      ProductsOf(items[..|items| - 1], c) + (if r.client == Some(c) then [r.product] else [])
  }

  lemma OrderIdsSnoc(rows: seq<OrderRow>, r: OrderRow, c: string)
    ensures OrderIds(rows + [r], c)
      == OrderIds(rows, c) + (if r.client == Some(c) && r.orderId.Some? then {r.orderId.value} else {})
  {
    var rows' := rows + [r];
    forall id | id in OrderIds(rows', c)
      ensures id in OrderIds(rows, c) + (if r.client == Some(c) && r.orderId.Some? then {r.orderId.value} else {})
    {
      var k :| 0 <= k < |rows'| && rows'[k].client == Some(c) && rows'[k].orderId.Some? && rows'[k].orderId.value == id;
      if k < |rows| {
        assert rows'[k] == rows[k];
      }
    }
    forall id | id in OrderIds(rows, c)
      ensures id in OrderIds(rows', c)
    {
      var k :| 0 <= k < |rows| && rows[k].client == Some(c) && rows[k].orderId.Some? && rows[k].orderId.value == id;
      assert rows'[k] == rows[k];
    }
    if r.client == Some(c) && r.orderId.Some? {
      assert rows'[|rows|] == r;
    }
  }

  /** A new order with an id not seen before raises the customer's Frecuencia by one and
      their TotalGastado by its total; everybody else's figures stay put. */
  lemma NewOrderCounts(rows: seq<OrderRow>, r: OrderRow, c: string)
    requires r.client == Some(c) && r.orderId.Some? && r.orderId.value !in OrderIds(rows, c)
    ensures Frecuencia(rows + [r], c) == Frecuencia(rows, c) + 1
    ensures TotalGastado(rows + [r], c) == TotalGastado(rows, c) + r.total.GetOr(0.0)
    ensures forall other :: other != c ==>
      Frecuencia(rows + [r], other) == Frecuencia(rows, other) && TotalGastado(rows + [r], other) == TotalGastado(rows, other)
  {
    OrderIdsSnoc(rows, r, c);
    assert (rows + [r])[..|rows|] == rows;
    forall other | other != c
      ensures Frecuencia(rows + [r], other) == Frecuencia(rows, other)
    {
      OrderIdsSnoc(rows, r, other);
    }
  }

  /** A row repeating an id the customer already has leaves Frecuencia as it is, while its
      total is still added to TotalGastado. */
  lemma RepeatedIdCountsOnce(rows: seq<OrderRow>, r: OrderRow, c: string)
    requires r.client == Some(c) && r.orderId.Some? && r.orderId.value in OrderIds(rows, c)
    ensures Frecuencia(rows + [r], c) == Frecuencia(rows, c)
    ensures TotalGastado(rows + [r], c) == TotalGastado(rows, c) + r.total.GetOr(0.0)
  {
    OrderIdsSnoc(rows, r, c);
    assert OrderIds(rows + [r], c) == OrderIds(rows, c);
    assert (rows + [r])[..|rows|] == rows;
  }

  /** Totals add up across two batches of documents. */
  lemma {:induction false} TotalAppend(a: seq<OrderRow>, b: seq<OrderRow>, c: string)
    ensures TotalGastado(a + b, c) == TotalGastado(a, c) + TotalGastado(b, c)
    decreases |b|
  {
    if |b| == 0 {
      assert a + b == a;
    } else {
      assert (a + b)[..|a + b| - 1] == a + b[..|b| - 1];
      TotalAppend(a, b[..|b| - 1], c);
    }
  }

  /** A customer is in the report when they have an order row and a line row: the
      metrics and the favourite products are joined on the customer. */
  predicate InReport(rows: seq<OrderRow>, items: seq<ItemRow>, c: string) {
    (exists k :: 0 <= k < |rows| && rows[k].client == Some(c))
    && (exists k :: 0 <= k < |items| && items[k].client == Some(c))
  }

  /** One line of the report. `ticketPromedio` is None where pandas divides by a zero
      Frecuencia (every id of the customer null). */
  datatype Profile = Profile(
    client: string, totalGastado: real, frecuencia: nat, ticketPromedio: Option<real>,
    favorito: Product, nivel: Tier)

  /** The report line of a customer in the report. */
  method ClientProfile(rows: seq<OrderRow>, items: seq<ItemRow>, c: string) returns (p: Profile)
    requires InReport(rows, items, c)
    ensures p.client == c && p.frecuencia == Frecuencia(rows, c) && p.totalGastado == TotalGastado(rows, c)
    ensures p.frecuencia > 0 ==> p.ticketPromedio.Some? && p.ticketPromedio.value * p.frecuencia as real == p.totalGastado
    ensures p.frecuencia == 0 ==> p.ticketPromedio.None?
    ensures IsMode(ProductsOf(items, c), p.favorito)
    ensures p.nivel.Rank() == (if p.frecuencia > 5 then 2 else if p.frecuencia >= 3 then 1 else 0)
  {
    var favorito := Favourite(items, c);
    var f := Frecuencia(rows, c);
    var total := TotalGastado(rows, c);
    var ticket := Ticket(total, f);
    assert f > 0 ==> ticket.Some? && ticket.value * f as real == total;
    var nivel := Segment(f);
    assert nivel.Rank() == (if f > 5 then 2 else if f >= 3 then 1 else 0);
    p := Profile(c, total, f, ticket, favorito, nivel);
  }

  /** `TicketPromedio`: the mean order value, or none when there is no order to divide by. */
  function Ticket(total: real, n: nat): (t: Option<real>)
    ensures n > 0 ==> t.Some? && t.value * n as real == total
    ensures n == 0 ==> t.None?
  {
    if n == 0 then None
    else
      var avg := total / n as real;
      AverageTimesCount(total, n as real, avg);
      Some(avg)
  }

  /** The favourite product of a customer who has at least one line row. */
  method Favourite(items: seq<ItemRow>, c: string) returns (f: Product)
    requires exists k :: 0 <= k < |items| && items[k].client == Some(c)
    ensures IsMode(ProductsOf(items, c), f)
    ensures exists k :: 0 <= k < |items| && items[k] == ItemRow(Some(c), f)
  {
    var k :| 0 <= k < |items| && items[k].client == Some(c);
    ProductsOfHas(items, c, k);
    f := ProductMode(ProductsOf(items, c));
    ProductsOfFrom(items, c, f);
  }

  /** The average times the count gives back the sum. */
  lemma AverageTimesCount(sum: real, n: real, avg: real)
    requires n > 0.0 && avg == sum / n
    ensures avg * n == sum
  {
  }

  /** Every product in a customer's list comes from one of their line rows. */
  lemma {:induction false} ProductsOfFrom(items: seq<ItemRow>, c: string, p: Product)
    requires p in ProductsOf(items, c)
    ensures exists k :: 0 <= k < |items| && items[k] == ItemRow(Some(c), p)
    decreases |items|
  {
    var init := items[..|items| - 1];
    if p in ProductsOf(init, c) {
      ProductsOfFrom(init, c, p);
      var k :| 0 <= k < |init| && init[k] == ItemRow(Some(c), p);
      assert items[k] == init[k];
    } else {
      assert items[|items| - 1] == ItemRow(Some(c), p);
    }
  }

  /** A line row of the customer puts its product in their list. */
  lemma {:induction false} ProductsOfHas(items: seq<ItemRow>, c: string, k: int)
    requires 0 <= k < |items| && items[k].client == Some(c)
    ensures items[k].product in ProductsOf(items, c)
    decreases |items|
  {
    if k < |items| - 1 {
      ProductsOfHas(items[..|items| - 1], c, k);
    }
  }
}

=== FILE: debounce.dfy ===
/**
 * The debounce coalescer in front of the order engine. Each chat request appends its text
 * to its customer's buffer and becomes that customer's latest request; after the wait it
 * either finds it is no longer the latest (its text will travel with a later request) or
 * takes the whole buffer, space-joined, to the engine. Requests are events: a `Submit`
 * when a request arrives and a `Wake` when its wait ends, interleaved in any order.
 */
module Debounce {
  import opened Common

  /** `ChatRequest`: the text and the customer's phone. */
  datatype ChatRequest = ChatRequest(mensaje: string, telefono: string)

  /** The request model's field constraints (`min_length` 1 and 10); a request that breaks
      them is answered with a validation error before the handler runs. */
  predicate ValidRequest(req: ChatRequest) {
    |req.mensaje| >= 1 && |req.telefono| >= 10
  }

  /** Request tokens; `uuid4()` is modelled as a counter, so every token is fresh. */
  type Token = nat

  /** `message_buffer`, `latest_request_token`, the requests still waiting (token to phone),
      and the next fresh token. */
  datatype State = State(
    buffer: map<string, seq<string>>,
    latest: map<string, Token>,
    asleep: map<Token, string>,
    nextToken: Token)

  const Init := State(map[], map[], map[], 0)

  function BufferOf(s: State, phone: string): seq<string> {
    if phone in s.buffer then s.buffer[phone] else []
  }

  /** Whether `t` is the customer's latest token (`latest_request_token.get(phone) == t`). */
  predicate IsLatest(s: State, phone: string, t: Token) {
    phone in s.latest && s.latest[phone] == t
  }

  /** What a request gets when its wait ends. */
  datatype WakeResult =
    | Grouped                                  // `ignorar`: a later request carries the text
    | Process(phone: string, batch: seq<string>)

  /** The single message handed to the engine: the buffer joined by spaces. */
  function FullMessage(batch: seq<string>): string {
    Join(" ", batch)
  }

  /** A request arrives: rejected as invalid, or its text is appended to its customer's
      buffer and a fresh token becomes that customer's latest. */
  function Submit(s: State, req: ChatRequest): (r: (State, Option<Token>))
    ensures !ValidRequest(req) ==> r == (s, None)
    ensures ValidRequest(req) ==> r.1 == Some(s.nextToken) && r.0.nextToken == s.nextToken + 1
    ensures ValidRequest(req) ==> BufferOf(r.0, req.telefono) == BufferOf(s, req.telefono) + [req.mensaje]
    ensures ValidRequest(req) ==> IsLatest(r.0, req.telefono, s.nextToken)
    ensures ValidRequest(req) ==> r.0.asleep == s.asleep[s.nextToken := req.telefono]
  {
    if !ValidRequest(req) then (s, None)
    else
      var phone := req.telefono;
      var t := s.nextToken;
      (State(s.buffer[phone := BufferOf(s, phone) + [req.mensaje]], s.latest[phone := t],
             s.asleep[t := phone], t + 1),
       Some(t))
  }

  /** The wait of request `t` ends: unless it is still its customer's latest it is grouped
      and touches nothing; the latest takes the whole buffer and empties it. */
  function Wake(s: State, t: Token): (r: (State, WakeResult))
    requires t in s.asleep
    ensures t !in r.0.asleep && r.0.nextToken == s.nextToken && r.0.latest == s.latest
    ensures forall u :: u != t ==> (u in r.0.asleep <==> u in s.asleep)
    ensures r.1.Grouped? <==> !IsLatest(s, s.asleep[t], t)
    ensures r.1.Grouped? ==> r.0.buffer == s.buffer
    ensures r.1.Process? ==> (r.1 == Process(s.asleep[t], BufferOf(s, s.asleep[t]))
                              && BufferOf(r.0, s.asleep[t]) == [])
  {
    var phone := s.asleep[t];
    var s1 := s.(asleep := s.asleep - {t});
    if IsLatest(s, phone, t) then
      (s1.(buffer := s.buffer[phone := []]), Process(phone, BufferOf(s, phone)))
    else (s1, Grouped)
  }

  // ---------------------------------------------------------------------------
  // The state invariant: nothing is stranded

  /** Tokens are below the counter, a waiting request is the one its phone says, and a
      non-empty buffer always has its customer's latest request still waiting to take it. */
  predicate Inv(s: State) {
    && (forall t :: t in s.asleep ==> t < s.nextToken)
    && (forall p :: p in s.latest ==> s.latest[p] < s.nextToken)
    && (forall p :: p in s.buffer && s.buffer[p] != [] ==>
          p in s.latest && s.latest[p] in s.asleep && s.asleep[s.latest[p]] == p)
  }

  lemma InitInv()
    ensures Inv(Init)
  {
  }

  lemma SubmitInv(s: State, req: ChatRequest)
    requires Inv(s)
    ensures Inv(Submit(s, req).0)
  {
  }

  lemma WakeInv(s: State, t: Token)
    requires Inv(s) && t in s.asleep
    ensures Inv(Wake(s, t).0)
  {
    var phone := s.asleep[t];
    var s' := Wake(s, t).0;
    forall p | p in s'.buffer && s'.buffer[p] != []
      ensures p in s'.latest && s'.latest[p] in s'.asleep && s'.asleep[s'.latest[p]] == p
    {
      assert p in s.buffer && s.buffer[p] != [];
      assert s.latest[p] != t;
    }
  }

  /** Once no request is waiting, every buffer is empty. */
  lemma DrainedBuffersEmpty(s: State, phone: string)
    requires Inv(s) && s.asleep == map[]
    ensures BufferOf(s, phone) == []
  {
  }

  // ---------------------------------------------------------------------------
  // Isolation

  /** A request for one customer neither reads nor changes another customer's buffer or
      latest token. */
  lemma SubmitIsolated(s: State, req: ChatRequest, other: string)
    requires other != req.telefono
    ensures BufferOf(Submit(s, req).0, other) == BufferOf(s, other)
    ensures (other in Submit(s, req).0.latest) == (other in s.latest)
    ensures other in s.latest ==> Submit(s, req).0.latest[other] == s.latest[other]
  {
  }

  lemma WakeIsolated(s: State, t: Token, other: string)
    requires t in s.asleep && other != s.asleep[t]
    ensures BufferOf(Wake(s, t).0, other) == BufferOf(s, other)
    ensures Wake(s, t).0.latest == s.latest
  {
  }

  /** Whether a request wakes as the winner depends only on its own customer's state. */
  lemma WakeDependsOnOwnCustomer(s1: State, s2: State, t: Token)
    requires t in s1.asleep && t in s2.asleep && s1.asleep[t] == s2.asleep[t]
    requires var p := s1.asleep[t];
      BufferOf(s1, p) == BufferOf(s2, p) && IsLatest(s1, p, t) == IsLatest(s2, p, t)
    ensures Wake(s1, t).1 == Wake(s2, t).1
  {
  }

  // ---------------------------------------------------------------------------
  // Runs of events

  datatype Event = SubmitEv(req: ChatRequest) | WakeEv(token: Token)

  /** One event; the wake of a request that is not waiting does nothing (each request wakes
      exactly once, so a real run never has one). */
  function Step(s: State, e: Event): (State, seq<WakeResult>) {
    match e
    case SubmitEv(req) => (Submit(s, req).0, [])
    case WakeEv(t) =>
      if t in s.asleep then var (s', w) := Wake(s, t); (s', [w]) else (s, [])
  }

  function Run(s: State, evs: seq<Event>): (State, seq<WakeResult>)
    decreases |evs|
  {
    if |evs| == 0 then (s, [])
    else
      var (s1, out1) := Run(s, evs[..|evs| - 1]);
      var (s2, out2) := Step(s1, evs[|evs| - 1]);
      (s2, out1 + out2)
  }

  /** The texts a customer has sent in a run, in order (invalid requests never count). */
  function Sent(evs: seq<Event>, phone: string): seq<string>
    decreases |evs|
  {
    if |evs| == 0 then []
    else
      var e := evs[|evs| - 1];
      Sent(evs[..|evs| - 1], phone)
        + (if e.SubmitEv? && ValidRequest(e.req) && e.req.telefono == phone then [e.req.mensaje] else [])
  }

  /** The batches handed to the engine for a customer, in order. */
  function Batches(outs: seq<WakeResult>, phone: string): seq<seq<string>>
    decreases |outs|
  {
    if |outs| == 0 then []
    else
      var w := outs[|outs| - 1];
      Batches(outs[..|outs| - 1], phone) + (if w.Process? && w.phone == phone then [w.batch] else [])
  }

  lemma BatchesAppend(a: seq<WakeResult>, b: seq<WakeResult>, phone: string)
    ensures Batches(a + b, phone) == Batches(a, phone) + Batches(b, phone)
    decreases |b|
  {
    if |b| == 0 {
      assert a + b == a;
    } else {
      assert (a + b)[..|a + b| - 1] == a + b[..|b| - 1];
      BatchesAppend(a, b[..|b| - 1], phone);
    }
  }

  lemma RunInv(s: State, evs: seq<Event>)
    requires Inv(s)
    ensures Inv(Run(s, evs).0)
    decreases |evs|
  {
    if |evs| > 0 {
      RunInv(s, evs[..|evs| - 1]);
      var s1 := Run(s, evs[..|evs| - 1]).0;
      match evs[|evs| - 1]
      case SubmitEv(req) => SubmitInv(s1, req);
      case WakeEv(t) => if t in s1.asleep { WakeInv(s1, t); }
    }
  }

  /** One event keeps the account: what it hands on plus what it leaves buffered is what
      was buffered plus what it brought. */
  lemma StepAccount(s: State, e: Event, phone: string)
    ensures Flatten(Batches(Step(s, e).1, phone)) + BufferOf(Step(s, e).0, phone)
        == BufferOf(s, phone)
           + (if e.SubmitEv? && ValidRequest(e.req) && e.req.telefono == phone then [e.req.mensaje] else [])
  {
    var (s', out) := Step(s, e);
    if e.WakeEv? && e.token in s.asleep {
      var w := Wake(s, e.token).1;
      assert out == [w];
      assert Batches(out, phone) == Batches([], phone) + (if w.Process? && w.phone == phone then [w.batch] else []);
      if w.Process? && w.phone == phone {
        FlattenSnoc([], w.batch);
      } else if w.Process? {
        WakeIsolated(s, e.token, phone);
      }
    } else {
      assert Batches(out, phone) == [];
    }
  }

  /** No loss and no duplication: over any run, the batches handed on for a customer,
      followed by what is still buffered, are exactly the texts that customer sent, in
      order, after whatever was buffered at the start. */
  lemma {:induction false} RunAccount(s: State, evs: seq<Event>, phone: string)
    ensures Flatten(Batches(Run(s, evs).1, phone)) + BufferOf(Run(s, evs).0, phone)
      == BufferOf(s, phone) + Sent(evs, phone)
    decreases |evs|
  {
    if |evs| > 0 {
      var init := evs[..|evs| - 1];
      var e := evs[|evs| - 1];
      RunAccount(s, init, phone);
      var s1 := Run(s, init).0;
      var out1 := Run(s, init).1;
      var s2 := Step(s1, e).0;
      var out2 := Step(s1, e).1;
      assert Run(s, evs).0 == s2 && Run(s, evs).1 == out1 + out2;
      var extra := if e.SubmitEv? && ValidRequest(e.req) && e.req.telefono == phone then [e.req.mensaje] else [];
      assert Sent(evs, phone) == Sent(init, phone) + extra;
      StepAccount(s1, e, phone);
      BatchesAppend(out1, out2, phone);
      var f1, f2 := Flatten(Batches(out1, phone)), Flatten(Batches(out2, phone));
      FlattenAppend(Batches(out1, phone), Batches(out2, phone));
      AccountCompose(f1, f2, BufferOf(s, phone), BufferOf(s1, phone), BufferOf(s2, phone), Sent(init, phone), extra);
    }
  }

  /** Two accounts chained: handed-on text `f1` then `f2`, buffers `b0`, `b1`, `b2`. */
  lemma AccountCompose<T>(f1: seq<T>, f2: seq<T>, b0: seq<T>, b1: seq<T>, b2: seq<T>, sent: seq<T>, extra: seq<T>)
    requires f1 + b1 == b0 + sent
    requires f2 + b2 == b1 + extra
    ensures (f1 + f2) + b2 == b0 + (sent + extra)
  {
    calc {
      (f1 + f2) + b2;
      f1 + (f2 + b2);
      f1 + (b1 + extra);
      (f1 + b1) + extra;
      (b0 + sent) + extra;
    }
  }

  /** Once every request of a run from the initial state has woken, each text a customer
      sent has been handed on exactly once, in order. */
  lemma NoLossNoDuplication(evs: seq<Event>, phone: string)
    requires Run(Init, evs).0.asleep == map[]
    ensures Flatten(Batches(Run(Init, evs).1, phone)) == Sent(evs, phone)
  {
    InitInv();
    RunInv(Init, evs);
    RunAccount(Init, evs, phone);
    DrainedBuffersEmpty(Run(Init, evs).0, phone);
    var handed := Flatten(Batches(Run(Init, evs).1, phone));
    assert handed + [] == handed;
    assert [] + Sent(evs, phone) == Sent(evs, phone);
  }

  // ---------------------------------------------------------------------------
  // Bursts

  /** Submitting a burst of texts for one customer, one request each. */
  function SubmitAll(s: State, phone: string, msgs: seq<string>): State
    decreases |msgs|
  {
    if |msgs| == 0 then s
    else Submit(SubmitAll(s, phone, msgs[..|msgs| - 1]), ChatRequest(msgs[|msgs| - 1], phone)).0
  }

  predicate ValidBurst(phone: string, msgs: seq<string>) {
    |phone| >= 10 && forall k :: 0 <= k < |msgs| ==> |msgs[k]| >= 1
  }

  /** After a burst the customer's buffer holds the burst after what it held, the last
      request of the burst is the latest, and every request of the burst is waiting. */
  lemma SubmitAllEffect(s: State, phone: string, msgs: seq<string>)
    requires ValidBurst(phone, msgs)
    requires forall t :: t in s.asleep ==> t < s.nextToken
    ensures var s' := SubmitAll(s, phone, msgs);
      && (forall t :: t in s'.asleep ==> t < s'.nextToken)
      && s'.nextToken == s.nextToken + |msgs|
      && BufferOf(s', phone) == BufferOf(s, phone) + msgs
      && (|msgs| > 0 ==> IsLatest(s', phone, s.nextToken + |msgs| - 1))
      && (forall t :: s.nextToken <= t < s.nextToken + |msgs| ==> t in s'.asleep && s'.asleep[t] == phone)
      && (forall t :: t in s.asleep ==> t in s'.asleep && s'.asleep[t] == s.asleep[t])
      && (forall t :: t in s'.asleep ==> t in s.asleep || s.nextToken <= t < s.nextToken + |msgs|)
  {
    SubmitAllBuffer(s, phone, msgs);
    SubmitAllAsleep(s, phone, msgs);
  }

  /** The buffer, the counter and the latest token after a burst. */
  lemma {:induction false} SubmitAllBuffer(s: State, phone: string, msgs: seq<string>)
    requires ValidBurst(phone, msgs)
    ensures var s' := SubmitAll(s, phone, msgs);
      && s'.nextToken == s.nextToken + |msgs|
      && BufferOf(s', phone) == BufferOf(s, phone) + msgs
      && (|msgs| > 0 ==> IsLatest(s', phone, s.nextToken + |msgs| - 1))
    decreases |msgs|
  {
    if |msgs| > 0 {
      var init := msgs[..|msgs| - 1];
      SubmitAllBuffer(s, phone, init);
      assert ValidRequest(ChatRequest(msgs[|msgs| - 1], phone));
      assert init + [msgs[|msgs| - 1]] == msgs;
    }
  }

  /** The waiting requests after a burst: the earlier ones and exactly the burst's. */
  lemma {:induction false} SubmitAllAsleep(s: State, phone: string, msgs: seq<string>)
    requires ValidBurst(phone, msgs)
    requires forall t :: t in s.asleep ==> t < s.nextToken
    ensures var s' := SubmitAll(s, phone, msgs);
      && (forall t :: t in s'.asleep ==> t < s'.nextToken)
      && (forall t :: s.nextToken <= t < s.nextToken + |msgs| ==> t in s'.asleep && s'.asleep[t] == phone)
      && (forall t :: t in s.asleep ==> t in s'.asleep && s'.asleep[t] == s.asleep[t])
      && (forall t :: t in s'.asleep ==> t in s.asleep || s.nextToken <= t < s.nextToken + |msgs|)
    decreases |msgs|
  {
    SubmitAllBuffer(s, phone, msgs);
    if |msgs| > 0 {
      var init := msgs[..|msgs| - 1];
      SubmitAllAsleep(s, phone, init);
      SubmitAllBuffer(s, phone, init);
      assert ValidRequest(ChatRequest(msgs[|msgs| - 1], phone));
    }
  }

  /** Waking the requests of a burst, in any order: only the burst's last request is the
      winner, and it hands on the burst joined by spaces; every other wakes `Grouped`. */
  lemma {:induction false} BurstWakes(s: State, phone: string, msgs: seq<string>, order: seq<Token>)
    requires Inv(s) && BufferOf(s, phone) == [] && ValidBurst(phone, msgs) && |msgs| > 0
    requires forall k :: 0 <= k < |order| ==> s.nextToken <= order[k] < s.nextToken + |msgs|
    requires forall i, j :: 0 <= i < j < |order| ==> order[i] != order[j]
    ensures var s1 := SubmitAll(s, phone, msgs);
      var outs := Run(s1, Wakes(order)).1;
      var last := s.nextToken + |msgs| - 1;
      && |outs| == |order|
      && (forall k :: 0 <= k < |order| ==> (outs[k].Process? <==> order[k] == last))
      && (forall k :: 0 <= k < |order| && order[k] == last ==> outs[k] == Process(phone, msgs))
  {
    SubmitAllEffect(s, phone, msgs);
    var s1 := SubmitAll(s, phone, msgs);
    WakeSequence(s1, phone, msgs, s.nextToken, order);
  }

  function Wakes(order: seq<Token>): seq<Event> {
    seq(|order|, k requires 0 <= k < |order| => WakeEv(order[k]))
  }

  /** The induction behind `BurstWakes`, over the wakes in order: what each wake answers. */
  lemma {:induction false} WakeSequence(s1: State, phone: string, msgs: seq<string>, first: Token, order: seq<Token>)
    requires |msgs| > 0
    requires BufferOf(s1, phone) == msgs && IsLatest(s1, phone, first + |msgs| - 1)
    requires forall t :: first <= t < first + |msgs| ==> t in s1.asleep && s1.asleep[t] == phone
    requires forall k :: 0 <= k < |order| ==> first <= order[k] < first + |msgs|
    requires forall i, j :: 0 <= i < j < |order| ==> order[i] != order[j]
    ensures var outs := Run(s1, Wakes(order)).1;
      var last := first + |msgs| - 1;
      && |outs| == |order|
      && (forall k :: 0 <= k < |order| ==> (outs[k].Process? <==> order[k] == last))
      && (forall k :: 0 <= k < |order| && order[k] == last ==> outs[k] == Process(phone, msgs))
    decreases |order|
  {
    var last := first + |msgs| - 1;
    if |order| > 0 {
      var init := order[..|order| - 1];
      var t := order[|order| - 1];
      assert Wakes(order)[..|order| - 1] == Wakes(init);
      WakeSequence(s1, phone, msgs, first, init);
      WakeStates(s1, phone, msgs, first, init);
      var (sa, outa) := Run(s1, Wakes(init));
      assert t !in init;
      WakeInBurst(sa, phone, msgs, first, t);
      var w := Wake(sa, t).1;
      assert Run(s1, Wakes(order)).1 == outa + [w];
      OutsSnoc(order, outa, w, last, Process(phone, msgs));
    }
  }

  /** Extending the answers of the first wakes with the answer of one more. */
  lemma OutsSnoc(order: seq<Token>, outa: seq<WakeResult>, w: WakeResult, last: Token, batch: WakeResult)
    requires |order| > 0 && |outa| == |order| - 1
    requires forall k :: 0 <= k < |outa| ==> (outa[k].Process? <==> order[k] == last)
    requires forall k :: 0 <= k < |outa| && order[k] == last ==> outa[k] == batch
    requires w.Process? <==> order[|order| - 1] == last
    requires order[|order| - 1] == last ==> w == batch
    ensures forall k :: 0 <= k < |order| ==> ((outa + [w])[k].Process? <==> order[k] == last)
    ensures forall k :: 0 <= k < |order| && order[k] == last ==> (outa + [w])[k] == batch
  {
  }

  /** The state the wakes of a burst leave behind: the last request is still the latest,
      the requests not yet woken still wait, and the buffer is intact until the last one
      wakes. */
  lemma {:induction false} WakeStates(s1: State, phone: string, msgs: seq<string>, first: Token, order: seq<Token>)
    requires |msgs| > 0
    requires BufferOf(s1, phone) == msgs && IsLatest(s1, phone, first + |msgs| - 1)
    requires forall t :: first <= t < first + |msgs| ==> t in s1.asleep && s1.asleep[t] == phone
    requires forall k :: 0 <= k < |order| ==> first <= order[k] < first + |msgs|
    requires forall i, j :: 0 <= i < j < |order| ==> order[i] != order[j]
    ensures var s2 := Run(s1, Wakes(order)).0;
      var last := first + |msgs| - 1;
      && IsLatest(s2, phone, last)
      && (forall t :: first <= t < first + |msgs| && t !in order ==> t in s2.asleep && s2.asleep[t] == phone)
      && (last !in order ==> BufferOf(s2, phone) == msgs)
    decreases |order|
  {
    if |order| > 0 {
      var init := order[..|order| - 1];
      var t := order[|order| - 1];
      assert Wakes(order)[..|order| - 1] == Wakes(init);
      WakeStates(s1, phone, msgs, first, init);
      var sa := Run(s1, Wakes(init)).0;
      assert t !in init;
      WakeInBurst(sa, phone, msgs, first, t);
      assert Run(s1, Wakes(order)).0 == Wake(sa, t).0;
    }
  }

  /** One wake of a burst request, given that the burst's last request is the latest. */
  lemma WakeInBurst(sa: State, phone: string, msgs: seq<string>, first: Token, t: Token)
    requires |msgs| > 0
    requires IsLatest(sa, phone, first + |msgs| - 1)
    requires t in sa.asleep && sa.asleep[t] == phone
    requires t == first + |msgs| - 1 ==> BufferOf(sa, phone) == msgs
    ensures var (sb, w) := Wake(sa, t);
      var last := first + |msgs| - 1;
      && (w.Process? <==> t == last)
      && (t == last ==> w == Process(phone, msgs))
      && IsLatest(sb, phone, last)
      && (forall u :: u in sa.asleep && u != t ==> u in sb.asleep && sb.asleep[u] == sa.asleep[u])
      && (t != last ==> BufferOf(sb, phone) == BufferOf(sa, phone))
  {
  }
}

=== FILE: kitchen.dfy ===
/**
 * The kitchen screen's age badge for an order ticket: how many whole minutes have passed
 * since the order was created, and the colour band that age falls in (green under 5
 * minutes, yellow under 15, red after). The ISO-8601 parser and the wall clock are
 * parameters.
 */
module Kitchen {
  import opened Common
  import opened Clock

  /** The `fecha_creacion` value a ticket carries: missing, text from the API, or a
      datetime. */
  datatype Fecha = Absent | Text(s: string) | Time(t: Timestamp)

  /** The colour band, and the CSS classes the ticket border and badge use for it. */
  datatype Band = Green | Yellow | Red {
    function Border(): string {
      match this
      case Green => "time-green"
      case Yellow => "time-yellow"
      case Red => "time-red"
    }
    function Badge(): string {
      match this
      case Green => "time-badge-green"
      case Yellow => "time-badge-yellow"
      case Red => "time-badge-red"
    }
    /** How urgent a band is, for comparing them. */
    function Rank(): nat {
      match this
      case Green => 0
      case Yellow => 1
      case Red => 2
    }
  }

  const YellowFromMinutes: int := 5
  const RedFromMinutes: int := 15

  /** The band for an age in whole minutes. */
  function BandFor(minutes: int): (b: Band)
    ensures b == Green <==> minutes < YellowFromMinutes
    ensures b == Red <==> minutes >= RedFromMinutes
  {
    if minutes < YellowFromMinutes then Green
    else if minutes < RedFromMinutes then Yellow
    else Red
  }

  /** An older ticket is never shown in a calmer colour. */
  lemma BandMonotone(m1: int, m2: int)
    requires m1 <= m2
    ensures BandFor(m1).Rank() <= BandFor(m2).Rank()
  {
  }

  /** `s.replace('Z', '+00:00')`: every `Z` becomes an explicit zero offset. */
  function ReplaceZ(s: string): (r: string)
    ensures 'Z' !in r
    ensures 'Z' !in s ==> r == s
    decreases |s|
  {
    if |s| == 0 then ""
    else (if s[0] == 'Z' then "+00:00" else [s[0]]) + ReplaceZ(s[1..])
  }

  /** Replacing distributes over concatenation. */
  lemma {:induction false} ReplaceZAppend(a: string, b: string)
    ensures ReplaceZ(a + b) == ReplaceZ(a) + ReplaceZ(b)
    decreases |a|
  {
    if |a| == 0 {
      assert a + b == b;
    } else {
      assert (a + b)[0] == a[0];
      assert (a + b)[1..] == a[1..] + b;
      ReplaceZAppend(a[1..], b);
    }
  }

  /** The age badge of a ticket: a missing or empty value, or text the parser refuses,
      shows 0 minutes in green; a naive datetime is read as UTC; the age is the elapsed
      time truncated to whole minutes. */
  function TimeStatus(fecha: Fecha, parse: string -> Option<Timestamp>, nowMicros: int): (r: (int, Band))
    ensures r.1 == BandFor(r.0)
    ensures fecha.Absent? || (fecha.Text? && fecha.s == "") ==> r == (0, Green)
    ensures fecha.Text? && parse(ReplaceZ(fecha.s)).None? ==> r == (0, Green)
    ensures fecha.Time? && nowMicros >= UtcMicros(fecha.t) ==>
      (var elapsed := nowMicros - UtcMicros(fecha.t);
       r.0 >= 0 && r.0 * MicrosPerMinute <= elapsed < (r.0 + 1) * MicrosPerMinute)
    ensures fecha.Time? && nowMicros < UtcMicros(fecha.t) ==>
      (var elapsed := nowMicros - UtcMicros(fecha.t);
       r.0 <= 0 && (r.0 - 1) * MicrosPerMinute < elapsed <= r.0 * MicrosPerMinute && r.1 == Green)
  {
    match fecha
    case Absent => (0, Green)
    case Text(s) =>
      if s == "" then (0, Green)
      else
        (match parse(ReplaceZ(s))
         case None => (0, Green)
         case Some(t) => AgeOf(t, nowMicros))
    case Time(t) => AgeOf(t, nowMicros)
  }

  /** The age and band of a parsed creation time. */
  function AgeOf(t: Timestamp, nowMicros: int): (r: (int, Band))
    ensures r.1 == BandFor(r.0)
  {
    var minutes := WholeMinutes(nowMicros - UtcMicros(t));
    (minutes, BandFor(minutes))
  }

  /** Text the parser accepts shows the same badge as the datetime it denotes; a `Z`
      suffix and an explicit `+00:00` read alike. */
  lemma TextAsTime(s: string, parse: string -> Option<Timestamp>, nowMicros: int)
    requires s != "" && parse(ReplaceZ(s)).Some?
    ensures TimeStatus(Text(s), parse, nowMicros) == TimeStatus(Time(parse(ReplaceZ(s)).value), parse, nowMicros)
    ensures TimeStatus(Text(s + "Z"), parse, nowMicros) == TimeStatus(Text(s + "+00:00"), parse, nowMicros)
  {
    ZSuffixAsOffset(s);
    assert s + "Z" != "" && s + "+00:00" != "";
  }

  /** After the replacement, a trailing `Z` and a trailing `+00:00` are the same text. */
  lemma ZSuffixAsOffset(s: string)
    ensures ReplaceZ(s + "Z") == ReplaceZ(s + "+00:00")
  {
    ReplaceZAppend(s, "Z");
    ReplaceZAppend(s, "+00:00");
    assert ReplaceZ("Z") == "+00:00" by {
      assert "Z"[1..] == "";
    }
    assert ReplaceZ("+00:00") == "+00:00" by {
      assert 'Z' !in "+00:00";
    }
  }

  /** A ticket stamped six and a half minutes in the future shows -6 minutes, not 0 or -7:
      `int()` truncates toward zero. */
  lemma FutureTicketTruncates(l: int, parse: string -> Option<Timestamp>)
    ensures TimeStatus(Time(Aware(l, 0)), parse, l - 390 * MicrosPerSecond) == (-6, Green)
  {
    NegativeTruncates();
  }

  /** A naive creation time is the same instant as that wall-clock reading in UTC. */
  lemma NaiveIsUtc(l: int, parse: string -> Option<Timestamp>, nowMicros: int)
    ensures TimeStatus(Time(Naive(l)), parse, nowMicros) == TimeStatus(Time(Aware(l, 0)), parse, nowMicros)
  {
  }

  /** The bands in terms of elapsed time: green strictly before 5 minutes have passed,
      yellow from 5 up to 15 minutes, red from 15 minutes on. */
  lemma BandsByElapsed(t: Timestamp, parse: string -> Option<Timestamp>, nowMicros: int)
    ensures var elapsed := nowMicros - UtcMicros(t);
      var b := TimeStatus(Time(t), parse, nowMicros).1;
      && (b == Green <==> elapsed < YellowFromMinutes * MicrosPerMinute)
      && (b == Yellow <==> YellowFromMinutes * MicrosPerMinute <= elapsed < RedFromMinutes * MicrosPerMinute)
      && (b == Red <==> elapsed >= RedFromMinutes * MicrosPerMinute)
  {
    var elapsed := nowMicros - UtcMicros(t);
    var m := TimeStatus(Time(t), parse, nowMicros).0;
    if elapsed >= 0 {
      assert m * MicrosPerMinute <= elapsed < (m + 1) * MicrosPerMinute;
      if m < YellowFromMinutes {
        assert (m + 1) * MicrosPerMinute <= YellowFromMinutes * MicrosPerMinute;
      } else {
        assert YellowFromMinutes * MicrosPerMinute <= m * MicrosPerMinute;
      }
      if m < RedFromMinutes {
        assert (m + 1) * MicrosPerMinute <= RedFromMinutes * MicrosPerMinute;
      } else {
        assert RedFromMinutes * MicrosPerMinute <= m * MicrosPerMinute;
      }
    }
  }

  /** As the clock moves on, a ticket's age never decreases and its colour never calms
      down. */
  lemma AgingOnlyEscalates(fecha: Fecha, parse: string -> Option<Timestamp>, now1: int, now2: int)
    requires now1 <= now2
    ensures TimeStatus(fecha, parse, now1).0 <= TimeStatus(fecha, parse, now2).0
    ensures TimeStatus(fecha, parse, now1).1.Rank() <= TimeStatus(fecha, parse, now2).1.Rank()
  {
    var t: Timestamp;
    match fecha {
      case Absent => return;
      case Text(s) =>
        if s == "" || parse(ReplaceZ(s)).None? { return; }
        t := parse(ReplaceZ(s)).value;
      case Time(t0) => t := t0;
    }
    assert TimeStatus(fecha, parse, now1) == AgeOf(t, now1);
    assert TimeStatus(fecha, parse, now2) == AgeOf(t, now2);
    WholeMinutesMonotone(now1 - UtcMicros(t), now2 - UtcMicros(t));
    BandMonotone(AgeOf(t, now1).0, AgeOf(t, now2).0);
  }
}

=== FILE: menu.dfy ===
/**
 * The in-memory menu: a cache of menu documents keyed by id, a name index from lower-cased
 * (and accent-folded) names to ids, the staged product lookup used to price order lines,
 * and the menu listing handed to the classifier.
 *
 * Python dictionaries keep insertion order and assigning to an existing key keeps its
 * position; `Entries` models exactly that, because the substring stage of the lookup and
 * the listing both walk a dictionary in that order.
 */
module Menu {
  import opened Common
  import opened Text
  import Settings

  // ---------------------------------------------------------------------------
  // Insertion-ordered dictionaries

  type Entries<V> = seq<(string, V)>

  function Keys<V>(es: Entries<V>): (ks: seq<string>)
    ensures |ks| == |es|
    ensures forall i :: 0 <= i < |es| ==> ks[i] == es[i].0
  {
    seq(|es|, i requires 0 <= i < |es| => es[i].0)
  }

  predicate HasKey<V>(es: Entries<V>, k: string) {
    exists i :: 0 <= i < |es| && es[i].0 == k
  }

  predicate UniqueKeys<V>(es: Entries<V>) {
    forall i, j :: 0 <= i < j < |es| ==> es[i].0 != es[j].0
  }

  /** The position of the first entry with key `k`. */
  function IndexOf<V>(es: Entries<V>, k: string): (i: int)
    requires HasKey(es, k)
    ensures 0 <= i < |es| && es[i].0 == k
    ensures forall j :: 0 <= j < i ==> es[j].0 != k
    decreases |es|
  {
    if es[0].0 == k then 0
    else
      assert HasKey(es[1..], k) by {
        var i :| 0 <= i < |es| && es[i].0 == k;
        assert es[1..][i - 1].0 == k;
      }
      1 + IndexOf(es[1..], k)
  }

  /** `d.get(k)` */
  function Lookup<V>(es: Entries<V>, k: string): (r: Option<V>)
    ensures r.Some? <==> HasKey(es, k)
    ensures UniqueKeys(es) ==> forall i :: 0 <= i < |es| && es[i].0 == k ==> r == Some(es[i].1)
  {
    if HasKey(es, k) then Some(es[IndexOf(es, k)].1) else None
  }

  /** `d[k] = v`: an existing key keeps its place, a new key goes last. */
  function Put<V>(es: Entries<V>, k: string, v: V): (r: Entries<V>)
    ensures Keys(r) == if HasKey(es, k) then Keys(es) else Keys(es) + [k]
  {
    if HasKey(es, k) then es[IndexOf(es, k) := (k, v)] else es + [(k, v)]
  }

  /** Assignment is seen by the key assigned and by no other key. */
  lemma PutLookup<V>(es: Entries<V>, k: string, v: V, j: string)
    ensures Lookup(Put(es, k, v), j) == if j == k then Some(v) else Lookup(es, j)
  {
    var r := Put(es, k, v);
    if HasKey(es, k) {
      var i := IndexOf(es, k);
      assert r[i].0 == k;
      assert forall m :: 0 <= m < |es| && m != i ==> r[m] == es[m];
      if j == k {
        assert IndexOf(r, k) == i;
      } else if HasKey(es, j) {
        assert IndexOf(r, j) == IndexOf(es, j);
      } else {
        assert !HasKey(r, j);
      }
    } else {
      assert forall m :: 0 <= m < |es| ==> r[m] == es[m];
      assert r[|es|].0 == k;
      if j == k {
        assert IndexOf(r, k) == |es|;
      } else if HasKey(es, j) {
        assert IndexOf(r, j) == IndexOf(es, j);
      } else {
        assert !HasKey(r, j);
      }
    }
  }

  /** Assignment keeps keys unique. */
  lemma PutUnique<V>(es: Entries<V>, k: string, v: V)
    requires UniqueKeys(es)
    ensures UniqueKeys(Put(es, k, v))
  {
    var r := Put(es, k, v);
    assert forall i :: 0 <= i < |r| ==> r[i].0 == Keys(r)[i];
    assert forall i :: 0 <= i < |es| ==> es[i].0 == Keys(es)[i];
  }

  // ---------------------------------------------------------------------------
  // Menu documents and the cache

  /** A menu document as the store returns it; an absent key is `None`. */
  datatype MenuDoc = MenuDoc(
    id: Option<string>,
    nombre: Option<string>,
    precio: Option<real>,
    tiempoPrep: Option<int>,
    categoria: Option<string>)

  /** `item.get('nombre', '')` */
  function NameOf(d: MenuDoc): string {
    d.nombre.GetOr("")
  }

  /** `item.get('id', item.get('nombre', '').lower())` */
  function IdOf(d: MenuDoc): string {
    d.id.GetOr(Lower(NameOf(d)))
  }

  /** The index keys one document writes, in order: its lower-cased name, then the folded
      name when folding changes it. */
  function IndexKeys(d: MenuDoc): (ks: seq<string>)
    ensures |ks| >= 1 && ks[0] == Lower(NameOf(d))
    ensures forall k :: k in ks ==> k == Lower(NameOf(d)) || k == Normalize(Lower(NameOf(d)))
    ensures Normalize(Lower(NameOf(d))) in ks
  {
    var lower := Lower(NameOf(d));
    var folded := Normalize(lower);
    if folded != lower then [lower, folded] else [lower]
  }

  datatype MenuCache = MenuCache(
    cache: Entries<MenuDoc>,
    nameIndex: Entries<string>,
    loaded: bool)

  const EmptyCache := MenuCache([], [], false)

  /** What loading keeps true: dictionary keys are unique and the index only names ids
      that are in the cache. */
  predicate WellFormed(c: MenuCache) {
    && UniqueKeys(c.cache)
    && UniqueKeys(c.nameIndex)
    && forall i :: 0 <= i < |c.nameIndex| ==> HasKey(c.cache, c.nameIndex[i].1)
  }

  function PutAll(idx: Entries<string>, ks: seq<string>, id: string): Entries<string>
    decreases |ks|
  {
    if |ks| == 0 then idx else PutAll(Put(idx, ks[0], id), ks[1..], id)
  }

  lemma {:induction false} PutAllLookup(idx: Entries<string>, ks: seq<string>, id: string, k: string)
    ensures Lookup(PutAll(idx, ks, id), k) == if k in ks then Some(id) else Lookup(idx, k)
    decreases |ks|
  {
    if |ks| > 0 {
      PutAllLookup(Put(idx, ks[0], id), ks[1..], id, k);
      PutLookup(idx, ks[0], id, k);
      if k !in ks[1..] && k in ks {
        assert k == ks[0];
      }
    }
  }

  lemma {:induction false} PutAllUnique(idx: Entries<string>, ks: seq<string>, id: string)
    requires UniqueKeys(idx)
    ensures UniqueKeys(PutAll(idx, ks, id))
    decreases |ks|
  {
    if |ks| > 0 {
      PutUnique(idx, ks[0], id);
      PutAllUnique(Put(idx, ks[0], id), ks[1..], id);
    }
  }

  /** The loading loop over `docs`, starting from empty dictionaries: each document goes
      into the cache under its id and into the index under each of its index keys. */
  function BuildIndex(docs: seq<MenuDoc>): MenuCache
    decreases |docs|
  {
    if |docs| == 0 then MenuCache([], [], true)
    else
      var prev := BuildIndex(docs[..|docs| - 1]);
      var d := docs[|docs| - 1];
      MenuCache(Put(prev.cache, IdOf(d), d), PutAll(prev.nameIndex, IndexKeys(d), IdOf(d)), true)
  }

  /** `load_menu`: an already loaded cache answers its size and is left as it is; otherwise
      the cache and index are rebuilt from `source` (the store's available menu documents). */
  function LoadMenu(c: MenuCache, source: seq<MenuDoc>): (r: (MenuCache, int))
    ensures c.loaded ==> r == (c, |c.cache|)
    ensures !c.loaded ==> r.0 == BuildIndex(source) && r.1 == |r.0.cache|
    ensures r.0.loaded
  {
    if c.loaded then (c, |c.cache|)
    else
      var built := BuildIndex(source);
      (built, |built.cache|)
  }

  /** `reload_menu`: always rebuilds from `source`. */
  function ReloadMenu(c: MenuCache, source: seq<MenuDoc>): (r: (MenuCache, int))
    ensures r.0 == BuildIndex(source) && r.1 == |r.0.cache|
  {
    LoadMenu(c.(loaded := false), source)
  }

  /** The document a key of the index was last written by: the last document among `docs`
      whose index keys include `k`. */
  function LastWriter(docs: seq<MenuDoc>, k: string): (r: Option<MenuDoc>)
    ensures r.Some? ==> r.value in docs && k in IndexKeys(r.value)
    decreases |docs|
  {
    if |docs| == 0 then None
    else if k in IndexKeys(docs[|docs| - 1]) then Some(docs[|docs| - 1])
    else
      var r := LastWriter(docs[..|docs| - 1], k);
      assert r.Some? ==> r.value in docs by {
        if r.Some? {
          var i :| 0 <= i < |docs| - 1 && docs[..|docs| - 1][i] == r.value;
          assert docs[i] == r.value;
        }
      }
      r
  }

  /** The last document among `docs` with id `id`. */
  function LastWithId(docs: seq<MenuDoc>, id: string): Option<MenuDoc>
    decreases |docs|
  {
    if |docs| == 0 then None
    else if IdOf(docs[|docs| - 1]) == id then Some(docs[|docs| - 1])
    else LastWithId(docs[..|docs| - 1], id)
  }

  lemma {:induction false} LastWithIdFound(docs: seq<MenuDoc>, d: MenuDoc)
    requires d in docs
    ensures LastWithId(docs, IdOf(d)).Some?
    decreases |docs|
  {
    if IdOf(docs[|docs| - 1]) != IdOf(d) {
      assert d != docs[|docs| - 1];
      var i :| 0 <= i < |docs| && docs[i] == d;
      assert docs[..|docs| - 1][i] == d;
      LastWithIdFound(docs[..|docs| - 1], d);
    }
  }

  /** Loading indexes each name under its lower-cased form and, when different, its folded
      form; a key maps to the id of the document that wrote it last, and an id maps to the
      last document with that id. */
  lemma {:induction false} BuildIndexContents(docs: seq<MenuDoc>, k: string)
    ensures Lookup(BuildIndex(docs).nameIndex, k) ==
      (match LastWriter(docs, k) case Some(d) => Some(IdOf(d)) case None => None)
    ensures Lookup(BuildIndex(docs).cache, k) == LastWithId(docs, k)
    decreases |docs|
  {
    if |docs| > 0 {
      var prev := BuildIndex(docs[..|docs| - 1]);
      var d := docs[|docs| - 1];
      BuildIndexContents(docs[..|docs| - 1], k);
      PutLookup(prev.cache, IdOf(d), d, k);
      PutAllLookup(prev.nameIndex, IndexKeys(d), IdOf(d), k);
    }
  }

  /** A built cache is well formed: unique keys, and every index entry names an id the
      cache holds. */
  lemma {:induction false} BuildIndexWellFormed(docs: seq<MenuDoc>)
    ensures WellFormed(BuildIndex(docs))
    decreases |docs|
  {
    var c := BuildIndex(docs);
    if |docs| > 0 {
      var prev := BuildIndex(docs[..|docs| - 1]);
      var d := docs[|docs| - 1];
      BuildIndexWellFormed(docs[..|docs| - 1]);
      PutUnique(prev.cache, IdOf(d), d);
      PutAllUnique(prev.nameIndex, IndexKeys(d), IdOf(d));
    }
    forall i | 0 <= i < |c.nameIndex| ensures HasKey(c.cache, c.nameIndex[i].1) {
      var k := c.nameIndex[i].0;
      assert Lookup(c.nameIndex, k) == Some(c.nameIndex[i].1);
      BuildIndexContents(docs, k);
      var w := LastWriter(docs, k).value;
      BuildIndexContents(docs, IdOf(w));
      LastWithIdFound(docs, w);
    }
  }

  /** Every document's lower-cased name is indexed. */
  lemma {:induction false} EveryNameIndexed(docs: seq<MenuDoc>, i: int)
    requires 0 <= i < |docs|
    ensures HasKey(BuildIndex(docs).nameIndex, Lower(NameOf(docs[i])))
    ensures HasKey(BuildIndex(docs).nameIndex, Normalize(Lower(NameOf(docs[i]))))
    decreases |docs|
  {
    var k1, k2 := Lower(NameOf(docs[i])), Normalize(Lower(NameOf(docs[i])));
    BuildIndexContents(docs, k1);
    BuildIndexContents(docs, k2);
    LastWriterFound(docs, i, k1);
    LastWriterFound(docs, i, k2);
  }

  lemma {:induction false} LastWriterFound(docs: seq<MenuDoc>, i: int, k: string)
    requires 0 <= i < |docs| && k in IndexKeys(docs[i])
    ensures LastWriter(docs, k).Some?
    decreases |docs|
  {
    if i < |docs| - 1 && k !in IndexKeys(docs[|docs| - 1]) {
      assert docs[..|docs| - 1][i] == docs[i];
      LastWriterFound(docs[..|docs| - 1], i, k);
    }
  }

  // ---------------------------------------------------------------------------
  // Lookup (`buscar_producto`)

  /** The containment test of the substring stage, in both directions and on both forms
      of the query. */
  predicate SubstringMatch(key: string, lower: string, folded: string) {
    Contains(key, lower) || Contains(key, folded) || Contains(lower, key) || Contains(folded, key)
  }

  /** Stage 4: the id of the first index entry, in insertion order, that passes the
      containment test. */
  function SubstringScan(index: Entries<string>, lower: string, folded: string): (r: Option<string>)
    ensures r.None? <==> forall i :: 0 <= i < |index| ==> !SubstringMatch(index[i].0, lower, folded)
    ensures r.Some? ==> (exists i :: (0 <= i < |index| && index[i].1 == r.value
      && SubstringMatch(index[i].0, lower, folded)
      && forall j :: 0 <= j < i ==> !SubstringMatch(index[j].0, lower, folded)))
    decreases |index|
  {
    if |index| == 0 then None
    else if SubstringMatch(index[0].0, lower, folded) then Some(index[0].1)
    else
      var r := SubstringScan(index[1..], lower, folded);
      assert forall i :: 0 < i < |index| ==> index[i] == index[1..][i - 1];
      if r.Some? then
        var i :| 0 <= i < |index[1..]| && index[1..][i].1 == r.value
          && SubstringMatch(index[1..][i].0, lower, folded)
          && forall j :: 0 <= j < i ==> !SubstringMatch(index[1..][j].0, lower, folded);
        assert index[i + 1].1 == r.value;
        assert forall j :: 0 <= j < i + 1 ==> !SubstringMatch(index[j].0, lower, folded) by {
          forall j | 0 <= j < i + 1 ensures !SubstringMatch(index[j].0, lower, folded) {
            if j > 0 { assert index[j] == index[1..][j - 1]; }
          }
        }
        r
      else r
  }

  function MaxReal(a: real, b: real): real {
    if a >= b then a else b
  }

  /** `max(similarity(lower, key), similarity(folded, key))` */
  function EntryScore(score: (string, string) -> real, key: string, lower: string, folded: string): real {
    MaxReal(score(lower, key), score(folded, key))
  }

  /** Entry `i` reaches the threshold, scores at least as high as every entry that does,
      and strictly higher than every entry before it: the entry a scan keeping the first
      strictly better score settles on. */
  predicate BestFuzzyAt(
    index: Entries<string>, i: int, lower: string, folded: string,
    score: (string, string) -> real, threshold: real)
    requires 0 <= i < |index|
  {
    var best := EntryScore(score, index[i].0, lower, folded);
    && best >= threshold
    && (forall j :: 0 <= j < i ==> EntryScore(score, index[j].0, lower, folded) < best)
    && (forall j :: 0 <= j < |index| && EntryScore(score, index[j].0, lower, folded) >= threshold
          ==> EntryScore(score, index[j].0, lower, folded) <= best)
  }

  /** Stage 5 over the first entries of the index: the running best id and best score,
      replaced only by a strictly higher score that also reaches the threshold. */
  function FuzzyScan(
    index: Entries<string>, lower: string, folded: string,
    score: (string, string) -> real, threshold: real): (r: (Option<string>, real))
    ensures r.0.None? ==> r.1 == 0.0
    ensures r.0.None? ==> forall i :: 0 <= i < |index| ==>
      !(EntryScore(score, index[i].0, lower, folded) > 0.0
        && EntryScore(score, index[i].0, lower, folded) >= threshold)
    ensures r.0.Some? ==> r.1 > 0.0 && r.1 >= threshold
    ensures r.0.Some? ==> (exists i :: (0 <= i < |index| && index[i].1 == r.0.value
      && EntryScore(score, index[i].0, lower, folded) == r.1
      && forall j :: 0 <= j < i ==> EntryScore(score, index[j].0, lower, folded) < r.1))
    ensures forall i :: (0 <= i < |index| && EntryScore(score, index[i].0, lower, folded) >= threshold
      ==> EntryScore(score, index[i].0, lower, folded) <= r.1)
    decreases |index|
  {
    if |index| == 0 then (None, 0.0)
    else
      var init := index[..|index| - 1];
      var prev := FuzzyScan(init, lower, folded, score, threshold);
      var e := index[|index| - 1];
      var s := EntryScore(score, e.0, lower, folded);
      assert forall i :: 0 <= i < |init| ==> init[i] == index[i];
      if s > prev.1 && s >= threshold then
        assert forall j :: 0 <= j < |init| ==> EntryScore(score, index[j].0, lower, folded) < s;
        (Some(e.1), s)
      else prev
  }

  /** The lookup on a loaded cache; stages in order: exact lower-cased and stripped name,
      folded name, id, first substring match, best fuzzy match at or above `threshold`
      (similarity itself is a parameter). `None` means no product. */
  function Find(c: MenuCache, query: string, score: (string, string) -> real, threshold: real): Option<MenuDoc> {
    var lower := Strip(Lower(query));
    FindKeys(c, lower, Normalize(lower), score, threshold)
  }

  /** `Find` once the query has been lower-cased and stripped (`lower`) and folded
      (`folded`). */
  function FindKeys(c: MenuCache, lower: string, folded: string, score: (string, string) -> real, threshold: real): Option<MenuDoc> {
    if HasKey(c.nameIndex, lower) then Lookup(c.cache, Lookup(c.nameIndex, lower).value)
    else if HasKey(c.nameIndex, folded) then Lookup(c.cache, Lookup(c.nameIndex, folded).value)
    else if HasKey(c.cache, lower) then Lookup(c.cache, lower)
    else
      match SubstringScan(c.nameIndex, lower, folded)
      case Some(id) => Lookup(c.cache, id)
      case None =>
        var best := FuzzyScan(c.nameIndex, lower, folded, score, threshold);
        // `if best_match:` — an empty id counts as no match
        if best.0.Some? && best.0.value != "" then Lookup(c.cache, best.0.value) else None
  }

  /** `buscar_producto(nombre)`: loads the cache first when it is not loaded yet. */
  function Search(
    c: MenuCache, source: seq<MenuDoc>, query: string,
    score: (string, string) -> real, threshold: real): (r: (MenuCache, Option<MenuDoc>))
    ensures r.0.loaded
    ensures c.loaded ==> r.0 == c
  {
    var loaded := LoadMenu(c, source).0;
    (loaded, Find(loaded, query, score, threshold))
  }

  /** Once loaded, a search neither touches the source nor changes the cache: it is `Find`. */
  lemma SearchLoaded(
    c: MenuCache, source: seq<MenuDoc>, query: string,
    score: (string, string) -> real, threshold: real)
    requires c.loaded
    ensures Search(c, source, query, score, threshold) == (c, Find(c, query, score, threshold))
  {
  }

  /** Stage 1 wins: a query whose lower-cased, stripped form is an indexed name returns the
      document that name points to, whatever the later stages would say. */
  lemma ExactNameFirst(c: MenuCache, query: string, score: (string, string) -> real, threshold: real)
    requires WellFormed(c)
    requires HasKey(c.nameIndex, Strip(Lower(query)))
    ensures Find(c, query, score, threshold).Some?
    ensures Find(c, query, score, threshold)
      == Lookup(c.cache, Lookup(c.nameIndex, Strip(Lower(query))).value)
  {
    var k := Strip(Lower(query));
    var i :| 0 <= i < |c.nameIndex| && c.nameIndex[i].0 == k;
    assert Lookup(c.nameIndex, k) == Some(c.nameIndex[i].1);
  }

  /** Stage 2 comes next: when the exact name misses, the folded name is tried. */
  lemma FoldedNameSecond(c: MenuCache, query: string, score: (string, string) -> real, threshold: real)
    requires WellFormed(c)
    requires !HasKey(c.nameIndex, Strip(Lower(query)))
    requires HasKey(c.nameIndex, Normalize(Strip(Lower(query))))
    ensures Find(c, query, score, threshold).Some?
    ensures Find(c, query, score, threshold)
      == Lookup(c.cache, Lookup(c.nameIndex, Normalize(Strip(Lower(query)))).value)
  {
    var k := Normalize(Strip(Lower(query)));
    var i :| 0 <= i < |c.nameIndex| && c.nameIndex[i].0 == k;
    assert Lookup(c.nameIndex, k) == Some(c.nameIndex[i].1);
  }

  /** Stage 3: with both name stages missing, an id equal to the query is found. */
  lemma IdThird(c: MenuCache, query: string, score: (string, string) -> real, threshold: real)
    requires !HasKey(c.nameIndex, Strip(Lower(query)))
    requires !HasKey(c.nameIndex, Normalize(Strip(Lower(query))))
    requires HasKey(c.cache, Strip(Lower(query)))
    ensures Find(c, query, score, threshold) == Lookup(c.cache, Strip(Lower(query)))
    ensures Find(c, query, score, threshold).Some?
  {
  }

  /** Stage 4: otherwise the first index entry passing the containment test decides. */
  lemma SubstringFourth(c: MenuCache, query: string, score: (string, string) -> real, threshold: real, i: int)
    requires WellFormed(c)
    requires !HasKey(c.nameIndex, Strip(Lower(query)))
    requires !HasKey(c.nameIndex, Normalize(Strip(Lower(query))))
    requires !HasKey(c.cache, Strip(Lower(query)))
    requires 0 <= i < |c.nameIndex|
    requires SubstringMatch(c.nameIndex[i].0, Strip(Lower(query)), Normalize(Strip(Lower(query))))
    requires forall j :: 0 <= j < i ==>
      !SubstringMatch(c.nameIndex[j].0, Strip(Lower(query)), Normalize(Strip(Lower(query))))
    ensures Find(c, query, score, threshold) == Lookup(c.cache, c.nameIndex[i].1)
    ensures Find(c, query, score, threshold).Some?
  {
    SubstringStage(c, Strip(Lower(query)), Normalize(Strip(Lower(query))), score, threshold, i);
  }

  /** Stage 4 on the prepared keys. */
  lemma SubstringStage(c: MenuCache, lower: string, folded: string, score: (string, string) -> real, threshold: real, i: int)
    requires WellFormed(c)
    requires !HasKey(c.nameIndex, lower) && !HasKey(c.nameIndex, folded) && !HasKey(c.cache, lower)
    requires 0 <= i < |c.nameIndex| && SubstringMatch(c.nameIndex[i].0, lower, folded)
    requires forall j :: 0 <= j < i ==> !SubstringMatch(c.nameIndex[j].0, lower, folded)
    ensures FindKeys(c, lower, folded, score, threshold) == Lookup(c.cache, c.nameIndex[i].1)
    ensures FindKeys(c, lower, folded, score, threshold).Some?
  {
    var r := SubstringScan(c.nameIndex, lower, folded);
    var i' :| 0 <= i' < |c.nameIndex| && c.nameIndex[i'].1 == r.value
      && SubstringMatch(c.nameIndex[i'].0, lower, folded)
      && forall j :: 0 <= j < i' ==> !SubstringMatch(c.nameIndex[j].0, lower, folded);
    assert i' == i;
  }

  /** An empty or all-whitespace query, when no name and no id is empty, returns the first
      indexed document: the empty string is a substring of the first key. */
  lemma BlankQueryFirstEntry(c: MenuCache, query: string, score: (string, string) -> real, threshold: real)
    requires WellFormed(c)
    requires forall i :: 0 <= i < |query| ==> IsSpace(LowerChar(query[i]))
    requires |c.nameIndex| > 0
    requires !HasKey(c.nameIndex, "") && !HasKey(c.cache, "")
    ensures Find(c, query, score, threshold) == Lookup(c.cache, c.nameIndex[0].1)
    ensures Find(c, query, score, threshold).Some?
  {
    StripAllSpace(Lower(query));
    assert Normalize("") == "";
    EmptyInEverything(c.nameIndex[0].0);
    SubstringFourth(c, query, score, threshold, 0);
  }

  /** Stage 5: a fuzzy answer is a document whose similarity reaches the threshold, and no
      index entry reaching the threshold scores higher; when nothing reaches it (or only
      zero scores do), the lookup finds nothing. */
  lemma FuzzyFifth(c: MenuCache, query: string, score: (string, string) -> real, threshold: real)
    requires WellFormed(c)
    requires !HasKey(c.nameIndex, Strip(Lower(query)))
    requires !HasKey(c.nameIndex, Normalize(Strip(Lower(query))))
    requires !HasKey(c.cache, Strip(Lower(query)))
    requires forall i :: 0 <= i < |c.nameIndex| ==>
      !SubstringMatch(c.nameIndex[i].0, Strip(Lower(query)), Normalize(Strip(Lower(query))))
    ensures var lower := Strip(Lower(query));
      var r := Find(c, query, score, threshold);
      r.Some? ==> (exists i :: (0 <= i < |c.nameIndex| && Lookup(c.cache, c.nameIndex[i].1) == r
        && BestFuzzyAt(c.nameIndex, i, lower, Normalize(lower), score, threshold)))
    ensures var lower := Strip(Lower(query));
      (forall i :: 0 <= i < |c.nameIndex| ==>
        EntryScore(score, c.nameIndex[i].0, lower, Normalize(lower)) < threshold)
      ==> Find(c, query, score, threshold) == None
  {
    var lower := Strip(Lower(query));
    FuzzyStage(c, lower, Normalize(lower), score, threshold);
    if forall i :: 0 <= i < |c.nameIndex| ==> EntryScore(score, c.nameIndex[i].0, lower, Normalize(lower)) < threshold {
      FuzzyStageMiss(c, lower, Normalize(lower), score, threshold);
    }
  }

  /** What stage 5 returns on the prepared keys. */
  lemma FuzzyBranch(c: MenuCache, lower: string, folded: string, score: (string, string) -> real, threshold: real)
    requires !HasKey(c.nameIndex, lower) && !HasKey(c.nameIndex, folded) && !HasKey(c.cache, lower)
    requires forall i :: 0 <= i < |c.nameIndex| ==> !SubstringMatch(c.nameIndex[i].0, lower, folded)
    ensures var best := FuzzyScan(c.nameIndex, lower, folded, score, threshold);
      FindKeys(c, lower, folded, score, threshold)
        == if best.0.Some? && best.0.value != "" then Lookup(c.cache, best.0.value) else None
  {
    assert SubstringScan(c.nameIndex, lower, folded).None?;
  }

  /** Stage 5 on the prepared keys: a hit is the earliest best-scoring entry. */
  lemma FuzzyStage(c: MenuCache, lower: string, folded: string, score: (string, string) -> real, threshold: real)
    requires WellFormed(c)
    requires !HasKey(c.nameIndex, lower) && !HasKey(c.nameIndex, folded) && !HasKey(c.cache, lower)
    requires forall i :: 0 <= i < |c.nameIndex| ==> !SubstringMatch(c.nameIndex[i].0, lower, folded)
    ensures var r := FindKeys(c, lower, folded, score, threshold);
      r.Some? ==> (exists i :: (0 <= i < |c.nameIndex| && Lookup(c.cache, c.nameIndex[i].1) == r
        && BestFuzzyAt(c.nameIndex, i, lower, folded, score, threshold)))
  {
    var best := FuzzyScan(c.nameIndex, lower, folded, score, threshold);
    FuzzyBranch(c, lower, folded, score, threshold);
    if best.0.Some? && best.0.value != "" {
      var i :| 0 <= i < |c.nameIndex| && c.nameIndex[i].1 == best.0.value
        && EntryScore(score, c.nameIndex[i].0, lower, folded) == best.1
        && forall j :: 0 <= j < i ==> EntryScore(score, c.nameIndex[j].0, lower, folded) < best.1;
      assert BestFuzzyAt(c.nameIndex, i, lower, folded, score, threshold);
      assert Lookup(c.cache, c.nameIndex[i].1) == FindKeys(c, lower, folded, score, threshold);
    }
  }

  /** Stage 5 on the prepared keys: with no entry reaching the threshold there is no hit. */
  lemma FuzzyStageMiss(c: MenuCache, lower: string, folded: string, score: (string, string) -> real, threshold: real)
    requires !HasKey(c.nameIndex, lower) && !HasKey(c.nameIndex, folded) && !HasKey(c.cache, lower)
    requires forall i :: 0 <= i < |c.nameIndex| ==> !SubstringMatch(c.nameIndex[i].0, lower, folded)
    requires forall i :: 0 <= i < |c.nameIndex| ==> EntryScore(score, c.nameIndex[i].0, lower, folded) < threshold
    ensures FindKeys(c, lower, folded, score, threshold) == None
  {
    FuzzyBranch(c, lower, folded, score, threshold);
  }

  // ---------------------------------------------------------------------------
  // Menu listing (`get_menu_text_for_prompt`)

  /** Python's `str(n)` for an int. */
  function IntToString(n: int): string
    decreases if n < 0 then 1 - n else n
  {
    if n < 0 then "-" + IntToString(-n)
    else if n < 10 then [(48 + n) as char]
    else IntToString(n / 10) + [(48 + n % 10) as char]
  }

  /** `item.get('nombre', 'Item')` as the listing reads it. */
  function ListedName(d: MenuDoc): string {
    d.nombre.GetOr("Item")
  }

  /** `f"- {nombre}: ${precio} (Prep: {tiempo}min) [{categoria}]"` with the defaults
      0, 5 and 'otro'; an absent price is the integer 0, which Python prints as "0", and a
      present price is printed by `showPrice`. */
  function FormatLine(d: MenuDoc, showPrice: real -> string): string {
    var price := match d.precio case Some(p) => showPrice(p) case None => "0";
    "- " + ListedName(d) + ": $" + price + " (Prep: " + IntToString(d.tiempoPrep.GetOr(5))
      + "min) [" + d.categoria.GetOr("otro") + "]"
  }

  function ListedNames(ds: seq<MenuDoc>): (ns: seq<string>)
    ensures |ns| == |ds|
    ensures forall i :: 0 <= i < |ds| ==> ns[i] == ListedName(ds[i])
  {
    seq(|ds|, i requires 0 <= i < |ds| => ListedName(ds[i]))
  }

  /** No document before position `i` carries the listed name of the one at `i`. */
  predicate FirstOfName(values: seq<MenuDoc>, i: int)
    requires 0 <= i < |values|
  {
    forall j :: 0 <= j < i ==> ListedName(values[j]) != ListedName(values[i])
  }

  /** Reference definition of the listing's documents: those that are the first of their
      listed name, in cache order. */
  function FirstsOf(values: seq<MenuDoc>): seq<MenuDoc>
    decreases |values|
  {
    if |values| == 0 then []
    else
      var n := |values| - 1;
      FirstsOf(values[..n]) + (if FirstOfName(values, n) then [values[n]] else [])
  }

  /** The documents kept by the `seen` filter: the first document of each listed name,
      in cache order. */
  function FirstPerName(values: seq<MenuDoc>): (r: seq<MenuDoc>)
    ensures forall i, j :: 0 <= i < j < |r| ==> ListedName(r[i]) != ListedName(r[j])
    ensures forall k :: 0 <= k < |r| ==>
      exists i :: 0 <= i < |values| && values[i] == r[k] && FirstOfName(values, i)
    ensures forall i :: 0 <= i < |values| ==> ListedName(values[i]) in ListedNames(r)
    decreases |values|
  {
    if |values| == 0 then []
    else
      var init := values[..|values| - 1];
      var prev := FirstPerName(init);
      var d := values[|values| - 1];
      assert forall i :: 0 <= i < |init| ==> values[i] == init[i];
      assert forall i :: 0 <= i < |init| && FirstOfName(init, i) ==> FirstOfName(values, i);
      if ListedName(d) in ListedNames(prev) then prev
      else
        var r := prev + [d];
        assert ListedNames(r) == ListedNames(prev) + [ListedName(d)];
        assert FirstOfName(values, |values| - 1) by {
          forall j | 0 <= j < |values| - 1
            ensures ListedName(values[j]) != ListedName(d)
          {
            assert ListedName(init[j]) in ListedNames(prev);
          }
        }
        r
  }

  /** A document's name is already among the kept ones exactly when an earlier document
      carries it. */
  lemma SeenIffNotFirst(values: seq<MenuDoc>)
    requires |values| > 0
    ensures var n := |values| - 1;
      ListedName(values[n]) in ListedNames(FirstPerName(values[..n])) <==> !FirstOfName(values, n)
  {
    var n := |values| - 1;
    var init := values[..n];
    var prev := FirstPerName(init);
    assert forall i :: 0 <= i < n ==> values[i] == init[i];
    if ListedName(values[n]) in ListedNames(prev) {
      var k :| 0 <= k < |prev| && ListedNames(prev)[k] == ListedName(values[n]);
      var i :| 0 <= i < |init| && init[i] == prev[k] && FirstOfName(init, i);
      assert ListedName(values[i]) == ListedName(values[n]);
    } else {
      forall j | 0 <= j < n
        ensures ListedName(values[j]) != ListedName(values[n])
      {
        assert ListedName(init[j]) in ListedNames(prev);
      }
    }
  }

  /** The `seen` filter keeps exactly the first document of each name, in cache order. */
  lemma {:induction false} FirstPerNameInCacheOrder(values: seq<MenuDoc>)
    ensures FirstPerName(values) == FirstsOf(values)
    decreases |values|
  {
    if |values| > 0 {
      FirstPerNameInCacheOrder(values[..|values| - 1]);
      SeenIffNotFirst(values);
    }
  }

  function CacheValues(c: MenuCache): (vs: seq<MenuDoc>)
    ensures |vs| == |c.cache|
  {
    seq(|c.cache|, i requires 0 <= i < |c.cache| => c.cache[i].1)
  }

  function FormatLines(ds: seq<MenuDoc>, showPrice: real -> string): (lines: seq<string>)
    ensures |lines| == |ds|
  {
    seq(|ds|, i requires 0 <= i < |ds| => FormatLine(ds[i], showPrice))
  }

  /** The listing lines before sorting. */
  function MenuLines(c: MenuCache, showPrice: real -> string): (lines: seq<string>)
    ensures |lines| == |FirstPerName(CacheValues(c))|
  {
    FormatLines(FirstPerName(CacheValues(c)), showPrice)
  }

  /** The menu text: one line per distinct name, sorted, joined by newlines. */
  function MenuText(c: MenuCache, showPrice: real -> string): string {
    Join("\n", SortStrings(MenuLines(c, showPrice)))
  }

  /** The listing is the newline-joined, code-point-sorted arrangement of the formatted
      lines of the first document of each listed name in the cache. */
  lemma MenuTextShape(c: MenuCache, showPrice: real -> string)
    ensures var lines := FormatLines(FirstsOf(CacheValues(c)), showPrice);
      exists sorted :: SortedStrings(sorted) && multiset(sorted) == multiset(lines)
        && MenuText(c, showPrice) == Join("\n", sorted)
  {
    FirstPerNameInCacheOrder(CacheValues(c));
    var sorted := SortStrings(MenuLines(c, showPrice));
    assert SortedStrings(sorted) && multiset(sorted) == multiset(MenuLines(c, showPrice));
  }

  /** Two listings built from the same multiset of lines are the same text. */
  lemma MenuTextOrderIndependent(c1: MenuCache, c2: MenuCache, showPrice: real -> string)
    requires multiset(MenuLines(c1, showPrice)) == multiset(MenuLines(c2, showPrice))
    ensures MenuText(c1, showPrice) == MenuText(c2, showPrice)
  {
    SortedUnique(SortStrings(MenuLines(c1, showPrice)), SortStrings(MenuLines(c2, showPrice)));
  }
}

=== FILE: order_facts.dfy ===
/**
 * What the order engine promises across its handlers: an order is opened only when none is
 * open, later batches land on that same order with the prep buffer counted once, at most
 * one order stays open per customer, cancellation honours its five-minute window, and a
 * bubble list survives the trip through the text handler.
 */
module OrderFacts {
  import opened Common
  import opened Clock
  import Settings
  import opened Schemas
  import Menu
  import Bubbles
  import opened Orders

  // ---------------------------------------------------------------------------
  // Creating

  /** The document `create_order` stores for a new order, field by field. */
  lemma CreatedDocFields(o: Order)
    ensures var d := OrderToDoc(o);
      && d["id_cliente"] == VStr(o.idCliente)
      && d["estado"] == VStr(StatusName(o.estado))
      && d["items"] == VList(ItemsToValues(o.items))
      && d["total"] == VFloat(o.total)
      && d["tiempo_preparacion_total"] == VInt(o.tiempoPreparacionTotal)
      && d["fecha_creacion"] == VTime(o.fechaCreacion)
      && d["hora_entrega_estimada"] == OptTimeValue(o.horaEntregaEstimada)
  {
  }

  /** The order a valid batch creates, and the document stored for it. */
  lemma CreateShape(db: Db, phone: string, items: seq<OrderItem>, now: int, suffix: string)
    requires AllValid(items)
    ensures var id := "ord_" + suffix;
      var tiempo := CalcularTiempoPrep(items) + Settings.DefaultPrepBufferMinutes;
      var o := NewOrder(id, phone, UtcNow(now), items, CalcularTotal(items), tiempo, AddMinutes(UtcNow(now), tiempo));
      && o.Some?
      && var reply := OrderCreatedReply(CalcularTotal(items), tiempo, AddMinutes(UtcNow(now), tiempo));
      CreateOrder(db, phone, items, now, suffix)
        == (Save(db.(orders := db.orders[id := OrderToDoc(o.value)]), phone, Turn(Model, reply)),
            ChatResponse(OrdenCreada, reply, None, Some(OrderToDoc(o.value))))
  {
  }

  /** A valid batch always opens an order under `ord_<suffix>`, open for the customer; no
      other order is touched and the confirmation is saved. */
  lemma CreateOpensOrder(db: Db, phone: string, items: seq<OrderItem>, now: int, suffix: string)
    requires AllValid(items)
    ensures var (db', resp) := CreateOrder(db, phone, items, now, suffix);
      var id := "ord_" + suffix;
      && resp.tipo == OrdenCreada
      && id in db'.orders && IsPendingFor(db'.orders[id], phone)
      && resp.orden == Some(db'.orders[id])
      && db'.orders == db.orders[id := db'.orders[id]]
      && HistoryOf(db', phone) == HistoryOf(db, phone) + [Turn(Model, resp.mensaje)]
  {
    CreateShape(db, phone, items, now, suffix);
    var id := "ord_" + suffix;
    var tiempo := CalcularTiempoPrep(items) + Settings.DefaultPrepBufferMinutes;
    var o := NewOrder(id, phone, UtcNow(now), items, CalcularTotal(items), tiempo, AddMinutes(UtcNow(now), tiempo)).value;
    CreatedDocFields(o);
  }

  /** The new order's total is Σ subtotals, its prep time the batch's plus the 5-minute
      buffer, and it is created now and due that many minutes later. */
  lemma CreatedContents(db: Db, phone: string, items: seq<OrderItem>, now: int, suffix: string)
    requires AllValid(items)
    ensures var d := CreateOrder(db, phone, items, now, suffix).0.orders["ord_" + suffix];
      var tiempo := CalcularTiempoPrep(items) + Settings.DefaultPrepBufferMinutes;
      && d["items"] == VList(ItemsToValues(items))
      && d["total"] == VFloat(CalcularTotal(items))
      && d["tiempo_preparacion_total"] == VInt(tiempo)
      && d["fecha_creacion"] == VTime(UtcNow(now))
      && d["hora_entrega_estimada"] == VTime(AddMinutes(UtcNow(now), tiempo))
  {
    CreateShape(db, phone, items, now, suffix);
    var id := "ord_" + suffix;
    var tiempo := CalcularTiempoPrep(items) + Settings.DefaultPrepBufferMinutes;
    var o := NewOrder(id, phone, UtcNow(now), items, CalcularTotal(items), tiempo, AddMinutes(UtcNow(now), tiempo)).value;
    CreatedDocFields(o);
  }

  /** The total a new order is stored with is the one an update would compute from its lines:
      both ways of summing agree. */
  lemma CreatedTotalIsLineSum(db: Db, phone: string, items: seq<OrderItem>, now: int, suffix: string)
    requires AllValid(items)
    ensures var d := CreateOrder(db, phone, items, now, suffix).0.orders["ord_" + suffix];
      && StoredLines(d) == Some(ItemsToValues(items))
      && LinesTotal(ItemsToValues(items)).Some?
      && AsNumber(LinesTotal(ItemsToValues(items)).value) == AsNumber(d["total"])
  {
    CreatedContents(db, phone, items, now, suffix);
    DumpedLinesTotal(items);
  }

  // ---------------------------------------------------------------------------
  // Updating

  /** The new contents of an order whose stored lines sum: the stored lines first and
      untouched, the new lines after them, a total that grows by exactly the batch's
      subtotals, and a prep time that grows by the batch alone. */
  lemma ExtendedContents(data: Doc, items: seq<OrderItem>)
    requires StoredLines(data).Some? && StoredPrep(data).Some?
    requires LinesTotal(StoredLines(data).value).Some?
    ensures Extended(data, items).Some?
    ensures var (all, total, tiempo) := Extended(data, items).value;
      && all == StoredLines(data).value + ItemsToValues(items)
      && AsNumber(total).Some?
      && AsNumber(total).value == AsNumber(LinesTotal(StoredLines(data).value).value).value + CalcularTotal(items)
      && tiempo == StoredPrep(data).value + CalcularTiempoPrep(items)
  {
    LinesTotalAppend(StoredLines(data).value, items);
  }

  /** What `WriteUpdate` writes: the four fields on that order only, and the confirmation. */
  lemma WriteUpdateEffect(db: Db, phone: string, id: string, all: seq<Value>, total: Value, tiempo: int, now: int)
    requires id in db.orders
    ensures var (db', resp) := WriteUpdate(db, phone, id, all, total, tiempo, now);
      && resp.tipo == OrdenActualizada
      && db'.orders.Keys == db.orders.Keys
      && (forall k :: k in db.orders && k != id ==> db'.orders[k] == db.orders[k])
      && db'.orders[id] == UpdatedDoc(db.orders[id], all, total, tiempo, AddMinutes(UtcNow(now), tiempo))
      && HistoryOf(db', phone) == HistoryOf(db, phone) + [Turn(Model, resp.mensaje)]
  {
  }

  /** Adding a batch to the open order writes its new contents and a new ETA to that order
      alone, keeps every other field, and saves the confirmation. */
  lemma UpdateAppends(db: Db, phone: string, id: string, items: seq<OrderItem>, now: int)
    requires id in db.orders
    requires Extended(db.orders[id], items).Some?
    ensures var (db', resp) := UpdateOrder(db, phone, id, items, now);
      var data := db.orders[id];
      var (all, total, tiempo) := Extended(data, items).value;
      && resp.tipo == OrdenActualizada
      && db'.orders.Keys == db.orders.Keys
      && (forall k :: k in db.orders && k != id ==> db'.orders[k] == db.orders[k])
      && db'.orders[id] == UpdatedDoc(data, all, total, tiempo, AddMinutes(UtcNow(now), tiempo))
      && HistoryOf(db', phone) == HistoryOf(db, phone) + [Turn(Model, resp.mensaje)]
  {
    var (all, total, tiempo) := Extended(db.orders[id], items).value;
    WriteUpdateEffect(db, phone, id, all, total, tiempo, now);
  }

  /** The stored order refuses the update, and nothing is written, when its lines or prep
      time are not what the engine writes or some line cannot be summed. */
  lemma UpdateRefused(db: Db, phone: string, id: string, items: seq<OrderItem>, now: int)
    requires id in db.orders
    requires StoredLines(db.orders[id]).None? || StoredPrep(db.orders[id]).None?
      || LinesTotal(StoredLines(db.orders[id]).value).None?
    ensures Extended(db.orders[id], items).None?
    ensures UpdateOrder(db, phone, id, items, now) == (db, ErrorResponse)
  {
    var data := db.orders[id];
    if StoredLines(data).Some? && StoredPrep(data).Some? {
      LinesTotalAppend(StoredLines(data).value, items);
    }
  }

  /** Extending what a creation stored with a second batch gives the contents one order of
      both batches would have been created with. */
  lemma ExtendCreated(data: Doc, a: seq<OrderItem>, b: seq<OrderItem>)
    requires "items" in data && data["items"] == VList(ItemsToValues(a))
    requires "tiempo_preparacion_total" in data
    requires data["tiempo_preparacion_total"] == VInt(CalcularTiempoPrep(a) + Settings.DefaultPrepBufferMinutes)
    ensures Extended(data, b).Some?
    ensures var (all, total, tiempo) := Extended(data, b).value;
      && all == ItemsToValues(a + b)
      && AsNumber(total) == Some(CalcularTotal(a + b))
      && tiempo == CalcularTiempoPrep(a + b) + Settings.DefaultPrepBufferMinutes
  {
    assert StoredLines(data) == Some(ItemsToValues(a));
    assert StoredPrep(data) == Some(CalcularTiempoPrep(a) + Settings.DefaultPrepBufferMinutes);
    DumpedLinesTotal(a);
    ExtendedContents(data, b);
    ItemsToValuesAppend(a, b);
    CalcularTiempoPrepAppend(a, b);
    SumOfBatches(Extended(data, b).value.1, ItemsToValues(a), a, b);
  }

  /** A stored total that adds the second batch to the first batch's stored total is the
      total of both batches. */
  lemma SumOfBatches(total: Value, lines: seq<Value>, a: seq<OrderItem>, b: seq<OrderItem>)
    requires LinesTotal(lines).Some? && AsNumber(LinesTotal(lines).value) == Some(CalcularTotal(a))
    requires AsNumber(total).Some?
    requires AsNumber(total).value == AsNumber(LinesTotal(lines).value).value + CalcularTotal(b)
    ensures AsNumber(total) == Some(CalcularTotal(a + b))
  {
    CalcularTotalAppend(a, b);
  }

  /** A tab opened with one batch and extended with another holds what one order of both
      batches would: the same lines, the same total and the same prep time, so the
      5-minute buffer is charged once per tab. */
  lemma TabEqualsOneOrder(db: Db, phone: string, a: seq<OrderItem>, b: seq<OrderItem>, t1: int, t2: int, suffix: string)
    requires AllValid(a)
    ensures var db1 := CreateOrder(db, phone, a, t1, suffix).0;
      var id := "ord_" + suffix;
      id in db1.orders
      && (var d := UpdateOrder(db1, phone, id, b, t2).0.orders[id];
          && d["items"] == VList(ItemsToValues(a + b))
          && AsNumber(d["total"]) == Some(CalcularTotal(a + b))
          && d["tiempo_preparacion_total"] == VInt(CalcularTiempoPrep(a + b) + Settings.DefaultPrepBufferMinutes))
  {
    var id := "ord_" + suffix;
    CreateOpensOrder(db, phone, a, t1, suffix);
    CreatedContents(db, phone, a, t1, suffix);
    var db1 := CreateOrder(db, phone, a, t1, suffix).0;
    ExtendCreated(db1.orders[id], a, b);
    UpdateAppends(db1, phone, id, b, t2);
  }

  lemma {:induction false} ItemsToValuesAppend(a: seq<OrderItem>, b: seq<OrderItem>)
    ensures ItemsToValues(a) + ItemsToValues(b) == ItemsToValues(a + b)
    decreases |b|
  {
    if |b| == 0 {
      assert a + b == a;
    } else {
      assert (a + b)[..|a + b| - 1] == a + b[..|b| - 1];
      ItemsToValuesAppend(a, b[..|b| - 1]);
    }
  }

  // ---------------------------------------------------------------------------
  // At most one open order per customer

  /** An update never changes whom an order is open for. */
  lemma UpdatedDocOpenFor(data: Doc, all: seq<Value>, total: Value, tiempo: int, eta: Timestamp)
    ensures OpenFor(UpdatedDoc(data, all, total, tiempo, eta)) == OpenFor(data)
  {
    assert "id_cliente" !in UpdatedFields && "estado" !in UpdatedFields;
  }

  /** Handling an order keeps at most one order open per customer, and after a successful
      batch the customer has exactly one open order. */
  lemma HandleOrderKeepsOneOpen(
    db: Db, cache: Menu.MenuCache, phone: string, raws: seq<RawItem>, pending: Option<string>,
    now: int, suffix: string, source: seq<Menu.MenuDoc>, score: (string, string) -> real)
    requires PendingAnswer(db, phone, pending)
    requires AtMostOnePending(db.orders)
    ensures var r := HandleOrder(db, cache, phone, raws, pending, now, suffix, source, score);
      && AtMostOnePending(r.0.orders)
      && (r.2.tipo != Error ==> exists id :: PendingAnswer(r.0, phone, Some(id)))
  {
    var (c, lines) := PriceLines(cache, source, raws, score);
    if lines.Some? {
      var items := lines.value;
      if pending.None? {
        var id := "ord_" + suffix;
        CreateOpensOrder(db, phone, items, now, suffix);
        var orders' := CreateOrder(db, phone, items, now, suffix).0.orders;
        assert OpenFor(orders'[id]) == Some(phone);
        forall a, b | a in orders' && b in orders' && OpenFor(orders'[a]).Some? && OpenFor(orders'[a]) == OpenFor(orders'[b])
          ensures a == b
        {
          if a == id || b == id {
            var other := if a == id then b else a;
            assert OpenFor(orders'[other]) == Some(phone);
          }
        }
        assert PendingAnswer(CreateOrder(db, phone, items, now, suffix).0, phone, Some(id));
      } else {
        var id := pending.value;
        UpdateKeepsOneOpen(db, phone, id, items, now);
      }
    }
  }

  /** An update writes neither the customer nor the state of any order. */
  lemma UpdateKeepsOneOpen(db: Db, phone: string, id: string, items: seq<OrderItem>, now: int)
    requires id in db.orders && IsPendingFor(db.orders[id], phone)
    requires AtMostOnePending(db.orders)
    ensures var r := UpdateOrder(db, phone, id, items, now);
      && AtMostOnePending(r.0.orders)
      && (r.1.tipo != Error ==> PendingAnswer(r.0, phone, Some(id)))
  {
    var data := db.orders[id];
    if Extended(data, items).Some? {
      var (all, total, tiempo) := Extended(data, items).value;
      UpdateAppends(db, phone, id, items, now);
      UpdatedDocOpenFor(data, all, total, tiempo, AddMinutes(UtcNow(now), tiempo));
      var orders' := UpdateOrder(db, phone, id, items, now).0.orders;
      assert forall k :: k in orders' ==> OpenFor(orders'[k]) == OpenFor(db.orders[k]);
    }
  }

  /** Cancelling closes the customer's open order and opens none. */
  lemma CancellationKeepsOneOpen(db: Db, phone: string, razon: Option<string>, pending: Option<string>, now: int)
    requires PendingAnswer(db, phone, pending)
    requires AtMostOnePending(db.orders)
    ensures AtMostOnePending(HandleCancellation(db, phone, razon, pending, now).0.orders)
  {
    var r := HandleCancellation(db, phone, razon, pending, now);
    if r.1.tipo == OrdenCancelada {
      var id := pending.value;
      assert OpenFor(r.0.orders[id]).None?;
      assert forall k :: k in r.0.orders && k != id ==> r.0.orders[k] == db.orders[k];
    }
  }

  /** Whatever the classifier answers, at most one order stays open per customer. */
  lemma DispatchKeepsOneOpen(
    db: Db, cache: Menu.MenuCache, phone: string, reply: ClassifierReply, pending: Option<string>,
    now: int, suffix: string, source: seq<Menu.MenuDoc>, score: (string, string) -> real)
    requires PendingAnswer(db, phone, pending)
    requires AtMostOnePending(db.orders)
    ensures AtMostOnePending(Dispatch(db, cache, phone, reply, pending, now, suffix, source, score).0.orders)
  {
    match reply
    case OrderCall(raws) => HandleOrderKeepsOneOpen(db, cache, phone, raws, pending, now, suffix, source, score);
    case CancelCall(razon) => CancellationKeepsOneOpen(db, phone, razon, pending, now);
    case _ =>
  }

  // ---------------------------------------------------------------------------
  // Cancelling

  /** Within the window the open order, and only its state, becomes `cancelado`, and the
      customer is left with no open order. */
  lemma CancelWithinWindow(db: Db, phone: string, razon: Option<string>, id: string, now: int)
    requires PendingAnswer(db, phone, Some(id))
    requires AtMostOnePending(db.orders)
    requires ElapsedSinceCreation(db.orders[id], now).Some?
    requires ElapsedSinceCreation(db.orders[id], now).value <= CancelLimitMicros
    ensures var (db', resp) := HandleCancellation(db, phone, razon, Some(id), now);
      && resp.tipo == OrdenCancelada
      && db'.orders == db.orders[id := db.orders[id]["estado" := VStr("cancelado")]]
      && resp.mensaje == CancelledReply(WholeMinutes(ElapsedSinceCreation(db.orders[id], now).value), id, razon.GetOr("Sin razón"))
      && PendingAnswer(db', phone, None)
  {
    TooLateIff(ElapsedSinceCreation(db.orders[id], now).value);
    var db' := HandleCancellation(db, phone, razon, Some(id), now).0;
    forall k | k in db'.orders
      ensures !IsPendingFor(db'.orders[k], phone)
    {
    }
  }

  /** Past the window the order is left as it is and the customer is told how many whole
      minutes have passed. */
  lemma CancelTooLate(db: Db, phone: string, razon: Option<string>, id: string, now: int)
    requires PendingAnswer(db, phone, Some(id))
    requires ElapsedSinceCreation(db.orders[id], now).Some?
    requires ElapsedSinceCreation(db.orders[id], now).value > CancelLimitMicros
    ensures var (db', resp) := HandleCancellation(db, phone, razon, Some(id), now);
      && resp.tipo == Texto
      && resp.mensaje == TooLateReply(WholeMinutes(ElapsedSinceCreation(db.orders[id], now).value))
      && db'.orders == db.orders
      && HistoryOf(db', phone) == HistoryOf(db, phone) + [Turn(Model, resp.mensaje)]
  {
    TooLateIff(ElapsedSinceCreation(db.orders[id], now).value);
  }

  /** With nothing open there is nothing to cancel: only the notice is saved. */
  lemma CancelNothingOpen(db: Db, phone: string, razon: Option<string>, now: int)
    requires PendingAnswer(db, phone, None)
    ensures HandleCancellation(db, phone, razon, None, now)
      == (Save(db, phone, Turn(Model, NoPendingReply)), ChatResponse(Texto, NoPendingReply, None, None))
  {
  }

  /** The window is closed at both ends: exactly five minutes after creation still cancels,
      one microsecond later does not. */
  lemma CancelBoundary(created: Timestamp)
    ensures var at := UtcMicros(created) + 5 * MicrosPerMinute;
      var d := map["fecha_creacion" := VTime(created)];
      && ElapsedSinceCreation(d, at) == Some(CancelLimitMicros)
      && !TooLate(ElapsedSinceCreation(d, at).value)
      && ElapsedSinceCreation(d, at + 1) == Some(CancelLimitMicros + 1)
      && TooLate(ElapsedSinceCreation(d, at + 1).value)
  {
    TooLateIff(CancelLimitMicros);
    TooLateIff(CancelLimitMicros + 1);
  }

  /** A naive creation time is read as UTC, and an order without one counts as just created. */
  lemma ElapsedConventions(d: Doc, local: int, now: int)
    ensures ElapsedSinceCreation(d["fecha_creacion" := VTime(Naive(local))], now)
      == ElapsedSinceCreation(d["fecha_creacion" := VTime(Aware(local, 0))], now)
    ensures "fecha_creacion" !in d ==> ElapsedSinceCreation(d, now) == Some(0)
  {
  }

  // ---------------------------------------------------------------------------
  // Text

  /** A rendered bubble list, whatever whitespace surrounds it, comes back as those bubbles,
      and the single message (the one saved) is them joined by spaces. */
  lemma BubblesSurviveText(db: Db, phone: string, xs: seq<string>, w1: string, w2: string)
    requires forall k :: 0 <= k < |w1| ==> Bubbles.IsJsonSpace(w1[k])
    requires forall k :: 0 <= k < |w2| ==> Bubbles.IsJsonSpace(w2[k])
    ensures var (db', resp) := HandleText(db, phone, w1 + Bubbles.Render(xs) + w2);
      && resp == ChatResponse(Texto, Said(Join(" ", xs)), Some(xs), None)
      && db' == Save(db, phone, Turn(Model, Said(Join(" ", xs))))
  {
    Bubbles.ParseRender(xs, w1, w2);
  }

  /** Text that is not a list of strings is passed on verbatim. */
  lemma PlainTextVerbatim(db: Db, phone: string, text: string)
    requires Bubbles.ParseBubbles(text).None?
    ensures HandleText(db, phone, text) == (Save(db, phone, Turn(Model, Said(text))), ChatResponse(Texto, Said(text), None, None))
  {
  }
}

=== FILE: orders.dfy ===
/**
 * The open-tab order engine: a classified message either opens a pending order for the
 * customer, adds lines to the one already open, cancels it within the time window, or is
 * answered with text. The store, the classifier, the clock and the id generator are
 * parameters; each handler runs to completion without interleaving, because every store
 * call it makes is synchronous.
 */
module Orders {
  import opened Common
  import opened Clock
  import Settings
  import opened Schemas
  import Menu
  import Bubbles

  // ---------------------------------------------------------------------------
  // What the classifier can answer

  /** One order line as the classifier proposes it (`interpretar_orden` arguments); an
      absent field is `None`. Quantities arrive as numbers and are truncated by `int()`. */
  datatype RawItem = RawItem(
    nombre: Option<string>,
    cantidad: Option<real>,
    precioUnitario: Option<real>,
    modificadores: Option<seq<string>>,
    notas: Option<string>)

  /** The first part of the classifier's first candidate. */
  datatype ClassifierReply =
    | NoCandidates                        // no candidate, or a candidate without parts
    | OrderCall(items: seq<RawItem>)      // `interpretar_orden`; absent `items` is []
    | CancelCall(razon: Option<string>)   // `cancelar_orden`
    | OtherCall                           // a function call of any other name
    | TextReply(text: string)

  // ---------------------------------------------------------------------------
  // Replies, chat history and responses

  /** What a reply says; the Spanish wording and number formatting are not modelled. */
  datatype Reply =
    | Said(text: string)
    | OrderCreatedReply(total: real, minutes: int, eta: Timestamp)
    | OrderUpdatedReply(total: real, minutes: int, eta: Timestamp)
    | NoPendingReply
    | TooLateReply(minutes: int)
    | CancelledReply(minutes: int, orderId: string, razon: string)
    | NoValidAnswer
    | Failure
    | Grouped

  datatype Role = User | Model

  datatype Turn = Turn(role: Role, content: Reply)

  /** The response kinds (`tipo`). */
  datatype Kind = Texto | OrdenCreada | OrdenActualizada | OrdenCancelada | Error | Ignorar

  datatype ChatResponse = ChatResponse(
    tipo: Kind,
    mensaje: Reply,
    mensajes: Option<seq<string>>,
    orden: Option<Doc>)

  const ErrorResponse := ChatResponse(Error, Failure, None, None)

  /** The document store: orders by id, and each customer's chat history. */
  datatype Db = Db(orders: map<string, Doc>, history: map<string, seq<Turn>>)

  function HistoryOf(db: Db, phone: string): seq<Turn> {
    if phone in db.history then db.history[phone] else []
  }

  /** `save_message(phone, role, content)` */
  function Save(db: Db, phone: string, t: Turn): (r: Db)
    ensures r.orders == db.orders
    ensures HistoryOf(r, phone) == HistoryOf(db, phone) + [t]
  {
    db.(history := db.history[phone := HistoryOf(db, phone) + [t]])
  }

  /** Saving a turn for one customer leaves every other customer's history as it was. */
  lemma SaveOthers(db: Db, phone: string, t: Turn, p: string)
    requires p != phone
    ensures HistoryOf(Save(db, phone, t), p) == HistoryOf(db, p)
  {
  }

  // ---------------------------------------------------------------------------
  // The pending-order query

  const PendingName := "pendiente"

  /** A stored order that is open for `phone`. */
  predicate IsPendingFor(d: Doc, phone: string) {
    "id_cliente" in d && d["id_cliente"] == VStr(phone)
    && "estado" in d && d["estado"] == VStr(PendingName)
  }

  /** The answers `get_pending_order(phone)` may give: none exactly when no order is open
      for the customer, otherwise the id of one that is (the query has no ordering). */
  predicate PendingAnswer(db: Db, phone: string, ans: Option<string>) {
    match ans
    case None => forall id :: id in db.orders ==> !IsPendingFor(db.orders[id], phone)
    case Some(id) => id in db.orders && IsPendingFor(db.orders[id], phone)
  }

  /** The customer an order is open for, if it is open. */
  function OpenFor(d: Doc): (r: Option<string>)
    ensures forall phone :: IsPendingFor(d, phone) <==> r == Some(phone)
  {
    if "id_cliente" in d && d["id_cliente"].VStr? && "estado" in d && d["estado"] == VStr(PendingName)
    then Some(d["id_cliente"].s)
    else None
  }

  /** The open-tab invariant: at most one open order per customer. */
  predicate AtMostOnePending(orders: map<string, Doc>) {
    forall a, b :: a in orders && b in orders && OpenFor(orders[a]).Some? && OpenFor(orders[a]) == OpenFor(orders[b]) ==> a == b
  }

  // ---------------------------------------------------------------------------
  // Pricing a line

  /** Python's `int(x)` on a float: truncation toward zero. */
  function Trunc(x: real): (n: int)
    ensures x >= 0.0 ==> n as real <= x < n as real + 1.0
    ensures x < 0.0 ==> n as real - 1.0 < x <= n as real
  {
    if x >= 0.0 then x.Floor else -((-x).Floor)
  }

  function LineName(raw: RawItem): string {
    raw.nombre.GetOr("Item")
  }

  /** `int(item_data.get('cantidad', 1))` */
  function Quantity(raw: RawItem): int {
    match raw.cantidad
    case None => 1
    case Some(x) => Trunc(x)
  }

  /** The unit price: the menu's price (default 50.0) on a menu hit, otherwise the
      classifier's price (default 50.0). */
  function LinePrice(raw: RawItem, hit: Option<Menu.MenuDoc>): real {
    match hit
    case Some(m) => m.precio.GetOr(Settings.DefaultUnitPrice)
    case None => raw.precioUnitario.GetOr(Settings.DefaultUnitPrice)
  }

  /** Prep minutes per unit: the menu's (default 5) on a hit, otherwise 5. */
  function LinePrep(hit: Option<Menu.MenuDoc>): int {
    match hit
    case Some(m) => m.tiempoPrep.GetOr(Settings.DefaultPrepMinutes)
    case None => Settings.DefaultPrepMinutes
  }

  /** One `OrderItem(...)` of `_handle_order`; `None` when validation rejects it. */
  function PriceLine(raw: RawItem, hit: Option<Menu.MenuDoc>): (r: Option<OrderItem>)
    ensures r.Some? <==> Quantity(raw) > 0 && LinePrice(raw, hit) >= 0.0
    ensures r.Some? ==> (r.value.nombreProducto == LineName(raw) && r.value.cantidad == Quantity(raw)
                         && r.value.precioUnitario == LinePrice(raw, hit)
                         && r.value.tiempoPrepUnitario == LinePrep(hit))
    ensures r.Some? ==> (r.value.costoUnitario == r.value.precioUnitario * Settings.DefaultCostPercentage
                         && r.value.modificadoresSeleccionados == raw.modificadores.GetOr([])
                         && r.value.notasEspeciales == raw.notas)
  {
    var precio := LinePrice(raw, hit);
    MakeOrderItem(LineName(raw), Quantity(raw), precio, Some(precio * Settings.DefaultCostPercentage),
                  Some(raw.modificadores.GetOr([])), raw.notas, Some(LinePrep(hit)))
  }

  /** An unknown product is never a reason to reject a line: with a positive quantity and no
      price from the classifier it is priced at 50.0 with 5 minutes per unit. */
  lemma UnknownProductPricedByDefault(raw: RawItem)
    requires Quantity(raw) > 0 && raw.precioUnitario.None?
    ensures PriceLine(raw, None).Some?
    ensures PriceLine(raw, None).value.precioUnitario == 50.0
    ensures PriceLine(raw, None).value.tiempoPrepUnitario == 5
    ensures PriceLine(raw, None).value.costoUnitario == 15.0
  {
  }

  /** On a menu hit the classifier's own price is ignored. */
  lemma MenuPriceWins(raw: RawItem, other: RawItem, m: Menu.MenuDoc)
    requires Quantity(raw) == Quantity(other) && LineName(raw) == LineName(other)
    requires raw.modificadores == other.modificadores && raw.notas == other.notas
    ensures PriceLine(raw, Some(m)) == PriceLine(other, Some(m))
  {
  }

  /** The lines of a batch priced one after the other, each looked up in the menu (which
      is loaded by the first lookup); `None` when some line fails validation, in which case
      the later lines are not looked up. */
  function PriceLines(
    cache: Menu.MenuCache, source: seq<Menu.MenuDoc>, raws: seq<RawItem>,
    score: (string, string) -> real): (r: (Menu.MenuCache, Option<seq<OrderItem>>))
    ensures r.1.Some? ==> |r.1.value| == |raws| && AllValid(r.1.value)
    ensures cache.loaded ==> r.0 == cache
    ensures |raws| > 0 ==> r.0.loaded
    decreases |raws|
  {
    if |raws| == 0 then (cache, Some([]))
    else
      var (c1, hit) := Menu.Search(cache, source, LineName(raws[0]), score, Settings.DefaultFuzzyThreshold);
      match PriceLine(raws[0], hit)
      case None => (c1, None)
      case Some(line) =>
        var (c2, rest) := PriceLines(c1, source, raws[1..], score);
        match rest
        case None => (c2, None)
        case Some(lines) =>
          AllValidCons(line, lines);
          (c2, Some([line] + lines))
  }

  /** One line priced against a loaded menu. */
  function PriceAgainst(cache: Menu.MenuCache, raw: RawItem, score: (string, string) -> real): Option<OrderItem> {
    PriceLine(raw, Menu.Find(cache, LineName(raw), score, Settings.DefaultFuzzyThreshold))
  }

  /** Every line priced on its own against a loaded menu, stopping at the first rejection. */
  function PriceAll(cache: Menu.MenuCache, raws: seq<RawItem>, score: (string, string) -> real): Option<seq<OrderItem>> {
    MapAll(raw => PriceAgainst(cache, raw, score), raws)
  }

  /** Against a loaded menu the batch is priced line by line with no reload. */
  lemma {:induction false} PriceLinesLoaded(
    cache: Menu.MenuCache, source: seq<Menu.MenuDoc>, raws: seq<RawItem>,
    score: (string, string) -> real)
    requires cache.loaded
    ensures PriceLines(cache, source, raws, score) == (cache, PriceAll(cache, raws, score))
    decreases |raws|
  {
    if |raws| > 0 {
      Menu.SearchLoaded(cache, source, LineName(raws[0]), score, Settings.DefaultFuzzyThreshold);
      PriceLinesLoaded(cache, source, raws[1..], score);
    }
  }

  /** The batch succeeds exactly when every line does, and then holds those lines in order. */
  lemma PriceAllEach(cache: Menu.MenuCache, raws: seq<RawItem>, score: (string, string) -> real)
    ensures PriceAll(cache, raws, score).Some?
      <==> forall k :: 0 <= k < |raws| ==> PriceAgainst(cache, raws[k], score).Some?
    ensures PriceAll(cache, raws, score).Some? ==> |PriceAll(cache, raws, score).value| == |raws|
    ensures PriceAll(cache, raws, score).Some? ==>
      (forall k :: 0 <= k < |raws| ==> PriceAll(cache, raws, score).value[k] == PriceAgainst(cache, raws[k], score).value)
  {
    MapAllEach(raw => PriceAgainst(cache, raw, score), raws);
  }

  // ---------------------------------------------------------------------------
  // Python arithmetic on stored values

  function IntLike(v: Value): Option<int> {
    match v
    case VInt(i) => Some(i)
    case VBool(b) => Some(if b then 1 else 0)
    case _ => None
  }

  /** `a * b` for the numbers it is defined on: int × int stays int, anything with a float
      is a float; every other operand pair fails the sum it feeds (`None`). */
  function PyMul(a: Value, b: Value): (r: Option<Value>)
    ensures r.Some? ==> r.value.VInt? || r.value.VFloat?
  {
    if IntLike(a).Some? && IntLike(b).Some? then Some(VInt(IntLike(a).value * IntLike(b).value))
    else if AsNumber(a).Some? && AsNumber(b).Some? then Some(VFloat(AsNumber(a).value * AsNumber(b).value))
    else None
  }

  /** `a + b` on numbers, with the same typing as `PyMul`. */
  function PyAdd(a: Value, b: Value): (r: Option<Value>)
    ensures r.Some? ==> r.value.VInt? || r.value.VFloat?
  {
    if IntLike(a).Some? && IntLike(b).Some? then Some(VInt(IntLike(a).value + IntLike(b).value))
    else if AsNumber(a).Some? && AsNumber(b).Some? then Some(VFloat(AsNumber(a).value + AsNumber(b).value))
    else None
  }

  lemma IntLikeNumber(v: Value)
    ensures IntLike(v).Some? ==> AsNumber(v) == Some(IntLike(v).value as real)
  {
  }

  /** Whatever its type, a product is the product of the operands' values. */
  lemma PyMulNumber(a: Value, b: Value)
    ensures PyMul(a, b).Some? <==> AsNumber(a).Some? && AsNumber(b).Some?
    ensures PyMul(a, b).Some? ==> AsNumber(PyMul(a, b).value) == Some(AsNumber(a).value * AsNumber(b).value)
  {
    IntLikeNumber(a);
    IntLikeNumber(b);
    if IntLike(a).Some? && IntLike(b).Some? {
      var x, y := IntLike(a).value, IntLike(b).value;
      IntProductAsReal(x, y);
      assert PyMul(a, b) == Some(VInt(x * y));
      assert AsNumber(PyMul(a, b).value) == Some((x * y) as real);
      assert AsNumber(a).value * AsNumber(b).value == x as real * y as real;
    } else if AsNumber(a).Some? && AsNumber(b).Some? {
      PyMulFloat(a, b);
    }
  }

  lemma PyMulFloat(a: Value, b: Value)
    requires !(IntLike(a).Some? && IntLike(b).Some?)
    requires AsNumber(a).Some? && AsNumber(b).Some?
    ensures PyMul(a, b) == Some(VFloat(AsNumber(a).value * AsNumber(b).value))
  {
  }

  lemma IntProductAsReal(x: int, y: int)
    ensures (x * y) as real == x as real * y as real
  {
  }

  /** Whatever its type, a sum is the sum of the operands' values. */
  lemma PyAddNumber(a: Value, b: Value)
    ensures PyAdd(a, b).Some? <==> AsNumber(a).Some? && AsNumber(b).Some?
    ensures PyAdd(a, b).Some? ==> AsNumber(PyAdd(a, b).value) == Some(AsNumber(a).value + AsNumber(b).value)
  {
    IntLikeNumber(a);
    IntLikeNumber(b);
  }

  /** `i['cantidad'] * i['precio_unitario']` for one stored line. */
  function LineAmount(v: Value): Option<Value> {
    match v
    case VMap(f) =>
      if "cantidad" in f && "precio_unitario" in f then PyMul(f["cantidad"], f["precio_unitario"]) else None
    case _ => None
  }

  /** `sum(i['cantidad'] * i['precio_unitario'] for i in lines)`, from the int 0. */
  function LinesTotal(lines: seq<Value>): (r: Option<Value>)
    ensures r.Some? ==> AsNumber(r.value).Some?
    decreases |lines|
  {
    if |lines| == 0 then Some(VInt(0))
    else
      match (LinesTotal(lines[..|lines| - 1]), LineAmount(lines[|lines| - 1]))
      case (Some(acc), Some(x)) => PyAdd(acc, x)
      case _ => None
  }

  /** An int quantity times a float price is the float product. */
  lemma MulIntFloat(c: int, p: real)
    ensures PyMul(VInt(c), VFloat(p)) == Some(VFloat(c as real * p))
  {
    var a, b := VInt(c), VFloat(p);
    assert IntLike(b).None?;
    var r := PyMul(a, b);
    assert r.Some?;
    assert r.value.VFloat?;
    assert r.value.f == c as real * p;
  }

  /** The amount of a line dumped by the engine is its subtotal. */
  lemma LineAmountOfItem(i: OrderItem)
    ensures LineAmount(VMap(ItemToDoc(i))) == Some(VFloat(Subtotal(i)))
  {
    var d := ItemToDoc(i);
    assert "cantidad" in d && "precio_unitario" in d;
    assert d["cantidad"] == VInt(i.cantidad);
    assert d["precio_unitario"] == VFloat(i.precioUnitario);
    var c, p := i.cantidad, i.precioUnitario;
    MulIntFloat(c, p);
    var x := c as real * p;
    assert PyMul(VInt(c), VFloat(p)) == Some(VFloat(x));
    assert Subtotal(i) == x;
  }

  /** One more line: the running sum plus that line's amount. */
  lemma LinesTotalSnoc(vs: seq<Value>, v: Value)
    ensures LinesTotal(vs + [v]) == (match (LinesTotal(vs), LineAmount(v))
      case (Some(acc), Some(x)) => PyAdd(acc, x)
      case _ => None)
  {
    assert (vs + [v])[..|vs|] == vs;
  }

  lemma ItemsToValuesSnoc(items: seq<OrderItem>)
    requires |items| > 0
    ensures ItemsToValues(items) == ItemsToValues(items[..|items| - 1]) + [VMap(ItemToDoc(items[|items| - 1]))]
  {
  }

  /** Summing stored lines followed by dumped lines adds the dumped lines' subtotals to the
      stored sum; a stored sum that fails makes the whole sum fail. */
  lemma {:induction false} LinesTotalAppend(stored: seq<Value>, items: seq<OrderItem>)
    ensures LinesTotal(stored).None? ==> LinesTotal(stored + ItemsToValues(items)).None?
    ensures LinesTotal(stored).Some? ==> (LinesTotal(stored + ItemsToValues(items)).Some?
      && AsNumber(LinesTotal(stored + ItemsToValues(items)).value).value
         == AsNumber(LinesTotal(stored).value).value + CalcularTotal(items))
    decreases |items|
  {
    if |items| == 0 {
      assert stored + ItemsToValues(items) == stored;
    } else {
      var init := items[..|items| - 1];
      var last := items[|items| - 1];
      var front := stored + ItemsToValues(init);
      LinesTotalAppend(stored, init);
      ItemsToValuesSnoc(items);
      assert stored + ItemsToValues(items) == front + [VMap(ItemToDoc(last))];
      LinesTotalSnoc(front, VMap(ItemToDoc(last)));
      LineAmountOfItem(last);
      var prefix := LinesTotal(front);
      if prefix.Some? {
        PyAddNumber(prefix.value, VFloat(Subtotal(last)));
      }
    }
  }

  /** The engine's own dump of a list of lines sums to their total. */
  lemma DumpedLinesTotal(items: seq<OrderItem>)
    ensures LinesTotal(ItemsToValues(items)).Some?
    ensures AsNumber(LinesTotal(ItemsToValues(items)).value) == Some(CalcularTotal(items))
  {
    LinesTotalAppend([], items);
    assert [] + ItemsToValues(items) == ItemsToValues(items);
  }

  // ---------------------------------------------------------------------------
  // Creating and updating the open order

  /** `_create_new_order`: id `ord_` + `suffix`, total = Σ subtotals, prep = batch + buffer,
      ETA = now + prep, written with `set` (replacing any document under that id). */
  function CreateOrder(db: Db, phone: string, items: seq<OrderItem>, now: int, suffix: string): (r: (Db, ChatResponse))
    requires AllValid(items)
  {
    var id := "ord_" + suffix;
    var tiempo := CalcularTiempoPrep(items) + Settings.DefaultPrepBufferMinutes;
    var created := UtcNow(now);
    var eta := AddMinutes(created, tiempo);
    var total := CalcularTotal(items);
    match NewOrder(id, phone, created, items, total, tiempo, eta)
    case None => (db, ErrorResponse)
    case Some(o) =>
      var doc := OrderToDoc(o);
      var reply := OrderCreatedReply(total, tiempo, eta);
      (Save(db.(orders := db.orders[id := doc]), phone, Turn(Model, reply)),
       ChatResponse(OrdenCreada, reply, None, Some(doc)))
  }

  /** `data.get('items', [])`, when it can be concatenated with a list. */
  function StoredLines(data: Doc): Option<seq<Value>> {
    if "items" !in data then Some([])
    else if data["items"].VList? then Some(data["items"].elems)
    else None
  }

  /** `data.get('tiempo_preparacion_total', 0)`, when it is an integer. */
  function StoredPrep(data: Doc): Option<int> {
    if "tiempo_preparacion_total" !in data then Some(0) else IntLike(data["tiempo_preparacion_total"])
  }

  /** The fields an update writes. */
  const UpdatedFields: set<string> := {"items", "total", "tiempo_preparacion_total", "hora_entrega_estimada"}

  /** `update_order(id, {...})` with the four fields an update writes: a merge, so every
      other field keeps its value. */
  function UpdatedDoc(data: Doc, all: seq<Value>, total: Value, tiempo: int, eta: Timestamp): (d: Doc)
    ensures forall f :: f in d <==> (f in data || f in UpdatedFields)
    ensures "items" in d && d["items"] == VList(all)
    ensures "total" in d && d["total"] == total
    ensures "tiempo_preparacion_total" in d && d["tiempo_preparacion_total"] == VInt(tiempo)
    ensures "hora_entrega_estimada" in d && d["hora_entrega_estimada"] == VTime(eta)
    ensures forall f :: f in data && f !in UpdatedFields ==> d[f] == data[f]
  {
    data["items" := VList(all)]["total" := total]["tiempo_preparacion_total" := VInt(tiempo)]["hora_entrega_estimada" := VTime(eta)]
  }

  /** The writes of a successful update: the merged document, the confirmation saved, and
      the `orden` summary of id, total, lines and prep time. */
  function WriteUpdate(db: Db, phone: string, id: string, all: seq<Value>, total: Value, tiempo: int, now: int): (r: (Db, ChatResponse))
    requires id in db.orders
  {
    var eta := AddMinutes(UtcNow(now), tiempo);
    var reply := OrderUpdatedReply(AsNumber(total).GetOr(0.0), tiempo, eta);
    var orden := map["id" := VStr(id), "total" := total, "items" := VList(all), "tiempo_estimado" := VInt(tiempo)];
    (Save(db.(orders := db.orders[id := UpdatedDoc(db.orders[id], all, total, tiempo, eta)]), phone, Turn(Model, reply)),
     ChatResponse(OrdenActualizada, reply, None, Some(orden)))
  }

  /** The new contents of a stored order extended with a batch: the stored lines followed by
      the new ones, their sum, and the stored prep time raised by the batch alone (no second
      buffer); `None` when the stored lines or prep time are not usable or some line cannot
      be summed. */
  function Extended(data: Doc, items: seq<OrderItem>): Option<(seq<Value>, Value, int)> {
    match (StoredLines(data), StoredPrep(data))
    case (Some(current), Some(before)) =>
      (match LinesTotal(current + ItemsToValues(items))
       case None => None
       case Some(total) => Some((current + ItemsToValues(items), total, before + CalcularTiempoPrep(items))))
    case _ => None
  }

  /** `_update_existing_order`: the open order gets its new contents and a new ETA; only those
      four fields are written. */
  function UpdateOrder(db: Db, phone: string, id: string, items: seq<OrderItem>, now: int): (r: (Db, ChatResponse))
    requires id in db.orders
  {
    match Extended(db.orders[id], items)
    case None => (db, ErrorResponse)
    case Some((all, total, tiempo)) => WriteUpdate(db, phone, id, all, total, tiempo, now)
  }

  /** `_handle_order`: price the batch, then update the open order the query returned, or
      create one when there is none. A line failing validation fails the whole message with
      nothing written. */
  function HandleOrder(
    db: Db, cache: Menu.MenuCache, phone: string, raws: seq<RawItem>, pending: Option<string>,
    now: int, suffix: string, source: seq<Menu.MenuDoc>, score: (string, string) -> real): (r: (Db, Menu.MenuCache, ChatResponse))
    requires PendingAnswer(db, phone, pending)
    ensures r.2.tipo in {OrdenCreada, OrdenActualizada, Error}
    ensures r.2.tipo == OrdenCreada ==> pending.None?
    ensures r.2.tipo == OrdenActualizada ==> pending.Some?
    ensures r.2.tipo == Error ==> r.0 == db
  {
    var (c, lines) := PriceLines(cache, source, raws, score);
    match lines
    case None => (db, c, ErrorResponse)
    case Some(items) =>
      match pending
      case None =>
        var (db', resp) := CreateOrder(db, phone, items, now, suffix);
        (db', c, resp)
      case Some(id) =>
        var (db', resp) := UpdateOrder(db, phone, id, items, now);
        (db', c, resp)
  }

  // ---------------------------------------------------------------------------
  // Cancelling

  /** The time since creation in microseconds, as `_handle_cancellation` measures it: a
      missing or false `fecha_creacion` counts as no time at all, a naive datetime is read as
      UTC, and any other value fails (`.tzinfo` on a non-datetime). */
  function ElapsedSinceCreation(data: Doc, now: int): Option<int> {
    if "fecha_creacion" !in data || !Truthy(data["fecha_creacion"]) then Some(0)
    else if data["fecha_creacion"].VTime? then Some(now - UtcMicros(data["fecha_creacion"].t))
    else None
  }

  const CancelLimitMicros := Settings.CancelTimeLimitMinutes * MicrosPerMinute

  /** `minutos_pasados > CANCEL_TIME_LIMIT_MINUTES`, with minutes = elapsed / 60 s. */
  predicate TooLate(elapsed: int) {
    elapsed as real / MicrosPerMinute as real > Settings.CancelTimeLimitMinutes as real
  }

  lemma TooLateIff(elapsed: int)
    ensures TooLate(elapsed) <==> elapsed > CancelLimitMicros
  {
    var m := MicrosPerMinute as real;
    if elapsed > CancelLimitMicros {
      assert elapsed as real > 5.0 * m;
    } else {
      assert elapsed as real <= 5.0 * m;
    }
  }

  /** `_handle_cancellation`: with no open order, say so; past the window, refuse; otherwise
      mark the open order `cancelado` (only that field is written). */
  function HandleCancellation(db: Db, phone: string, razon: Option<string>, pending: Option<string>, now: int): (r: (Db, ChatResponse))
    requires PendingAnswer(db, phone, pending)
    ensures r.1.tipo in {Texto, OrdenCancelada, Error}
    ensures r.1.tipo != OrdenCancelada ==> r.0.orders == db.orders
    ensures r.1.tipo == Error ==> r.0 == db
  {
    match pending
    case None =>
      (Save(db, phone, Turn(Model, NoPendingReply)), ChatResponse(Texto, NoPendingReply, None, None))
    case Some(id) =>
      var data := db.orders[id];
      match ElapsedSinceCreation(data, now)
      case None => (db, ErrorResponse)
      case Some(elapsed) =>
        var minutes := WholeMinutes(elapsed);
        if TooLate(elapsed) then
          (Save(db, phone, Turn(Model, TooLateReply(minutes))), ChatResponse(Texto, TooLateReply(minutes), None, None))
        else
          var reply := CancelledReply(minutes, id, razon.GetOr("Sin razón"));
          var db' := db.(orders := db.orders[id := data["estado" := VStr(StatusName(Cancelado))]]);
          (Save(db', phone, Turn(Model, reply)), ChatResponse(OrdenCancelada, reply, None, None))
  }

  // ---------------------------------------------------------------------------
  // Text replies and dispatch

  /** `_handle_text_response`: a JSON list of strings is sent as bubbles, joined by spaces
      for the single message; any other text is sent as it is. */
  function HandleText(db: Db, phone: string, text: string): (r: (Db, ChatResponse))
    ensures r.0.orders == db.orders
    ensures r.1.tipo == Texto
    ensures r.1.mensajes.Some? <==> Bubbles.ParseBubbles(text).Some?
  {
    match Bubbles.ParseBubbles(text)
    case Some(xs) =>
      var full := Join(" ", xs);
      (Save(db, phone, Turn(Model, Said(full))), ChatResponse(Texto, Said(full), Some(xs), None))
    case None =>
      (Save(db, phone, Turn(Model, Said(text))), ChatResponse(Texto, Said(text), None, None))
  }

  /** The part of `process_chat` after the classifier has answered. */
  function Dispatch(
    db: Db, cache: Menu.MenuCache, phone: string, reply: ClassifierReply, pending: Option<string>,
    now: int, suffix: string, source: seq<Menu.MenuDoc>, score: (string, string) -> real): (r: (Db, Menu.MenuCache, ChatResponse))
    requires PendingAnswer(db, phone, pending)
    ensures !reply.OrderCall? ==> r.1 == cache
    ensures (reply.NoCandidates? || reply.OtherCall?) ==> r.2.tipo == Error
    ensures r.2.tipo == Error ==> r.0 == db
  {
    match reply
    case NoCandidates => (db, cache, ChatResponse(Error, NoValidAnswer, None, None))
    case OrderCall(raws) => HandleOrder(db, cache, phone, raws, pending, now, suffix, source, score)
    case CancelCall(razon) =>
      var (db', resp) := HandleCancellation(db, phone, razon, pending, now);
      (db', cache, resp)
    case OtherCall => (db, cache, ErrorResponse)
    case TextReply(text) =>
      var (db', resp) := HandleText(db, phone, text);
      (db', cache, resp)
  }

  /** `process_chat(phone, text)`: the customer's turn is saved first, then the answer is
      dispatched; `pending` is the pending-order query's answer on the store as it is once
      the turn is saved. */
  function ProcessChat(
    db: Db, cache: Menu.MenuCache, phone: string, text: string, reply: ClassifierReply,
    pending: Option<string>, now: int, suffix: string, source: seq<Menu.MenuDoc>,
    score: (string, string) -> real): (r: (Db, Menu.MenuCache, ChatResponse))
    requires PendingAnswer(db, phone, pending)
    ensures |HistoryOf(r.0, phone)| > |HistoryOf(db, phone)|
    ensures HistoryOf(r.0, phone)[..|HistoryOf(db, phone)| + 1] == HistoryOf(db, phone) + [Turn(User, Said(text))]
    ensures r.2.tipo == Error ==> r.0 == Save(db, phone, Turn(User, Said(text)))
  {
    var saved := Save(db, phone, Turn(User, Said(text)));
    var r := Dispatch(saved, cache, phone, reply, pending, now, suffix, source, score);
    DispatchKeepsHistory(saved, cache, phone, reply, pending, now, suffix, source, score);
    r
  }

  /** `db'` only appends to `phone`'s history and leaves every other customer's history
      as it was. */
  ghost predicate AppendsOnly(db: Db, db': Db, phone: string) {
    && |HistoryOf(db', phone)| >= |HistoryOf(db, phone)|
    && HistoryOf(db', phone)[..|HistoryOf(db, phone)|] == HistoryOf(db, phone)
    && forall p :: p != phone ==> HistoryOf(db', p) == HistoryOf(db, p)
  }

  /** Handling an answer only ever appends to the customer's history. */
  lemma DispatchKeepsHistory(
    db: Db, cache: Menu.MenuCache, phone: string, reply: ClassifierReply, pending: Option<string>,
    now: int, suffix: string, source: seq<Menu.MenuDoc>, score: (string, string) -> real)
    requires PendingAnswer(db, phone, pending)
    ensures var h := HistoryOf(Dispatch(db, cache, phone, reply, pending, now, suffix, source, score).0, phone);
      |h| >= |HistoryOf(db, phone)| && h[..|HistoryOf(db, phone)|] == HistoryOf(db, phone)
    ensures forall p :: p != phone ==>
      HistoryOf(Dispatch(db, cache, phone, reply, pending, now, suffix, source, score).0, p) == HistoryOf(db, p)
  {
    AppendsOnlyRefl(db, phone);
    match reply
    case NoCandidates =>
    case OrderCall(raws) => HandleOrderAppendsOnly(db, cache, phone, raws, pending, now, suffix, source, score);
    case CancelCall(razon) => CancelAppendsOnly(db, phone, razon, pending, now);
    case OtherCall =>
    case TextReply(text) => TextAppendsOnly(db, phone, text);
  }

  lemma AppendsOnlyRefl(db: Db, phone: string)
    ensures AppendsOnly(db, db, phone)
  {
    assert HistoryOf(db, phone)[..|HistoryOf(db, phone)|] == HistoryOf(db, phone);
  }

  /** Saving one turn on a store with the same histories appends exactly that turn. */
  lemma SaveAppendsOnly(db: Db, mid: Db, phone: string, t: Turn)
    requires mid.history == db.history
    ensures AppendsOnly(db, Save(mid, phone, t), phone)
  {
    var h := HistoryOf(db, phone);
    assert (h + [t])[..|h|] == h;
  }

  lemma HandleOrderAppendsOnly(
    db: Db, cache: Menu.MenuCache, phone: string, raws: seq<RawItem>, pending: Option<string>,
    now: int, suffix: string, source: seq<Menu.MenuDoc>, score: (string, string) -> real)
    requires PendingAnswer(db, phone, pending)
    ensures AppendsOnly(db, HandleOrder(db, cache, phone, raws, pending, now, suffix, source, score).0, phone)
  {
    AppendsOnlyRefl(db, phone);
    var (c, lines) := PriceLines(cache, source, raws, score);
    if lines.Some? && pending.None? {
      CreateAppendsOnly(db, phone, lines.value, now, suffix);
    } else if lines.Some? {
      UpdateAppendsOnly(db, phone, pending.value, lines.value, now);
    }
  }

  lemma CreateAppendsOnly(db: Db, phone: string, items: seq<OrderItem>, now: int, suffix: string)
    requires AllValid(items)
    ensures AppendsOnly(db, CreateOrder(db, phone, items, now, suffix).0, phone)
  {
    AppendsOnlyRefl(db, phone);
    var id := "ord_" + suffix;
    var tiempo := CalcularTiempoPrep(items) + Settings.DefaultPrepBufferMinutes;
    var eta := AddMinutes(UtcNow(now), tiempo);
    var total := CalcularTotal(items);
    var o := NewOrder(id, phone, UtcNow(now), items, total, tiempo, eta);
    if o.Some? {
      SaveAppendsOnly(db, db.(orders := db.orders[id := OrderToDoc(o.value)]), phone,
                      Turn(Model, OrderCreatedReply(total, tiempo, eta)));
    }
  }

  lemma UpdateAppendsOnly(db: Db, phone: string, id: string, items: seq<OrderItem>, now: int)
    requires id in db.orders
    ensures AppendsOnly(db, UpdateOrder(db, phone, id, items, now).0, phone)
  {
    AppendsOnlyRefl(db, phone);
    var h := HistoryOf(db, phone);
    forall t: Turn ensures (h + [t])[..|h|] == h {
    }
  }

  lemma CancelAppendsOnly(db: Db, phone: string, razon: Option<string>, pending: Option<string>, now: int)
    requires PendingAnswer(db, phone, pending)
    ensures AppendsOnly(db, HandleCancellation(db, phone, razon, pending, now).0, phone)
  {
    AppendsOnlyRefl(db, phone);
    var h := HistoryOf(db, phone);
    forall t: Turn ensures (h + [t])[..|h|] == h {
    }
  }

  lemma TextAppendsOnly(db: Db, phone: string, text: string)
    ensures AppendsOnly(db, HandleText(db, phone, text).0, phone)
  {
    var h := HistoryOf(db, phone);
    forall t: Turn ensures (h + [t])[..|h|] == h {
    }
  }
}

=== FILE: schemas.dfy ===
/**
 * The order data model: the status enumeration, order lines and orders with their
 * validation rules, defaults and derived amounts, and the conversion of an order to and
 * from the dictionary the document store keeps (`to_firestore` / `from_firestore`).
 */
module Schemas {
  import opened Common
  import opened Clock
  import Settings

  // ---------------------------------------------------------------------------
  // Order status

  /** The order lifecycle states. */
  datatype OrderStatus = Pendiente | EnPreparacion | Listo | Entregado | Cancelado

  /** The string each state is stored as. */
  function StatusName(s: OrderStatus): string {
    match s
    case Pendiente => "pendiente"
    case EnPreparacion => "en_preparacion"
    case Listo => "listo"
    case Entregado => "entregado"
    case Cancelado => "cancelado"
  }

  /** `OrderStatus(name)`: the state stored as `name`, if any. */
  function ParseStatus(name: string): (r: Option<OrderStatus>)
    ensures r.Some? ==> StatusName(r.value) == name
    ensures name in StatusNames() ==> r.Some?
  {
    if name == "pendiente" then Some(Pendiente)
    else if name == "en_preparacion" then Some(EnPreparacion)
    else if name == "listo" then Some(Listo)
    else if name == "entregado" then Some(Entregado)
    else if name == "cancelado" then Some(Cancelado)
    else None
  }

  function StatusNames(): set<string> {
    {"pendiente", "en_preparacion", "listo", "entregado", "cancelado"}
  }

  /** Reading back the stored name of a state gives that state. */
  lemma StatusNameRoundTrip(s: OrderStatus)
    ensures ParseStatus(StatusName(s)) == Some(s)
  {
  }

  const AllStatuses: seq<OrderStatus> := [Pendiente, EnPreparacion, Listo, Entregado, Cancelado]

  /** There are exactly five states, stored under five distinct names. */
  lemma StatusEnumeration()
    ensures |AllStatuses| == 5
    ensures forall s: OrderStatus :: s in AllStatuses
    ensures forall i, j :: 0 <= i < j < 5 ==> StatusName(AllStatuses[i]) != StatusName(AllStatuses[j])
  {
    forall s: OrderStatus ensures s in AllStatuses {
      match s
      case Pendiente => assert AllStatuses[0] == s;
      case EnPreparacion => assert AllStatuses[1] == s;
      case Listo => assert AllStatuses[2] == s;
      case Entregado => assert AllStatuses[3] == s;
      case Cancelado => assert AllStatuses[4] == s;
    }
  }

  // ---------------------------------------------------------------------------
  // Stored values (the dictionaries the document store holds)

  /** A value of a stored document, as Python sees it after reading it back. */
  datatype Value =
    | VNull
    | VBool(b: bool)
    | VInt(i: int)
    | VFloat(f: real)
    | VStr(s: string)
    | VTime(t: Timestamp)
    | VList(elems: seq<Value>)
    | VMap(fields: map<string, Value>)

  type Doc = map<string, Value>

  /** Python truthiness (`if value:`). A datetime is always true. */
  predicate Truthy(v: Value) {
    match v
    case VNull => false
    case VBool(b) => b
    case VInt(i) => i != 0
    case VFloat(f) => f != 0.0
    case VStr(s) => s != ""
    case VTime(_) => true
    case VList(e) => e != []
    case VMap(m) => m != map[]
  }

  /** The numeric reading of a value in arithmetic (`bool` counts as 0 or 1); `None`
      for a value whose product with a number is not a number. */
  function AsNumber(v: Value): Option<real> {
    match v
    case VBool(b) => Some(if b then 1.0 else 0.0)
    case VInt(i) => Some(i as real)
    case VFloat(f) => Some(f)
    case _ => None
  }

  function OptStrValue(o: Option<string>): Value {
    match o
    case Some(s) => VStr(s)
    case None => VNull
  }

  function OptTimeValue(o: Option<Timestamp>): Value {
    match o
    case Some(t) => VTime(t)
    case None => VNull
  }

  function StrListValue(xs: seq<string>): Value {
    VList(seq(|xs|, k requires 0 <= k < |xs| => VStr(xs[k])))
  }

  // ---------------------------------------------------------------------------
  // Order lines

  /** One line of an order. */
  datatype OrderItem = OrderItem(
    nombreProducto: string,
    cantidad: int,
    precioUnitario: real,
    costoUnitario: real,
    modificadoresSeleccionados: seq<string>,
    notasEspeciales: Option<string>,
    tiempoPrepUnitario: int)

  /** The field constraints: quantity strictly positive, unit price not negative. */
  predicate ValidItem(i: OrderItem) {
    i.cantidad > 0 && i.precioUnitario >= 0.0
  }

  predicate AllValid(items: seq<OrderItem>) {
    forall k :: 0 <= k < |items| ==> ValidItem(items[k])
  }

  lemma AllValidCons(x: OrderItem, xs: seq<OrderItem>)
    requires ValidItem(x) && AllValid(xs)
    ensures AllValid([x] + xs)
  {
    assert forall k :: 1 <= k < |xs| + 1 ==> ([x] + xs)[k] == xs[k - 1];
  }

  const DefaultCost: real := 0.0
  const DefaultItemPrepMinutes: int := 5

  /** `OrderItem(...)`: validates quantity and price and fills the omitted fields with their
      defaults (cost 0.0, no modifiers, no notes, 5 prep minutes per unit). */
  function MakeOrderItem(
    nombre: string, cantidad: int, precio: real, costo: Option<real>,
    modificadores: Option<seq<string>>, notas: Option<string>, tiempo: Option<int>): (r: Option<OrderItem>)
    ensures r.Some? <==> cantidad > 0 && precio >= 0.0
    ensures r.Some? ==> ValidItem(r.value)
    ensures r.Some? ==> (r.value.nombreProducto == nombre && r.value.cantidad == cantidad
                         && r.value.precioUnitario == precio && r.value.notasEspeciales == notas)
    ensures r.Some? ==> (r.value.costoUnitario == costo.GetOr(DefaultCost)
                         && r.value.modificadoresSeleccionados == modificadores.GetOr([])
                         && r.value.tiempoPrepUnitario == tiempo.GetOr(DefaultItemPrepMinutes))
  {
    if cantidad > 0 && precio >= 0.0 then
      Some(OrderItem(nombre, cantidad, precio, costo.GetOr(DefaultCost), modificadores.GetOr([]),
                     notas, tiempo.GetOr(DefaultItemPrepMinutes)))
    else None
  }

  /** `cantidad × precio_unitario` */
  function Subtotal(i: OrderItem): (r: real)
    ensures ValidItem(i) ==> r >= 0.0
    ensures ValidItem(i) ==> r >= i.precioUnitario
  {
    i.cantidad as real * i.precioUnitario
  }

  /** `cantidad × costo_unitario` */
  function CostoTotal(i: OrderItem): (r: real)
    ensures i.costoUnitario == i.precioUnitario * Settings.DefaultCostPercentage
      ==> r == Subtotal(i) * Settings.DefaultCostPercentage
  {
    var q := i.cantidad as real;
    assert q * (i.precioUnitario * Settings.DefaultCostPercentage)
      == (q * i.precioUnitario) * Settings.DefaultCostPercentage;
    q * i.costoUnitario
  }

  /** `calcular_total`: the sum of the line subtotals. */
  function CalcularTotal(items: seq<OrderItem>): (r: real)
    ensures AllValid(items) ==> r >= 0.0
    decreases |items|
  {
    if |items| == 0 then 0.0
    else CalcularTotal(items[..|items| - 1]) + Subtotal(items[|items| - 1])
  }

  /** `calcular_tiempo_prep`: the sum of per-unit prep time × quantity. */
  function CalcularTiempoPrep(items: seq<OrderItem>): (r: int)
    ensures (forall k :: 0 <= k < |items| ==> items[k].cantidad > 0 && items[k].tiempoPrepUnitario >= 0)
      ==> r >= 0
    decreases |items|
  {
    if |items| == 0 then 0
    else
      var last := items[|items| - 1];
      CalcularTiempoPrep(items[..|items| - 1]) + last.tiempoPrepUnitario * last.cantidad
  }

  /** The total of lines appended after others is the sum of both totals. */
  lemma {:induction false} CalcularTotalAppend(a: seq<OrderItem>, b: seq<OrderItem>)
    ensures CalcularTotal(a + b) == CalcularTotal(a) + CalcularTotal(b)
    decreases |b|
  {
    if |b| > 0 {
      assert (a + b)[..|a + b| - 1] == a + b[..|b| - 1];
      CalcularTotalAppend(a, b[..|b| - 1]);
    } else {
      assert a + b == a;
    }
  }

  /** Prep time of lines appended after others is the sum of both prep times. */
  lemma {:induction false} CalcularTiempoPrepAppend(a: seq<OrderItem>, b: seq<OrderItem>)
    ensures CalcularTiempoPrep(a + b) == CalcularTiempoPrep(a) + CalcularTiempoPrep(b)
    decreases |b|
  {
    if |b| > 0 {
      assert (a + b)[..|a + b| - 1] == a + b[..|b| - 1];
      CalcularTiempoPrepAppend(a, b[..|b| - 1]);
    } else {
      assert a + b == a;
    }
  }

  // ---------------------------------------------------------------------------
  // Orders

  datatype Order = Order(
    id: Option<string>,
    idCliente: string,
    fechaCreacion: Timestamp,
    items: seq<OrderItem>,
    total: real,
    estado: OrderStatus,
    metodoPago: string,
    requiereFactura: bool,
    horaEntregaEstimada: Option<Timestamp>,
    horaEntregaProgramada: Option<Timestamp>,
    tiempoPreparacionTotal: int,
    notasOrden: Option<string>)

  /** The field constraints of an order: total not negative, every line valid. */
  predicate ValidOrder(o: Order) {
    o.total >= 0.0 && AllValid(o.items)
  }

  const DefaultPaymentMethod: string := "pendiente"

  /** `Order(id=…, id_cliente=…, items=…, total=…, tiempo_preparacion_total=…,
      hora_entrega_estimada=…)` built at clock reading `now`: it is rejected when the total is
      negative; every other field takes its default (created now, pending, payment
      "pendiente", no invoice, no scheduled time, no notes). */
  function NewOrder(
    id: string, idCliente: string, now: Timestamp, items: seq<OrderItem>, total: real,
    tiempo: int, horaEntrega: Timestamp): (r: Option<Order>)
    ensures r.Some? <==> total >= 0.0
    ensures r.Some? ==> (r.value.estado == Pendiente && r.value.fechaCreacion == now
                         && r.value.id == Some(id) && r.value.idCliente == idCliente
                         && r.value.items == items && r.value.total == total
                         && r.value.tiempoPreparacionTotal == tiempo
                         && r.value.horaEntregaEstimada == Some(horaEntrega))
    ensures r.Some? ==> (r.value.metodoPago == DefaultPaymentMethod && !r.value.requiereFactura
                         && r.value.horaEntregaProgramada == None && r.value.notasOrden == None)
  {
    if total >= 0.0 then
      Some(Order(Some(id), idCliente, now, items, total, Pendiente, DefaultPaymentMethod, false,
                 Some(horaEntrega), None, tiempo, None))
    else None
  }

  // ---------------------------------------------------------------------------
  // to_firestore: the dictionary `model_dump()` produces (computed fields included)

  function ItemToDoc(i: OrderItem): Doc {
    map[
      "nombre_producto" := VStr(i.nombreProducto),
      "cantidad" := VInt(i.cantidad),
      "precio_unitario" := VFloat(i.precioUnitario),
      "costo_unitario" := VFloat(i.costoUnitario),
      "modificadores_seleccionados" := StrListValue(i.modificadoresSeleccionados),
      "notas_especiales" := OptStrValue(i.notasEspeciales),
      "tiempo_prep_unitario" := VInt(i.tiempoPrepUnitario),
      "subtotal" := VFloat(Subtotal(i)),
      "costo_total" := VFloat(CostoTotal(i))
    ]
  }

  /** The dumped lines, one dictionary per line, in order. */
  function ItemsToValues(items: seq<OrderItem>): (vs: seq<Value>)
    ensures |vs| == |items|
    decreases |items|
  {
    if |items| == 0 then []
    else ItemsToValues(items[..|items| - 1]) + [VMap(ItemToDoc(items[|items| - 1]))]
  }

  /** Line `k` of the dump is the dictionary of line `k`. */
  lemma {:induction false} ItemsToValuesAt(items: seq<OrderItem>, k: int)
    requires 0 <= k < |items|
    ensures ItemsToValues(items)[k] == VMap(ItemToDoc(items[k]))
    decreases |items|
  {
    if k < |items| - 1 {
      ItemsToValuesAt(items[..|items| - 1], k);
    }
  }

  function OrderToDoc(o: Order): Doc {
    map[
      "id" := OptStrValue(o.id),
      "id_cliente" := VStr(o.idCliente),
      "fecha_creacion" := VTime(o.fechaCreacion),
      "items" := VList(ItemsToValues(o.items)),
      "total" := VFloat(o.total),
      "estado" := VStr(StatusName(o.estado)),
      "metodo_pago" := VStr(o.metodoPago),
      "requiere_factura" := VBool(o.requiereFactura),
      "hora_entrega_estimada" := OptTimeValue(o.horaEntregaEstimada),
      "hora_entrega_programada" := OptTimeValue(o.horaEntregaProgramada),
      "tiempo_preparacion_total" := VInt(o.tiempoPreparacionTotal),
      "notas_orden" := OptStrValue(o.notasOrden)
    ]
  }

  // ---------------------------------------------------------------------------
  // from_firestore: validating a dictionary back into a model
  // (each reader answers None when validation would raise)

  function ReqStr(d: Doc, k: string): Option<string> {
    if k in d && d[k].VStr? then Some(d[k].s) else None
  }

  function StrOr(d: Doc, k: string, default: string): Option<string> {
    if k !in d then Some(default) else if d[k].VStr? then Some(d[k].s) else None
  }

  /** An `Optional[str]` field: absent or null is None. */
  function OptStr(d: Doc, k: string): Option<Option<string>> {
    if k !in d || d[k].VNull? then Some(None)
    else if d[k].VStr? then Some(Some(d[k].s))
    else None
  }

  /** A `float` field: an int is accepted and widened. */
  function FloatOf(v: Value): Option<real> {
    match v
    case VInt(i) => Some(i as real)
    case VFloat(f) => Some(f)
    case _ => None
  }

  function FloatOr(d: Doc, k: string, default: Option<real>): Option<real> {
    if k !in d then default else FloatOf(d[k])
  }

  function IntOr(d: Doc, k: string, default: Option<int>): Option<int> {
    if k !in d then default else if d[k].VInt? then Some(d[k].i) else None
  }

  function BoolOr(d: Doc, k: string, default: bool): Option<bool> {
    if k !in d then Some(default) else if d[k].VBool? then Some(d[k].b) else None
  }

  function OptTime(d: Doc, k: string): Option<Option<Timestamp>> {
    if k !in d || d[k].VNull? then Some(None)
    else if d[k].VTime? then Some(Some(d[k].t))
    else None
  }

  function StrsOf(vs: seq<Value>): (r: Option<seq<string>>)
    ensures r.Some? ==> |r.value| == |vs|
    decreases |vs|
  {
    if |vs| == 0 then Some([])
    else if !vs[|vs| - 1].VStr? then None
    else match StrsOf(vs[..|vs| - 1])
      case None => None
      case Some(xs) => Some(xs + [vs[|vs| - 1].s])
  }

  /** A `List[str]` field with default `[]`. */
  function StrListOr(d: Doc, k: string): Option<seq<string>> {
    if k !in d then Some([]) else if d[k].VList? then StrsOf(d[k].elems) else None
  }

  /** `OrderItem(**data)`: unknown keys (such as the dumped `subtotal`) are ignored. */
  function ItemFromDoc(d: Doc): (r: Option<OrderItem>)
    ensures r.Some? ==> ValidItem(r.value)
  {
    match (ReqStr(d, "nombre_producto"), IntOr(d, "cantidad", None),
           FloatOr(d, "precio_unitario", None), FloatOr(d, "costo_unitario", Some(DefaultCost)),
           StrListOr(d, "modificadores_seleccionados"), OptStr(d, "notas_especiales"),
           IntOr(d, "tiempo_prep_unitario", Some(DefaultItemPrepMinutes)))
    case (Some(n), Some(c), Some(p), Some(cost), Some(mods), Some(notas), Some(t)) =>
      MakeOrderItem(n, c, p, Some(cost), Some(mods), notas, Some(t))
    case _ => None
  }

  function ItemsFromValues(vs: seq<Value>): (r: Option<seq<OrderItem>>)
    ensures r.Some? ==> |r.value| == |vs| && AllValid(r.value)
    decreases |vs|
  {
    if |vs| == 0 then Some([])
    else if !vs[|vs| - 1].VMap? then None
    else match (ItemsFromValues(vs[..|vs| - 1]), ItemFromDoc(vs[|vs| - 1].fields))
      case (Some(xs), Some(x)) => Some(xs + [x])
      case _ => None
  }

  function ItemsOr(d: Doc, k: string): Option<seq<OrderItem>> {
    if k !in d then Some([]) else if d[k].VList? then ItemsFromValues(d[k].elems) else None
  }

  function StatusOr(d: Doc, k: string): Option<OrderStatus> {
    if k !in d then Some(Pendiente) else if d[k].VStr? then ParseStatus(d[k].s) else None
  }

  function TimeOr(d: Doc, k: string, default: Timestamp): Option<Timestamp> {
    if k !in d then Some(default) else if d[k].VTime? then Some(d[k].t) else None
  }

  /** `Order.from_firestore(data, doc_id)` at clock reading `now` (the default creation
      time): a non-empty `doc_id` overrides the stored id, then the dictionary is validated. */
  function OrderFromDoc(data: Doc, docId: Option<string>, now: Timestamp): (r: Option<Order>)
    ensures r.Some? ==> ValidOrder(r.value)
    ensures r.Some? && docId.Some? && docId.value != "" ==> r.value.id == docId
  {
    var d := IdOverride(data, docId);
    match (OptStr(d, "id"), ReqStr(d, "id_cliente"), TimeOr(d, "fecha_creacion", now),
           ItemsOr(d, "items"), FloatOr(d, "total", Some(0.0)), StatusOr(d, "estado"))
    case (Some(id), Some(cliente), Some(fecha), Some(items), Some(total), Some(estado)) =>
      (match (StrOr(d, "metodo_pago", DefaultPaymentMethod), BoolOr(d, "requiere_factura", false),
             OptTime(d, "hora_entrega_estimada"), OptTime(d, "hora_entrega_programada"),
             IntOr(d, "tiempo_preparacion_total", Some(0)), OptStr(d, "notas_orden"))
      case (Some(pago), Some(factura), Some(estimada), Some(programada), Some(tiempo), Some(notas)) =>
        if total >= 0.0 then
          Some(Order(id, cliente, fecha, items, total, estado, pago, factura, estimada, programada,
                     tiempo, notas))
        else None
      case _ => None)
    case _ => None
  }

  // ---------------------------------------------------------------------------
  // Round trips

  lemma {:induction false} StrListRoundTrip(xs: seq<string>)
    ensures StrsOf(StrListValue(xs).elems) == Some(xs)
    decreases |xs|
  {
    if |xs| > 0 {
      var vs := StrListValue(xs).elems;
      var init := xs[..|xs| - 1];
      assert vs[..|vs| - 1] == StrListValue(init).elems;
      StrListRoundTrip(init);
      assert init + [xs[|xs| - 1]] == xs;
    }
  }

  /** A valid line read back from its dictionary is the same line. */
  lemma ItemRoundTrip(i: OrderItem)
    requires ValidItem(i)
    ensures ItemFromDoc(ItemToDoc(i)) == Some(i)
  {
    StrListRoundTrip(i.modificadoresSeleccionados);
  }

  lemma {:induction false} ItemsRoundTrip(items: seq<OrderItem>)
    requires AllValid(items)
    ensures ItemsFromValues(ItemsToValues(items)) == Some(items)
    decreases |items|
  {
    if |items| > 0 {
      var init, last := items[..|items| - 1], items[|items| - 1];
      ItemsRoundTrip(init);
      ItemRoundTrip(last);
      ItemsFromValuesSnoc(ItemsToValues(init), ItemToDoc(last), init, last);
      assert init + [last] == items;
    }
  }

  /** Reading one more dictionary appends one more line. */
  lemma ItemsFromValuesSnoc(vs: seq<Value>, d: Doc, xs: seq<OrderItem>, x: OrderItem)
    requires ItemsFromValues(vs) == Some(xs) && ItemFromDoc(d) == Some(x)
    ensures ItemsFromValues(vs + [VMap(d)]) == Some(xs + [x])
  {
    assert (vs + [VMap(d)])[..|vs|] == vs;
  }

  /** The dictionary of `o`, with the id a non-empty `doc_id` overrides. */
  function IdOverride(data: Doc, docId: Option<string>): Doc {
    if docId.Some? && docId.value != "" then data["id" := VStr(docId.value)] else data
  }

  /** The identity fields of a dumped order read back as stored (the id possibly overridden). */
  lemma OrderIdentityFields(o: Order, docId: Option<string>, now: Timestamp)
    ensures var d := IdOverride(OrderToDoc(o), docId);
      && OptStr(d, "id") == Some(if docId.Some? && docId.value != "" then docId else o.id)
      && ReqStr(d, "id_cliente") == Some(o.idCliente)
      && TimeOr(d, "fecha_creacion", now) == Some(o.fechaCreacion)
  {
  }

  /** The lines of a dumped valid order read back as stored. */
  lemma OrderItemsField(o: Order, docId: Option<string>)
    requires ValidOrder(o)
    ensures ItemsOr(IdOverride(OrderToDoc(o), docId), "items") == Some(o.items)
  {
    var d := IdOverride(OrderToDoc(o), docId);
    assert d["items"] == VList(ItemsToValues(o.items));
    ItemsRoundTrip(o.items);
  }

  /** The total and state of a dumped order read back as stored. */
  lemma OrderTotalAndStatusFields(o: Order, docId: Option<string>)
    ensures FloatOr(IdOverride(OrderToDoc(o), docId), "total", Some(0.0)) == Some(o.total)
    ensures StatusOr(IdOverride(OrderToDoc(o), docId), "estado") == Some(o.estado)
  {
    var d := IdOverride(OrderToDoc(o), docId);
    assert d["estado"] == VStr(StatusName(o.estado));
    StatusNameRoundTrip(o.estado);
  }

  /** The remaining six fields of a dumped order read back as stored. */
  lemma OrderTailFields(o: Order, docId: Option<string>)
    ensures var d := IdOverride(OrderToDoc(o), docId);
      && StrOr(d, "metodo_pago", DefaultPaymentMethod) == Some(o.metodoPago)
      && BoolOr(d, "requiere_factura", false) == Some(o.requiereFactura)
      && OptTime(d, "hora_entrega_estimada") == Some(o.horaEntregaEstimada)
      && OptTime(d, "hora_entrega_programada") == Some(o.horaEntregaProgramada)
      && IntOr(d, "tiempo_preparacion_total", Some(0)) == Some(o.tiempoPreparacionTotal)
      && OptStr(d, "notas_orden") == Some(o.notasOrden)
  {
  }

  /** `from_firestore(to_firestore(o), doc_id)` gives back `o`, with the id replaced by
      `doc_id` when a non-empty one is given. */
  lemma OrderRoundTrip(o: Order, docId: Option<string>, now: Timestamp)
    requires ValidOrder(o)
    ensures OrderFromDoc(OrderToDoc(o), docId, now)
      == Some(if docId.Some? && docId.value != "" then o.(id := docId) else o)
  {
    OrderIdentityFields(o, docId, now);
    OrderItemsField(o, docId);
    OrderTotalAndStatusFields(o, docId);
    OrderTailFields(o, docId);
  }
}

=== FILE: text.dfy ===
/**
 * The string primitives the menu index and the menu listing rely on: Python's `str.lower`,
 * `str.strip`, the `in` (substring) test, the accent-folding table of the menu search, and
 * the code-point ordering `sorted` uses on strings.
 */
module Text {

  // ---------------------------------------------------------------------------
  // Case folding

  /** Python's `str.lower` on one character, for ASCII and the Latin-1 letters
      (which include every accented capital Spanish uses: Á É Í Ó Ú Ñ Ü). */
  function LowerChar(c: char): char {
    if 'A' <= c <= 'Z' then (c as int + 32) as char
    else if 'À' <= c <= 'Þ' && c != '×' then (c as int + 32) as char
    else c
  }

  predicate IsUpper(c: char) {
    ('A' <= c <= 'Z') || ('À' <= c <= 'Þ' && c != '×')
  }

  function Lower(s: string): (r: string)
    ensures |r| == |s|
    ensures forall i :: 0 <= i < |s| ==> r[i] == LowerChar(s[i])
  {
    seq(|s|, i requires 0 <= i < |s| => LowerChar(s[i]))
  }

  lemma LowerCharIdempotent(c: char)
    ensures LowerChar(LowerChar(c)) == LowerChar(c)
    ensures !IsUpper(LowerChar(c))
  {
  }

  /** Lowering twice is lowering once, and lowered text has no capital left. */
  lemma LowerIdempotent(s: string)
    ensures Lower(Lower(s)) == Lower(s)
    ensures forall i :: 0 <= i < |s| ==> !IsUpper(Lower(s)[i])
  {
    forall i | 0 <= i < |s|
      ensures Lower(Lower(s))[i] == Lower(s)[i] && !IsUpper(Lower(s)[i])
    {
      LowerCharIdempotent(s[i]);
    }
  }

  // ---------------------------------------------------------------------------
  // Accent folding (the replacement table of the menu search)

  /** One entry of the table: á é í ó ú ñ ü become a e i o u n u; other characters stay. */
  function PlainChar(c: char): (p: char)
    ensures c == 'á' ==> p == 'a'
    ensures c == 'é' ==> p == 'e'
    ensures c == 'í' ==> p == 'i'
    ensures c == 'ó' ==> p == 'o'
    ensures c == 'ú' ==> p == 'u'
    ensures c == 'ñ' ==> p == 'n'
    ensures c == 'ü' ==> p == 'u'
    ensures !IsFoldedAccent(c) ==> p == c
  {
    if c == 'á' then 'a'
    else if c == 'é' then 'e'
    else if c == 'í' then 'i'
    else if c == 'ó' then 'o'
    else if c == 'ú' then 'u'
    else if c == 'ñ' then 'n'
    else if c == 'ü' then 'u'
    else c
  }

  predicate IsFoldedAccent(c: char) {
    c in {'á', 'é', 'í', 'ó', 'ú', 'ñ', 'ü'}
  }

  /** Lower-case the text, then replace every accented vowel, ñ and ü by its plain letter.
      The replacements map single characters to letters outside the table, so applying
      them one after another is the same as folding each character on its own. */
  function Normalize(s: string): (r: string)
    ensures |r| == |s|
    ensures forall i :: 0 <= i < |s| ==> !IsFoldedAccent(r[i]) && !IsUpper(r[i])
    ensures forall i :: 0 <= i < |s| ==> r[i] == PlainChar(LowerChar(s[i]))
  {
    seq(|s|, i requires 0 <= i < |s| => PlainChar(LowerChar(s[i])))
  }

  /** Folding folded text changes nothing. */
  lemma NormalizeIdempotent(s: string)
    ensures Normalize(Normalize(s)) == Normalize(s)
  {
    var n := Normalize(s);
    forall i | 0 <= i < |s|
      ensures Normalize(n)[i] == n[i]
    {
      assert !IsUpper(n[i]) && !IsFoldedAccent(n[i]);
    }
  }

  /** Text that already is lower-case and accent-free folds to itself. */
  lemma NormalizeFixesPlain(s: string)
    requires forall i :: 0 <= i < |s| ==> !IsUpper(s[i]) && !IsFoldedAccent(s[i])
    ensures Normalize(s) == s
  {
  }

  // ---------------------------------------------------------------------------
  // Whitespace stripping

  /** Python's `str.isspace` on one character. */
  predicate IsSpace(c: char) {
    var n := c as int;
    (0x09 <= n <= 0x0D) || (0x1C <= n <= 0x20) || n == 0x85 || n == 0xA0 || n == 0x1680
    || (0x2000 <= n <= 0x200A) || n == 0x2028 || n == 0x2029 || n == 0x202F || n == 0x205F
    || n == 0x3000
  }

  function StripLeft(s: string): (r: string)
    ensures |r| <= |s| && r == s[|s| - |r|..]
    ensures |r| > 0 ==> !IsSpace(r[0])
    ensures forall i :: 0 <= i < |s| - |r| ==> IsSpace(s[i])
    decreases |s|
  {
    if |s| > 0 && IsSpace(s[0]) then StripLeft(s[1..]) else s
  }

  function StripRight(s: string): (r: string)
    ensures |r| <= |s| && r == s[..|r|]
    ensures |r| > 0 ==> !IsSpace(r[|r| - 1])
    ensures forall i :: |r| <= i < |s| ==> IsSpace(s[i])
    decreases |s|
  {
    if |s| > 0 && IsSpace(s[|s| - 1]) then StripRight(s[..|s| - 1]) else s
  }

  /** `r` is the window of `s` at `i`, and everything around that window is whitespace. */
  predicate StrippedAt(s: string, r: string, i: int) {
    && SliceAt(s, r, i)
    && (forall j :: 0 <= j < i ==> IsSpace(s[j]))
    && (forall j :: i + |r| <= j < |s| ==> IsSpace(s[j]))
  }

  /** Python's `str.strip()`: the text without its leading and trailing whitespace. */
  function Strip(s: string): (r: string)
    ensures |r| > 0 ==> !IsSpace(r[0]) && !IsSpace(r[|r| - 1])
    ensures exists i :: StrippedAt(s, r, i)
  {
    var l := StripLeft(s);
    var r := StripRight(l);
    var i := |s| - |l|;
    assert forall j :: i + |r| <= j < |s| ==> s[j] == l[j - i];
    assert StrippedAt(s, r, i);
    r
  }

  /** Stripping removes exactly the whitespace around the text: any window of `s` that is
      surrounded by whitespace and neither starts nor ends with whitespace is `Strip(s)`. */
  lemma StripUnique(s: string, t: string, i: int)
    requires StrippedAt(s, t, i)
    requires |t| > 0 ==> !IsSpace(t[0]) && !IsSpace(t[|t| - 1])
    ensures Strip(s) == t
  {
    var r := Strip(s);
    var k :| StrippedAt(s, r, k);
    if |t| == 0 {
      StripAllSpace(s);
    } else if |r| > 0 {
      assert s[k] == r[0] && s[i] == t[0];
      assert k == i;
      assert s[k + |r| - 1] == r[|r| - 1] && s[i + |t| - 1] == t[|t| - 1];
      assert |r| == |t|;
    }
  }

  /** Stripping stripped text changes nothing. */
  lemma StripIdempotent(s: string)
    ensures Strip(Strip(s)) == Strip(s)
  {
    var r := Strip(s);
    assert StrippedAt(r, r, 0);
    StripUnique(r, r, 0);
  }

  lemma {:induction false} StripLeftAllSpace(s: string)
    requires forall i :: 0 <= i < |s| ==> IsSpace(s[i])
    ensures StripLeft(s) == ""
    decreases |s|
  {
    if |s| > 0 {
      StripLeftAllSpace(s[1..]);
    }
  }

  /** A string made only of whitespace strips to the empty string. */
  lemma StripAllSpace(s: string)
    requires forall i :: 0 <= i < |s| ==> IsSpace(s[i])
    ensures Strip(s) == ""
  {
    StripLeftAllSpace(s);
  }

  // ---------------------------------------------------------------------------
  // Substring test

  predicate IsPrefix(p: string, s: string) {
    |p| <= |s| && s[..|p|] == p
  }

  /** Python's `needle in hay` on strings. */
  predicate Contains(hay: string, needle: string)
    decreases |hay|
  {
    IsPrefix(needle, hay) || (|hay| > 0 && Contains(hay[1..], needle))
  }

  /** `needle` occurs in `hay` starting at index `i`. */
  predicate SliceAt(hay: string, needle: string, i: int) {
    0 <= i <= |hay| - |needle| && hay[i..i + |needle|] == needle
  }

  /** `Contains` is the textbook substring relation: some window of `hay` spells `needle`. */
  lemma {:induction false} ContainsIff(hay: string, needle: string)
    ensures Contains(hay, needle) <==> exists i :: SliceAt(hay, needle, i)
    decreases |hay|
  {
    if IsPrefix(needle, hay) {
      assert SliceAt(hay, needle, 0);
    } else if |hay| > 0 {
      ContainsIff(hay[1..], needle);
      if Contains(hay[1..], needle) {
        var i :| SliceAt(hay[1..], needle, i);
        assert SliceAt(hay, needle, i + 1);
      }
      if exists i :: SliceAt(hay, needle, i) {
        var i :| SliceAt(hay, needle, i);
        assert i != 0;
        assert SliceAt(hay[1..], needle, i - 1);
      }
    } else {
      assert !SliceAt(hay, needle, 0);
      assert forall i :: !SliceAt(hay, needle, i);
    }
  }

  /** The empty string is in every string (the source's empty-query behaviour rests on this). */
  lemma EmptyInEverything(hay: string)
    ensures Contains(hay, "")
  {
    assert IsPrefix("", hay);
  }

  /** Every string contains itself. */
  lemma ContainsSelf(s: string)
    ensures Contains(s, s)
  {
    assert IsPrefix(s, s);
  }

  // ---------------------------------------------------------------------------
  // Code-point ordering (Python's `<` on str)

  /** `a` sorts no later than `b`: a prefix, or smaller at the first difference. */
  predicate StrLe(a: string, b: string)
    decreases |a|
  {
    |a| == 0 || (|b| > 0 && (a[0] < b[0] || (a[0] == b[0] && StrLe(a[1..], b[1..]))))
  }

  lemma {:induction false} StrLeRefl(a: string)
    ensures StrLe(a, a)
    decreases |a|
  {
    if |a| > 0 {
      StrLeRefl(a[1..]);
    }
  }

  lemma {:induction false} StrLeTotal(a: string, b: string)
    ensures StrLe(a, b) || StrLe(b, a)
    decreases |a|
  {
    if |a| > 0 && |b| > 0 && a[0] == b[0] {
      StrLeTotal(a[1..], b[1..]);
    }
  }

  lemma {:induction false} StrLeTrans(a: string, b: string, c: string)
    requires StrLe(a, b) && StrLe(b, c)
    ensures StrLe(a, c)
    decreases |a|
  {
    if |a| > 0 && a[0] == b[0] && b[0] == c[0] {
      StrLeTrans(a[1..], b[1..], c[1..]);
    }
  }

  lemma {:induction false} StrLeAntisym(a: string, b: string)
    requires StrLe(a, b) && StrLe(b, a)
    ensures a == b
    decreases |a|
  {
    if |a| > 0 {
      StrLeAntisym(a[1..], b[1..]);
      assert a == [a[0]] + a[1..];
      assert b == [b[0]] + b[1..];
    }
  }

  predicate SortedStrings(xs: seq<string>) {
    forall i, j :: 0 <= i < j < |xs| ==> StrLe(xs[i], xs[j])
  }

  /** Place `x` in front of the first element it sorts before. */
  function Insert(x: string, xs: seq<string>): (r: seq<string>)
    requires SortedStrings(xs)
    ensures SortedStrings(r)
    ensures multiset(r) == multiset(xs) + multiset{x}
    decreases |xs|
  {
    if |xs| == 0 then [x]
    else if StrLe(x, xs[0]) then
      assert forall j :: 0 <= j < |xs| ==> StrLe(x, xs[j]) by {
        forall j | 0 <= j < |xs| ensures StrLe(x, xs[j]) {
          if j > 0 { StrLeTrans(x, xs[0], xs[j]); }
        }
      }
      [x] + xs
    else
      var rest := Insert(x, xs[1..]);
      StrLeTotal(x, xs[0]);
      assert xs == [xs[0]] + xs[1..];
      assert forall k :: 0 <= k < |rest| ==> StrLe(xs[0], rest[k]) by {
        forall k | 0 <= k < |rest| ensures StrLe(xs[0], rest[k]) {
          assert rest[k] in multiset(rest);
          assert rest[k] == x || rest[k] in multiset(xs[1..]);
          if rest[k] != x {
            var m :| 0 <= m < |xs[1..]| && xs[1..][m] == rest[k];
            assert xs[m + 1] == rest[k];
          }
        }
      }
      [xs[0]] + rest
  }

  /** Python's `sorted(lines)` on strings: the same lines, in code-point order. */
  function SortStrings(xs: seq<string>): (r: seq<string>)
    ensures SortedStrings(r)
    ensures multiset(r) == multiset(xs)
    decreases |xs|
  {
    if |xs| == 0 then []
    else
      assert xs == xs[..|xs| - 1] + [xs[|xs| - 1]];
      Insert(xs[|xs| - 1], SortStrings(xs[..|xs| - 1]))
  }

  /** Sorting is determined by the multiset of lines alone: two sorted arrangements of the
      same lines are equal. */
  lemma {:induction false} SortedUnique(a: seq<string>, b: seq<string>)
    requires SortedStrings(a) && SortedStrings(b)
    requires multiset(a) == multiset(b)
    ensures a == b
    decreases |a|
  {
    if |a| > 0 {
      assert |b| > 0 by {
        assert a[0] in multiset(a);
      }
      assert a[0] in multiset(b);
      assert b[0] in multiset(a);
      var i :| 0 <= i < |b| && b[i] == a[0];
      var j :| 0 <= j < |a| && a[j] == b[0];
      StrLeRefl(a[0]);
      StrLeRefl(b[0]);
      assert StrLe(b[0], b[i]);
      assert StrLe(a[0], a[j]);
      StrLeAntisym(a[0], b[0]);
      assert a == [a[0]] + a[1..];
      assert b == [b[0]] + b[1..];
      assert multiset(a) == multiset{a[0]} + multiset(a[1..]);
      assert multiset(b) == multiset{b[0]} + multiset(b[1..]);
      assert a[0] == b[0];
      assert multiset(a[1..]) == multiset(a) - multiset{a[0]};
      assert multiset(b[1..]) == multiset(b) - multiset{b[0]};
      assert SortedStrings(a[1..]) by {
        forall x, y | 0 <= x < y < |a| - 1 ensures StrLe(a[1..][x], a[1..][y]) {
          assert a[1..][x] == a[x + 1] && a[1..][y] == a[y + 1];
        }
      }
      assert SortedStrings(b[1..]) by {
        forall x, y | 0 <= x < y < |b| - 1 ensures StrLe(b[1..][x], b[1..][y]) {
          assert b[1..][x] == b[x + 1] && b[1..][y] == b[y + 1];
        }
      }
      SortedUnique(a[1..], b[1..]);
    }
  }
}
